=== FILE: README.md ===
# AIDeveloper orchestration engine in Dafny

A model of the turn-based multi-agent engine of AIDeveloper. A PM agent, a
human User proxy and AI worker agents take turns; every decision is a
*Turn* (sender, target type AGENT or TOOL, recipient, special action,
message, tool arguments); every tool call yields a *ToolResult*. Both go to
an append-only event log that is mirrored in memory and in a JSONL file.

The model covers:

- **Scheduler** (`Orchestrator`): bootstrap of a new project, resume of an
  interrupted one, and one iteration of the run loop as a step function.
  The model's replies, the typed user line and the generated plan come from
  an oracle.
- **Tool dispatch**: name lookup, argument extraction and error results.
- **Kickoff**: the plan artifact and team formation.
- **Log** (`Logger`): `log`, `loadFromFile`, `getLastTurn`, and the
  per-agent projection `getPersonalHistory`.
- **Agents** (`Agents`): the PM's phase detection and the request it makes
  in each phase, the AI worker's request, and the User proxy's reply rule.
- **Compactor** (`Compactor`): the history compaction an AI agent applies
  before prompting. It covers the image rule, the recent window of twenty
  entries, and the tool redaction hooks.
- **Retry loop** (`Retry`): the structured-reply loop with its retry limit.
- **Data model and schema translation** (`Models`, `Zod`,
  `SchemaConverter`): the Turn, ToolResult and plan schemas, the tool-aware
  Turn schema, and its translation into the model's response-schema format.
- **Workspace** (`Workspace`): the containment check for paths, the file
  tree listing and `readFiles`.
- **Web search tool** (`WebSearch`): its redaction hooks, request-header
  rotation, result filtering and error paths.

JavaScript values that move around untyped are `Values.Value`. This covers
tool arguments, tool results and parsed JSON, and includes `undefined`,
`null`, truthiness, and the deep copy through JSON text.

Three sources of behaviour enter the model as parameters:

- The tools are records of functions.
- The file system enters as a tree and a read function.
- Web pages enter as a fetch function.

Where the source has a defect, the model keeps two versions:

- The *as written* member, which behaves as the code does.
- The *corrected* member, which the rest of the model uses.

The section "Findings" lists the defects.

Three behaviours of the code are modelled exactly as written:

- The kickoff transition is not limited to one run. The scheduler runs it
  every time the newest entry carries `FINALIZE_REQUIREMENTS`
  (`Orchestrator.KickoffCanRepeat`).
- The two shipped logger variants differ. `src/core/Logger.ts` tags records
  by `sender === "System"`. `dist/core/Logger.js` tags them by
  `"recipient" in entry`. Both are modelled; the dist variant is the
  corrected one.
- The two User proxies differ. `src/agents/UserAgent.ts` emits
  `special_action: ""`. `dist/agents/UserAgent.js` emits `"_"`.

A Turn's `thought` lives only in memory. The Turn schema has no `thought`
key, so reloading the log strips it. A resumed agent therefore sees each
Turn without its `thought` (`Logger.ReplayDeterminism`,
`Agents.UserThoughtLostOnResume`).

## Model

| member | source | states |
|---|---|---|
| Values.Get | src/tools/WebSearchTool.ts:194 | A property read of `undefined` or `null` throws (None); on an object it reads the field, with an absent key giving `undefined` |
| Values.Jsonify | src/agents/AIAgent.ts:108 | Copying through JSON text yields `undefined` exactly for `undefined`, and otherwise a value with no `undefined` inside |
| Values.JsonifyKeepsJson | src/agents/AIAgent.ts:108 | The deep copy returns any JSON value unchanged |
| Values.JsonifyIdempotent | src/agents/AIAgent.ts:108 | Copying twice is the same as copying once |
| Zod.UpsertKeys | src/models.ts:43-50 | After `obj[key] = value` the keys are exactly the old keys plus `key` |
| Zod.UpsertAt | src/models.ts:43-50 | Assigning a key already present at position n replaces that entry in place and keeps the order of every other entry |
| Zod.UpsertSpec | src/models.ts:43-50 | Assignment keeps keys distinct, makes `key` read as the new value, leaves every other key's value alone, and keeps the key order when `key` was present |
| Zod.Upsert | src/models.ts:40-50 | `obj[key] = value` on an ordered shape; specified by `UpsertKeys`, `UpsertAt` and `UpsertSpec` |
| Tools.Execute | src/orchestrator.ts:209-211 | Invalid arguments give the validation error; valid arguments give exactly what the tool's run returns |
| Tools.ErrorText | src/orchestrator.ts:212-217 | A thrown `Error` reaches the result text as "Error: " followed by its message, unchanged |
| Tools.Registry | src/orchestrator.ts:192-193 | The record built by looping over the tools has exactly the tools' constructor names as keys |
| Tools.RegistryLastWins | src/agents/AIAgent.ts:102-103 | When two tools share a constructor name, the record holds the last one listed |
| Models.TurnRoundTrip | src/models.ts:4-32 | A stored Turn validates back exactly when its target type and special action are enum members; it then comes back with only `thought` stripped and `tool_args` copied through JSON |
| Models.ParseTurn | src/models.ts:4-32 | `TurnOutputSchema.parse`; specified by `TurnRoundTrip` and `SchemasDisjoint` |
| Models.ToolResultRoundTrip | src/models.ts:55-66 | A stored ToolResult always validates back, with its payload copied through JSON |
| Models.ParseToolResult | src/models.ts:55-66 | `ToolResultSchema.parse`; specified by `ToolResultRoundTrip` and `SchemasDisjoint` |
| Models.SchemasDisjoint | src/models.ts:4-66 | The Turn schema rejects every ToolResult and the ToolResult schema rejects every Turn |
| Models.TeamRoundTrip | src/models.ts:69-84 | An array of agent explanations validates back unchanged |
| Models.PlanRoundTrip | src/models.ts:93-108 | The plan artifact validates back as the plan it was written from |
| Models.ParsePlan | src/models.ts:69-108 | `PlanProjectAndKickoffSchema.parse`; specified by `PlanRoundTrip` |
| Models.ToolArgsShapeKeys | src/models.ts:39-42 | The `tool_args` shape has one key per distinct tool constructor name and no other |
| Models.ToolArgsShapeLastWins | src/models.ts:40-42 | The schema under a tool name is the optional argument schema of the last tool with that name |
| Models.BaseShapeDistinct | src/models.ts:4-32 | The base Turn shape has six distinct keys |
| Models.SchemaWithToolsKeepsBase | src/models.ts:36-52 | The tool-aware schema is an object with the base keys in base order; every field but `tool_args` is unchanged, and `tool_args` holds the tool shape |
| Models.TurnOutputSchemaWithTools | src/models.ts:36-52 | `getTurnOutputSchemaWithTools`; specified by `SchemaWithToolsKeepsBase`, `ToolArgsShapeKeys`, `ToolArgsShapeLastWins` and `SchemaConverter.TurnSchemaRequired` |
| SchemaConverter.Decorate | src/core/ZodSchemaConverter.ts:18-28 | `nullable` is set from `isOptional()` only when absent; a non-empty description overrides; no other field changes |
| SchemaConverter.RequiredKeysMembers | src/core/ZodSchemaConverter.ts:44-49 | A key is pushed to `required` exactly when its schema is not a ZodOptional |
| SchemaConverter.RequiredKeysInOrder | src/core/ZodSchemaConverter.ts:44-49 | The required keys are the non-optional keys in shape order |
| SchemaConverter.ObjectTranslation | src/core/ZodSchemaConverter.ts:40-58 | An object translates to OBJECT whose properties are the shape's keys in order, each translated; `required` is absent exactly when every field is optional; `nullable` is false |
| SchemaConverter.ToGemini | src/core/ZodSchemaConverter.ts:30-116 | `toGeminiSchema`; specified case by case by `ObjectTranslation`, `WrapperTranslation`, `LeafTranslation` and `ObjectRequired` |
| SchemaConverter.WrapperTranslation | src/core/ZodSchemaConverter.ts:88-98 | Default, nullable and optional translate as the inner schema with `nullable` true and the outer description when non-empty |
| SchemaConverter.LeafTranslation | src/core/ZodSchemaConverter.ts:30-115 | Enums and literals become STRING with their values; arrays carry the element's translation; unlisted kinds become nullable OBJECT; the rest are not nullable |
| SchemaConverter.ShapeWithTools | src/models.ts:43-50 | Assigning `tool_args` onto the spread base shape replaces its sixth entry in place |
| SchemaConverter.ObjectRequired | src/core/ZodSchemaConverter.ts:55 | An object's translated `required` is its required keys, or absent when there are none |
| SchemaConverter.BaseRequired | src/core/ZodSchemaConverter.ts:44-55 | With a non-optional `tool_args`, the required keys of the base shape are all but `message` |
| SchemaConverter.TurnSchemaRequired | src/models.ts:36-52 | The model must fill `sender`, `target_type`, `recipient`, `special_action` and `tool_args`, but not `message` |
| Workspace.Normalize | src/core/Workspace.ts:19-26 | Resolution yields a normalized absolute path, with no empty, `.`, `..` or slash-containing segment |
| Workspace.ResolvePathSafe | src/core/Workspace.ts:17-44 | Success returns the normalized join exactly when it passes the containment check; failure carries the message with the user paths joined by `/` |
| Workspace.InsideIffPrefix | src/core/Workspace.ts:32-35 | For a non-root base, the string test `startsWith(base + sep) or equal` accepts exactly the paths whose segments extend the base's |
| Workspace.RootBaseAcceptsOnlyRoot | src/core/Workspace.ts:32-35 | With `/` as the base, the test accepts only `/` itself |
| Workspace.RenderPrefix | src/core/Workspace.ts:32-33 | A rendered path that is a string prefix of another, ending at a separator, is a segment prefix |
| Workspace.ResolvedStaysInside | src/core/Workspace.ts:17-37 | A successful resolution never leaves the base directory |
| Workspace.SiblingRefusedBaseAccepted | src/core/Workspace.ts:28-35 | `/w/d` refuses `../dx` (a sibling sharing its string prefix) and accepts `.` as itself |
| Workspace.Indent | src/core/Workspace.ts:65 | The indent is 4 × level spaces |
| Workspace.WalkProperties | src/core/Workspace.ts:57-81 | The listing is the listing of the tree with every `_meta` removed; it has one line per remaining entry, each starting with its level's indent |
| Workspace.WalkNodeProperties | src/core/Workspace.ts:62-77 | One entry other than `_meta` lists as its pruned self, with one line per entry it contains (itself included), each starting with its level's indent |
| Workspace.TreeLines | src/core/Workspace.ts:65-76 | Each visited entry becomes one line: its depth's indent, its name, and "/" exactly for a directory |
| Workspace.WalkIsVisit | src/core/Workspace.ts:58-78 | The listing is the pre-order visit of the entries outside `_meta`, each directory right before its contents and siblings in `readdir` order, one line per entry |
| Workspace.WalkNodeIsVisit | src/core/Workspace.ts:62-77 | One entry lists as itself followed, for a directory, by its contents one level deeper, and not at all when it is `_meta` |
| Workspace.VisitBounds | src/core/Workspace.ts:63-71 | No visited entry is named `_meta` at any depth, and each is at least as deep as the level the walk started at |
| Workspace.VisitNodeBounds | src/core/Workspace.ts:63-71 | The same holds for the entries visited from one node |
| Workspace.WalkLines | src/core/Workspace.ts:57-81 | Line i of the file tree is the i-th visited entry, indented four spaces per level and suffixed "/" exactly for a directory, and no line comes from `_meta` |
| Workspace.Walk | src/core/Workspace.ts:58-78 | The inner `walk`; specified by `WalkIsVisit`, `WalkLines` and `WalkProperties` |
| Workspace.FileTree | src/core/Workspace.ts:57-81 | `getFileTree`: the lines of `Walk` at level 0 joined with newlines; the lines are specified by `WalkLines` |
| Workspace.ReadFilesWithFails | src/core/Workspace.ts:94-97 | `readFiles` throws exactly when some requested name fails to resolve, because resolution sits outside the try |
| Workspace.ReadFilesWithKeys | src/core/Workspace.ts:94-117 | On success the record has exactly the requested names as keys |
| Workspace.ReadFilesWithValues | src/core/Workspace.ts:96-114 | Each name's value is the file text, or the not-found, read-error or unknown-error message for that name |
| Workspace.ReadFilesSpec | src/core/Workspace.ts:94-117 | Over the project directory: failure exactly when some name escapes; otherwise one key per name holding the outcome of reading its resolved path |
| Workspace.ReadFiles | src/core/Workspace.ts:94-117 | `readFiles`; specified by `ReadFilesSpec` |
| Logger.DistTag | dist/core/Logger.js:54 | The dist tag is "turn" exactly for Turns and "tool_result" exactly for ToolResults |
| Logger.Append | src/core/Logger.ts:24-30 | `log` pushes the entry onto memory before writing; only a successful write adds the tagged line to the file |
| Logger.AppendAll | src/core/Logger.ts:24-30 | A sequence of successful `log` calls extends memory by the entries and the file by their lines |
| Logger.DecodeLogLine | src/core/Logger.ts:36-46 | Reading back a written line dispatches on the tag it was written with, over the JSON copy of the entry |
| Logger.DecodeLine | src/core/Logger.ts:36-53 | The mapper on one line; specified by `DecodeLogLine`, `LoadOne` and `LoadDropsOnlyUndefined` |
| Logger.LoadDropsOnlyUndefined | src/core/Logger.ts:36-55 | The corrected reload yields exactly the entries of the written reload, minus its `undefined` slots |
| Logger.LoadAsWritten | src/core/Logger.ts:35-55 | `loadFromFile`'s map and `!== null` filter; specified by `LoadDropsOnlyUndefined` and `UnknownTagLeavesUndefined` |
| Logger.Load | src/core/Logger.ts:35-55 | The reload with undefined slots dropped too; specified by `LoadAppend`, `LoadDropsOnlyUndefined`, `DistReloadRoundTrip`, `DistReloadStores` and `SrcReloadKeepsOnlyTurns` |
| Logger.LoadAppend | src/core/Logger.ts:35-55 | Reloading is line by line: the reload of a longer file extends the reload of its prefix |
| Logger.LoadFromFile | src/core/Logger.ts:32-63 | A missing file leaves the log as it is; another read error throws; otherwise memory becomes the reload of the file |
| Logger.StorableEncodesBack | src/core/Logger.ts:27-45 | An entry with valid enums and a JSON payload validates back as itself under its own schema |
| Logger.DistLineReloads | dist/core/Logger.js:52-91 | One line written by the dist `log` reloads as the entry it came from |
| Logger.DistReloadRoundTrip | dist/core/Logger.js:52-91 | A file written by the dist `log` reloads as exactly the entries written |
| Logger.SrcLineReloads | src/core/Logger.ts:26-46 | One src line reloads as its entry exactly when that entry is a Turn not sent by "System"; otherwise nothing |
| Logger.SrcReloadKeepsOnlyTurns | src/core/Logger.ts:24-55 | A file written by the src `log` reloads as only its Turns not sent by "System", in order |
| Logger.SrcLosesToolResult | src/core/Logger.ts:26 | A concrete Turn-then-ToolResult log comes back without the ToolResult |
| Logger.UnknownTagLeavesUndefined | src/core/Logger.ts:42-55 | A record with an unknown `log_type` leaves an `undefined` slot; the corrected reload drops it |
| Logger.FailedAppendLostOnReload | src/core/Logger.ts:25-29 | After a failed write the entry is in memory but not in the reload |
| Logger.LastEntry | src/core/Logger.ts:93-97 | Nothing exactly for an empty log, otherwise the newest entry |
| Logger.PersonalHistory | src/core/Logger.ts:69-91 | The loop computes the left-fold projection, tracking the sender of the latest Turn |
| Logger.ProjectSnoc | src/core/Logger.ts:72-89 | One more entry extends the projection by it exactly when it is visible; a Turn updates the last sender |
| Logger.ProjectSound | src/core/Logger.ts:73-88 | Every projected Turn names the agent as sender or recipient, or is to ALL; every projected ToolResult follows a Turn the agent sent |
| Logger.ProjectTurnsComplete | src/core/Logger.ts:75-81 | Every Turn addressed to, sent by or broadcast to the agent is projected |
| Logger.ProjectAt | src/core/Logger.ts:72-89 | The entry at position i is projected exactly when it is visible given the sender of the latest Turn before it |
| Logger.Project | src/core/Logger.ts:69-91 | `getPersonalHistory` as a fold; specified by `ProjectSnoc`, `ProjectAt`, `ProjectSound`, `ProjectTurnsComplete`, `ProjectIsSubsequence` and `ProjectExtends` |
| Logger.NoTurnNoSender | src/core/Logger.ts:71 | Before the first Turn there is no last sender, so no ToolResult is shown |
| Logger.ProjectIsSubsequence | src/core/Logger.ts:69-91 | The projection is an order-preserving subsequence of the log |
| Logger.ProjectExtends | src/core/Logger.ts:69-91 | Appending to the log only extends a projection, and by at most as many entries as were appended |
| Logger.DistLineStores | dist/core/Logger.js:52-91 | One dist record of an entry with valid enums and JSON payloads reloads as that entry with the Turn's `thought` stripped |
| Logger.DistReloadStores | dist/core/Logger.js:52-91 | A dist file of such entries reloads as those entries, in order, each with its `thought` stripped |
| Logger.LastTurnSenderStored | dist/core/Logger.js:104-116 | Stripping `thought` does not change the sender of the most recent Turn |
| Logger.ProjectStored | dist/core/Logger.js:104-116 | Projecting the stripped log equals stripping the projection |
| Logger.ReplayDeterminism | dist/core/Logger.js:52-116 | The projection of a reloaded dist log is the live projection with every `thought` stripped, and equals it when no Turn carries a `thought` |
| Logger.ProjectSlots | src/core/Logger.ts:72-73 | The projection over a reloaded array throws exactly when it holds `undefined`; otherwise it is the projection of the present entries |
| Compactor.ImageOf | src/agents/AIAgent.ts:110-114 | `organizeHistory` surfaces an image payload exactly when the newest entry is a successful GetImageTool result, and it is that result's payload |
| Compactor.ThrowAborts | src/agents/AIAgent.ts:107-141 | A throw while compacting any entry aborts the whole map |
| Compactor.Compact | src/agents/AIAgent.ts:107-145 | Compaction keeps length and every entry's skeleton; recent non-image entries are exact JSON copies; the image is `ImageOf` |
| Compactor.ImagePayloadsReplaced | src/agents/AIAgent.ts:110-121 | A successful image result becomes the "attached" note at the newest entry and the "held once" note elsewhere; errored ones pass through |
| Compactor.OlderEntriesRedacted | src/agents/AIAgent.ts:128-140 | Entries 20 or more from the end pass args and results through the registered tool's hooks with that distance. Every other older entry is left as its JSON copy: an unknown tool, an errored result, or a Turn that is not a TOOL call with object arguments |
| Compactor.CompactEntry | src/agents/AIAgent.ts:107-139 | The corrected per-entry map; specified through `Compact` by `ImagePayloadsReplaced` and `OlderEntriesRedacted` |
| Compactor.ShortHistoryAgrees | src/agents/AIAgent.ts:123-126 | Within twenty entries the as-written and corrected compactors agree |
| Compactor.CompactAsWritten | src/agents/AIAgent.ts:95-145 | `organizeHistory` as written; specified by `ShortHistoryAgrees`, `StaleToolTurnThrows` and `WebSearch.UnaryHookThrowsOnResults` |
| Compactor.StaleToolTurnThrows | src/agents/AIAgent.ts:129-133 | An old TOOL Turn naming an unregistered tool makes the written compactor throw; the corrected one keeps it |
| Retry.StripNulls | src/agents/AIAgent.ts:72-77 | Exactly the keys holding `null` or `undefined` are deleted; the other fields are kept |
| Retry.AttemptOnce | src/agents/AIAgent.ts:60-78 | Transport errors and empty text fail; unparseable text fails with the parse error; parsed text is stripped of null keys and validated |
| Retry.ExecuteJson | src/agents/AIAgent.ts:48-92 | At most four attempts; every attempt before the last failed; the result is the last attempt's; a failure means all four failed |
| Retry.ExecuteJsonIsFirstSuccess | src/agents/AIAgent.ts:48-92 | The loop returns the first success among four attempts, or the fourth failure |
| Retry.AlwaysFailingGivesUpAfterFour | src/agents/AIAgent.ts:80-86 | A model that always fails is asked four times and its fourth error is rethrown |
| Agents.NewPM | src/agents/PMAgent.ts:15-27 | The PM's role is "PM" whatever it is called |
| Agents.NewUser | src/agents/UserAgent.ts:9-17 | The User proxy keeps its name and the client role |
| Agents.NewWorker | src/orchestrator.ts:244-254 | A worker copies every field of its plan entry |
| Agents.DetectDevPhase | src/agents/PMAgent.ts:36-43 | The scan reports development phase exactly when some entry carries FINALIZE_REQUIREMENTS |
| Agents.DevPhaseMonotone | src/agents/PMAgent.ts:36-43 | Extending a history never returns the PM to requirements gathering |
| Agents.DevPhaseMonotoneOverLog | src/agents/PMAgent.ts:36-43 | The same holds for the PM's projection of a growing log |
| Agents.WorkerRequest | src/agents/AIAgent.ts:148-206 | The worker sends exactly the compactor's history, with recent entries as exact copies, and the tool-aware Turn schema; the surfaced image is attached exactly when it is truthy |
| Agents.Attached | src/agents/AIAgent.ts:52 | A payload is attached exactly when it is present and truthy, and then unchanged |
| Agents.EmptyImageNotAttached | src/agents/AIAgent.ts:52 | An empty newest GetImageTool payload is surfaced by the compactor but the request carries no image |
| Agents.GatheringRequest | src/agents/PMAgent.ts:63-99 | In gathering, the PM sends its history uncompacted, with no image, against the tool-aware Turn schema |
| Agents.PMRequest | src/agents/PMAgent.ts:45-60 | The PM makes the worker request in the development phase and the gathering request otherwise |
| Agents.PMStaysDeveloping | src/agents/PMAgent.ts:36-60 | Once its projection holds FINALIZE_REQUIREMENTS, every later PM request is the compacted worker request |
| Agents.KickoffRequest | src/agents/PMAgent.ts:101-135 | The plan is requested from the full log, not a projection, against the plan schema |
| Agents.ReplyTarget | src/agents/UserAgent.ts:22-26 | The user replies to the sender of their last history entry when it is a Turn, otherwise to PM |
| Agents.UserRepliesToLastAddresser | src/agents/UserAgent.ts:22-26 | When the newest log entry is a Turn to the user, the user replies to its sender |
| Agents.UserTurnAsWritten | src/agents/UserAgent.ts:30-39 | The src User proxy's special action "" is not an enum member |
| Agents.UserTurn | dist/agents/UserAgent.js:18-26 | The user Turn is from the user, AGENT-targeted to the reply target, carries the typed line, `{}` arguments and "_" |
| Agents.UserTurnAsWrittenLostOnReload | src/agents/UserAgent.ts:36 | The src user Turn is dropped when the log is reloaded |
| Agents.UserTurnSurvivesReload | dist/agents/UserAgent.js:25 | The corrected user Turn reloads as itself without its `thought`, which the Turn schema does not carry |
| Agents.UserThoughtLostOnResume | dist/agents/UserAgent.js:25 | The user sees its own reply with its `thought` live but without it after a resume, so the two histories differ |
| Orchestrator.DispatchAsWritten | src/orchestrator.ts:188-219 | The written dispatcher throws exactly for a registered tool whose `tool_args` is missing or null; otherwise it agrees with the corrected one |
| Orchestrator.Dispatch | src/orchestrator.ts:188-219 | Unknown tools and falsy arguments give the not-found error; otherwise the tool's value with `error: false`, or its error message with `error: true` |
| Orchestrator.DispatchAsWrittenThrows | src/orchestrator.ts:202-210 | A registered tool with no `tool_args` at all makes the written dispatcher throw; the corrected one reports not found |
| Orchestrator.AddMissing | src/orchestrator.ts:244-255 | Team formation only adds: existing agents are kept, keys become team plus plan names, and names stay keyed to themselves |
| Orchestrator.AddMissingFirstWins | src/orchestrator.ts:244-255 | A new name is bound to the worker built from its first plan entry |
| Orchestrator.InitialTeam | src/orchestrator.ts:54-57 | A project starts with exactly a PM agent and the User proxy |
| Orchestrator.Kickoff | src/orchestrator.ts:221-284 | Without a PM agent it fails; otherwise it adds the plan's team, appends broadcast and directive, records the plan artifact, and the directive's recipient speaks next |
| Orchestrator.HaltsIffComplete | src/orchestrator.ts:139-151 | The loop stops exactly when the newest entry carries COMPLETE_PROJECT |
| Orchestrator.StepAppends | src/orchestrator.ts:153-184 | An unknown speaker throws; an iteration appends one Turn stamped with the speaker, plus one ToolResult for that tool after a TOOL Turn; next is the caller, the recipient, or PM |
| Orchestrator.Step | src/orchestrator.ts:138-185 | One iteration of the run loop; specified by `StepAppends`, `ToolResultReachesCaller`, `StepKeepsHistory` and `HaltsIffComplete` |
| Orchestrator.Decide | src/orchestrator.ts:157-166 | The speaker's `executeTurn` on its personal history, through the oracle; specified through `Step` by `StepAppends` |
| Orchestrator.Act | src/orchestrator.ts:167-184 | Stamping, logging and dispatching one Turn, and choosing the next speaker; specified through `Step` by `StepAppends` and `ToolResultReachesCaller` |
| Orchestrator.ToolResultReachesCaller | src/orchestrator.ts:171-178 | The ToolResult of an iteration is in the calling agent's own projection |
| Orchestrator.StepKeepsHistory | src/orchestrator.ts:138-185 | Every continuing iteration keeps the log as a prefix and never drops or replaces an agent |
| Orchestrator.Bootstrap | src/orchestrator.ts:107-130 | A new project logs "" to PM and PM to USER, and USER speaks next |
| Orchestrator.BootstrapViews | src/orchestrator.ts:107-130 | After bootstrap the PM sees both Turns and is gathering; the user sees the greeting and replies to PM |
| Orchestrator.ScanBackAsWritten | src/orchestrator.ts:99-103 | The backward scan from `length - 2` finds the sender of the latest Turn before the last entry |
| Orchestrator.ResumeSpeakerAsWritten | src/orchestrator.ts:87-105 | The written resume fails exactly on an empty log. It picks the recipient after an AGENT Turn, the latest Turn's sender after a ToolResult, the sender of the Turn before a final TOOL Turn, and PM otherwise |
| Orchestrator.ResumeSpeaker | src/orchestrator.ts:87-105 | Resume fails exactly on an empty log. It picks the recipient after an AGENT Turn, the TOOL Turn's own sender after a TOOL Turn, the latest Turn's sender after a ToolResult, and PM otherwise |
| Orchestrator.ResumeSpeakerDiffersOnlyAfterToolTurn | src/orchestrator.ts:93-105 | The written and corrected resume agree unless the log ends with a TOOL Turn |
| Orchestrator.ResumeAfterToolTurn | src/orchestrator.ts:95-103 | A log ending in WORKER's TOOL Turn resumes with PM as written and with WORKER corrected |
| Orchestrator.ResumedTeam | src/orchestrator.ts:63-85 | A resumed team extends the initial team and keeps every agent under its own name |
| Orchestrator.Resume | src/orchestrator.ts:59-105 | Resume fails exactly on an empty log; otherwise it keeps the log, rebuilds the team from the plan artifact, and picks the resume speaker |
| Orchestrator.ResumeRestoresKickoffTeam | src/orchestrator.ts:63-79 | The plan artifact written at kickoff rebuilds exactly the kickoff's team on resume |
| Orchestrator.KickoffCanRepeat | src/orchestrator.ts:140-146 | Any later FINALIZE_REQUIREMENTS Turn runs the kickoff again |
| Orchestrator.RunKeepsHistory | src/orchestrator.ts:138-185 | Over any number of iterations the log only grows at its end and no agent is replaced or removed |
| Orchestrator.Run | src/orchestrator.ts:138-185 | The loop as repeated `Step`s; specified by `RunKeepsHistory` |
| WebSearch.OmitResult | src/tools/WebSearchTool.ts:183-189 | Results younger than five entries, and messages, are unchanged; older hit lists keep length, titles and urls, with every snippet "省略" |
| WebSearch.OmitResultIdempotent | src/tools/WebSearchTool.ts:183-189 | Redacting twice is redacting once at the older age |
| WebSearch.OmitResultValueEncodes | src/tools/WebSearchTool.ts:187-188 | The hook on the logged JSON value commutes with encoding the typed result |
| WebSearch.OmitResultValue | src/tools/WebSearchTool.ts:183-188 | `omitResult(passedTurns, result)` on the untyped logged value; specified by `OmitResultValueEncodes` |
| WebSearch.UnaryOmitArgs | src/tools/WebSearchTool.ts:179-181 | Called with one argument, `omitArgs` returns `undefined` |
| WebSearch.UnaryOmitResult | src/tools/WebSearchTool.ts:183-188 | Called with one argument, `omitResult` returns `undefined` exactly when that argument is loosely below 5, and throws otherwise |
| WebSearch.NextHeader | src/tools/WebSearchTool.ts:209-214 | The current header set is used and the index advances by one modulo ten |
| WebSearch.IndexAfterMod | src/tools/WebSearchTool.ts:209-214 | After k requests the index is start + k modulo ten |
| WebSearch.RotationPeriodic | src/tools/WebSearchTool.ts:209-214 | The rotation repeats every ten requests |
| WebSearch.Rotate | src/tools/WebSearchTool.ts:209-214 | k consecutive calls of the header rotation return the sets start, start+1, … modulo ten and leave the index at start+k modulo ten |
| WebSearch.KeepHits | src/tools/WebSearchTool.ts:237-256 | The kept hits all have a title and url and come from the page; every such hit is kept |
| WebSearch.KeepHitsOne | src/tools/WebSearchTool.ts:247-253 | A single hit is kept exactly when it has a non-empty title and url |
| WebSearch.KeepHitsAppend | src/tools/WebSearchTool.ts:237-256 | The filter works hit by hit: the kept hits of a concatenation are the kept hits of each part, in page order |
| WebSearch.KeepHitsIdempotent | src/tools/WebSearchTool.ts:247-253 | Filtering a filtered list changes nothing |
| WebSearch.Run | src/tools/WebSearchTool.ts:191-207 | An empty or missing query throws an `Error` with its message; success means the fetch succeeded; hits are the non-empty filtered list, otherwise the no-results message |
| WebSearch.RunFetchesIffQuery | src/tools/WebSearchTool.ts:194-206 | The empty-query `Error` occurs exactly for `""`; the fixed thrown string occurs exactly for a failed fetch of a non-empty query |
| WebSearch.SearchTool | src/tools/WebSearchTool.ts:170-177 | The tool registers as "WebSearchTool" and executes valid arguments as the encoded search |
| WebSearch.UnaryHookErasesArgs | src/agents/AIAgent.ts:129-135 | As written, an older search Turn's arguments become `{WebSearchTool: undefined}`; corrected, they are kept |
| WebSearch.UnaryHookThrowsOnResults | src/agents/AIAgent.ts:136-139 | As written, an older non-empty search result aborts compaction; corrected, its snippets are blanked |

## Left out

- The language model, the prompt texts and the network calls to it are left
  out. Replies, plans and the typed user line come from an oracle.
- The waits are left out: the 30-second retry sleep, the random 15–30 s
  pause after a search, and console warnings. They do not change any value.
- DuckDuckGo requests and HTML scraping are a `fetch` parameter. Only the
  title-and-url filter and the error mapping are modelled.
- The contents of the ten header sets are left out. Only their count and the
  rotation index are modelled.
- The file system is left out. Directory listings are a tree and file
  reads a read function. In `Logger.Append` the outcome of the file append
  is a boolean parameter. Directory creation, `saveArtifact` and
  `getImageBase64` are not modelled.
- `saveArtifact` (src/core/Workspace.ts:84-92) does no containment check.
  It joins the project path, `subDir` and the filename with `path.join`
  and never calls `getResolvePathSafe`. A filename such as `../x` chosen
  by the model through the file writer tool therefore lands outside the
  project. The containment results here cover only the paths that go
  through `getResolvePathSafe`.
- Orchestrator.Step: every log append is taken to succeed. In the source, a
  rejected `appendFile` (src/core/Logger.ts:29) propagates out of the run
  loop's `await this.logger.log(...)` (src/orchestrator.ts:168, 176) and
  ends the run after the entry is already in memory. That single append is
  modelled by `Logger.Append` and `Logger.FailedAppendLostOnReload`.
- Agents.UserTurn: the source's user Turn also carries `artifacts: []`
  (src/agents/UserAgent.ts:35). `Models.Turn` has no `artifacts` field, and
  the Turn schema strips the key on reload, so it is not represented.
- Concurrency and `async` are left out. Every awaited call is treated as
  finishing before the next statement.
- Floating-point numbers are left out. `Value` numbers are integers.
- Path resolution is POSIX only. The Windows separator is left out.
- The other tools are not modelled, and neither are the UI, `main` or the
  compiled `dist` files beyond the logger and the User proxy. The
  `Tool`, `Tools` and `Agent` base classes are not part of this model.
- Tools.Execute: assumes the tool base class validates arguments against
  `argsSchema` before running. That base class is not part of this model.
- WebSearch.UnaryOmitResult: `LooselyBelowFive` approximates JavaScript's `<`
  on non-numbers:
  - strings are treated as non-numeric;
  - one-element arrays are not unwrapped.
- WebSearch.OmitResultValue: elements that are not objects spread as `{}`,
  and a result that is neither a string nor an array is left unchanged where
  JavaScript would throw. The tool never produces either.
- Logger.ReplayDeterminism: the live and the reloaded projections are
  promised equal only when no Turn carries a `thought`. Otherwise they
  differ by the stripped `thought`. Only the User proxy's Turn carries one
  (src/agents/UserAgent.ts:34), because AI replies pass through the Turn
  schema (src/models.ts:4-32), which has no such key. Whether the program
  means a resumed agent to lose that fixed text is not clear, so it is
  stated here and not listed as a defect (`Agents.UserThoughtLostOnResume`).
- An entry's age in the compactor is computed from its position in the
  history rather than by `personalHistory.indexOf(turn)`
  (src/agents/AIAgent.ts:124). The two agree because every entry in the
  history is a distinct object, each pushed once by `log`.
- The text of the `SyntaxError` from `JSON.parse` is the runtime's and is
  left out. The model uses one fixed text; only the fact that the attempt
  fails matters to the loop.
- Prototype properties are left out: object keys are only own fields.
- Descriptions on the Zod schemas are kept only as opaque strings. Prompt
  wording is not modelled.
- `src/core/Logger.ts` imports `TurnOutputSchema`, which `src/models.ts`
  does not export. The scheduler also passes a third argument to the
  two-argument `Logger` constructor. The model takes the schema as the
  module-level Turn schema and ignores the extra argument.

## Findings

| source | as written | input that shows it | evidently intended | confidence | as-written member | corrected member |
|---|---|---|---|---|---|---|
| src/core/Logger.ts:26 | A ToolResult has no `sender`, so it is tagged "turn", fails the Turn schema on reload and is dropped | a log of a TOOL Turn followed by its ToolResult | tag by `"recipient" in entry`, as `dist/core/Logger.js:54` does | not executed | Logger.SrcLosesToolResult | Logger.DistReloadRoundTrip |
| src/core/Logger.ts:42-55 | A record with an unknown `log_type` maps to `undefined`, which the `!== null` filter keeps; `getPersonalHistory` then throws on `"recipient" in undefined` | a line `{"log_type":"note","data":{}}` | drop such records like unparsable ones | not executed | Logger.UnknownTagLeavesUndefined | Logger.LoadDropsOnlyUndefined |
| src/agents/UserAgent.ts:36 | The user Turn carries `special_action: ""`, which the enum rejects, so every user reply is lost on resume | any user reply followed by a reload | `"_"`, as `dist/agents/UserAgent.js:25` has | not executed | Agents.UserTurnAsWrittenLostOnReload | Agents.UserTurnSurvivesReload |
| src/agents/AIAgent.ts:131-139 | The hooks are called with one argument while the web search tool declares `(passedTurns, value)`. `omitArgs` then returns `undefined` and erases the query; `omitResult` throws on a hit list, aborting the agent's turn | a search Turn or a non-empty search result 20 or more entries old | pass the distance as the first argument | not executed | WebSearch.UnaryHookThrowsOnResults | Compactor.Compact |
| src/agents/AIAgent.ts:131 | `toolRecord[recipient]` is indexed without a check, so an old TOOL Turn naming an unregistered tool throws | a TOOL Turn to "RemovedTool" followed by 20 entries | leave such entries as they are | not executed | Compactor.StaleToolTurnThrows | Compactor.Compact |
| src/orchestrator.ts:95-103 | After a final TOOL Turn the scan starts at `length - 2` and returns the sender of the Turn before it | PM→WORKER, then WORKER's TOOL Turn, then interruption | resume with the TOOL Turn's own sender | not executed | Orchestrator.ResumeAfterToolTurn | Orchestrator.ResumeSpeaker |
| src/orchestrator.ts:202 | `toolArgs[toolName]` is read outside the `try`, so a missing or null `tool_args` throws out of the loop | a TOOL Turn without `tool_args` | report the tool error like falsy arguments | not executed | Orchestrator.DispatchAsWrittenThrows | Orchestrator.Dispatch |

=== FILE: agents.dfy ===
/** The agent records and their decision rules: the PM's phase detection and
    the request it makes in each phase, the request an AI worker makes, and
    the User proxy's reply rule. The model's answer itself is not part of
    this module; the scheduler receives it from an oracle. */
module Agents {
  import opened Wrappers
  import opened Values
  import opened Zod
  import opened Models
  import opened Tools
  import opened Compactor
  import opened Logger

  const PM_NAME: string := "PM"
  const USER_NAME: string := "USER"
  const PM_ROLE: string := "PM"
  const USER_ROLE: string := "クライアント"
  const USER_THOUGHT: string := "（ユーザーの思考は直接入力された）"

  /** Which class the record was built from; the scheduler checks `PMKind`
      before a kickoff. */
  datatype Kind = PMKind | UserKind | AIKind

  datatype AgentRecord = AgentRecord(
    name: string,
    role: string,
    projectRole: string,
    detailedInstructions: string,
    kind: Kind)

  /** The constructor texts, with the template literals' line breaks and
      indentation kept. */
  const PM_PROJECT_ROLE: string := "プロジェクトの全体管理と進行、要件定義とチーム編成を行います。また、各作業の最終確認や製造の中で発生した不明点について、ユーザへ確認を行います。"
  const PM_INSTRUCTIONS: string :=
    "クライアントの要望を満たすシステムを作成するために全力を尽くし、全ての成果物とREADMEなどの手順書を生成するまで作業を全うして下さい。\n"
    + "      製造の中での成果物のレビューを行い、改善すべき点については細かい内容でも積極的に指摘を行ってください。\n"
    + "      ユーザーからの要望や指示が他のエージェントに伝わっていないことがないように常に気を配って下さい。\n"
    + "      また、不明な点があればユーザに確認を行って下さい。"
  const USER_PROJECT_ROLE: string :=
    "クライアントを表すエージェントです。要件の聞き取りの対象者です。\n"
    + "      また、製造を進める中で出てきた、仕様について不明な点や検討すべき内容の質問を受け付けます。"

  /** The PM: its role is fixed to "PM" whatever it is called. */
  function NewPM(name: string): (a: AgentRecord)
    ensures a.name == name && a.role == PM_ROLE && a.kind == PMKind
  {
    AgentRecord(name, PM_ROLE, PM_PROJECT_ROLE, PM_INSTRUCTIONS, PMKind)
  }

  function NewUser(name: string): (a: AgentRecord)
    ensures a.name == name && a.role == USER_ROLE && a.kind == UserKind
  {
    AgentRecord(name, USER_ROLE, USER_PROJECT_ROLE, "", UserKind)
  }

  /** A worker built from a plan's team entry: every field is copied. */
  function NewWorker(info: AgentExplanation): (a: AgentRecord)
    ensures a.kind == AIKind
    ensures a.name == info.name && a.role == info.role
    ensures a.projectRole == info.projectRole && a.detailedInstructions == info.detailedInstructions
  {
    AgentRecord(info.name, info.role, info.projectRole, info.detailedInstructions, AIKind)
  }

  // ---------------------------------------------------------------------
  // The PM's phase

  /** Some entry of the history carries FINALIZE_REQUIREMENTS. */
  predicate IsDevPhase(history: seq<Entry>) {
    exists i :: 0 <= i < |history| && HasAction(history[i], FINALIZE_REQUIREMENTS)
  }

  /** The scan at the top of the PM's `executeTurn`. */
  method DetectDevPhase(history: seq<Entry>) returns (dev: bool)
    ensures dev <==> IsDevPhase(history)
  {
    dev := false;
    var i := 0;
    while i < |history|
      invariant 0 <= i <= |history|
      invariant dev <==> exists j :: 0 <= j < i && HasAction(history[j], FINALIZE_REQUIREMENTS)
    {
      var e := history[i];
      if e.TurnEntry? && e.turn.specialAction == FINALIZE_REQUIREMENTS {
        dev := true;
      }
      i := i + 1;
    }
  }

  /** Extending a history never takes the PM back to requirements gathering. */
  lemma DevPhaseMonotone(history: seq<Entry>, more: seq<Entry>)
    requires IsDevPhase(history)
    ensures IsDevPhase(history + more)
  {
    var i :| 0 <= i < |history| && HasAction(history[i], FINALIZE_REQUIREMENTS);
    assert (history + more)[i] == history[i];
  }

  /** The same holds for the PM's projection of a growing log: once it has
      seen FINALIZE_REQUIREMENTS it stays in the development phase. */
  lemma DevPhaseMonotoneOverLog(log: seq<Entry>, more: seq<Entry>, agent: string)
    requires IsDevPhase(Project(log, agent))
    ensures IsDevPhase(Project(log + more, agent))
  {
    ProjectExtends(log, more, agent);
    var p := Project(log, agent);
    var q := Project(log + more, agent);
    assert q == p + q[|p|..];
    DevPhaseMonotone(p, q[|p|..]);
  }

  // ---------------------------------------------------------------------
  // Requests to the model

  /** What an AI agent hands the model: the history embedded in the prompt,
      the schema the reply must satisfy, and an optional image attachment. */
  datatype Request = Request(history: seq<Entry>, schema: Schema, image: Option<Value>)

  /** `AIAgent.executeTurn`: the compacted history, the tool-aware Turn
      schema, and the image the compactor surfaced, which `_executeJson`
      attaches only when it is truthy (an empty or missing payload sends no
      image). */
  function WorkerRequest(history: seq<Entry>, tools: seq<Tool>): (r: Request)
    ensures r.schema == TurnOutputSchemaWithTools(tools)
    ensures r.history == Compact(history, tools).history
    ensures |r.history| == |history|
    ensures r.image.Some? <==> ImageOf(history).Some? && Truthy(ImageOf(history).value)
    ensures r.image.Some? ==> r.image == ImageOf(history)
    ensures forall i :: 0 <= i < |history| && Passed(|history|, i) < RECENT_WINDOW && !IsImageResult(history[i]) ==>
      r.history[i] == JsonCopy(history[i])
  {
    var c := Compact(history, tools);
    Request(c.history, TurnOutputSchemaWithTools(tools), Attached(c.image))
  }

  /** `if (base64ImageFile)`: only a truthy payload is attached. */
  function Attached(image: Option<Value>): (r: Option<Value>)
    ensures r.Some? <==> image.Some? && Truthy(image.value)
    ensures r.Some? ==> r == image
  {
    if image.Some? && Truthy(image.value) then image else None
  }

  /** A newest GetImageTool result with an empty payload is surfaced by the
      compactor but sends no image. */
  lemma EmptyImageNotAttached(tools: seq<Tool>)
    ensures var h := [ResultEntry(ToolResult(IMAGE_TOOL, Str(""), false))];
      ImageOf(h) == Some(Str("")) && WorkerRequest(h, tools).image.None?
  {
    var h := [ResultEntry(ToolResult(IMAGE_TOOL, Str(""), false))];
    assert IsSuccessfulImage(h[|h| - 1]);
    assert Jsonify(Str("")) == Str("");
  }

  /** `_executeRequirementsGathering`: the history embedded as it is (a
      shallow copy per entry), no image, the same Turn schema. */
  function GatheringRequest(history: seq<Entry>, tools: seq<Tool>): (r: Request)
    ensures r.history == history && r.image.None?
    ensures r.schema == TurnOutputSchemaWithTools(tools)
  {
    Request(history, TurnOutputSchemaWithTools(tools), None)
  }

  /** The PM's `executeTurn`: the worker request once FINALIZE_REQUIREMENTS
      is in its history, the gathering request before. */
  function PMRequest(history: seq<Entry>, tools: seq<Tool>): (r: Request)
    ensures IsDevPhase(history) ==> r == WorkerRequest(history, tools)
    ensures !IsDevPhase(history) ==> r == GatheringRequest(history, tools)
  {
    if IsDevPhase(history) then WorkerRequest(history, tools) else GatheringRequest(history, tools)
  }

  /** Once in the development phase, every later PM request is a compacted
      worker request over the PM's projection of the grown log. */
  lemma PMStaysDeveloping(log: seq<Entry>, more: seq<Entry>, tools: seq<Tool>)
    requires IsDevPhase(Project(log, PM_NAME))
    ensures PMRequest(Project(log + more, PM_NAME), tools) == WorkerRequest(Project(log + more, PM_NAME), tools)
  {
    DevPhaseMonotoneOverLog(log, more, PM_NAME);
  }

  /** `planProjectKickoff`: the full log, not a projection, against the plan
      schema. */
  function KickoffRequest(fullLog: seq<Entry>): (r: Request)
    ensures r.history == fullLog && r.schema == PlanProjectAndKickoffSchema && r.image.None?
  {
    Request(fullLog, PlanProjectAndKickoffSchema, None)
  }

  // ---------------------------------------------------------------------
  // The User proxy

  /** The sender of the last personal-history entry when it is a Turn;
      otherwise, including an empty history, "PM". */
  function ReplyTarget(history: seq<Entry>): (r: string)
    ensures history != [] && history[|history| - 1].TurnEntry? ==> r == history[|history| - 1].turn.sender
    ensures history == [] || history[|history| - 1].ResultEntry? ==> r == PM_NAME
  {
    if history != [] && history[|history| - 1].TurnEntry? then history[|history| - 1].turn.sender
    else PM_NAME
  }

  /** The user answers whoever addressed them last: when the newest log
      entry is a Turn to the user, the reply goes to its sender. */
  lemma UserRepliesToLastAddresser(log: seq<Entry>, user: string)
    requires log != [] && log[|log| - 1].TurnEntry? && log[|log| - 1].turn.recipient == user
    ensures ReplyTarget(Project(log, user)) == log[|log| - 1].turn.sender
  {
    var init := log[..|log| - 1];
    assert log == init + [log[|log| - 1]];
    ProjectSnoc(init, log[|log| - 1], user);
  }

  /** The Turn the src User proxy returns: `special_action` is "". */
  function UserTurnAsWritten(name: string, history: seq<Entry>, line: string): (t: Turn)
    ensures t.specialAction == "" && !IsSpecialAction(t.specialAction)
  {
    Turn(name, AGENT, ReplyTarget(history), "", Some(line), Obj(map[]), Some(USER_THOUGHT))
  }

  /** The User proxy's Turn with the enum's no-action value "_": an AGENT
      Turn from the user, carrying the typed line and no tool arguments. */
  function UserTurn(name: string, history: seq<Entry>, line: string): (t: Turn)
    ensures t.sender == name && t.targetType == AGENT && t.recipient == ReplyTarget(history)
    ensures t.message == Some(line) && t.toolArgs == Obj(map[])
    ensures t.specialAction == NO_ACTION && IsSpecialAction(t.specialAction)
  {
    Turn(name, AGENT, ReplyTarget(history), NO_ACTION, Some(line), Obj(map[]), Some(USER_THOUGHT))
  }

  /** The src user Turn does not survive a reload of the log: the empty
      `special_action` fails the enum and the line is dropped. */
  lemma UserTurnAsWrittenLostOnReload(name: string, history: seq<Entry>, line: string)
    ensures Load(LinesOf(Dist, [TurnEntry(UserTurnAsWritten(name, history, line))])) == []
  {
    var t := UserTurnAsWritten(name, history, line);
    var e := TurnEntry(t);
    TurnRoundTrip(t);
    assert LinesOf(Dist, [e]) == [LogLine(Dist, e)];
    LoadOne(LogLine(Dist, e));
    DecodeLogLine(Dist, e);
  }

  /** The corrected user Turn comes back from the log as it was stored. */
  lemma UserTurnSurvivesReload(name: string, history: seq<Entry>, line: string)
    ensures var t := UserTurn(name, history, line);
      Load(LinesOf(Dist, [TurnEntry(t)])) == [TurnEntry(t.(thought := None))]
  {
    var t := UserTurn(name, history, line);
    var e := TurnEntry(t);
    assert IsJson(Obj(map[]));
    assert Storable(TurnEntry(t.(thought := None)));
    TurnRoundTrip(t);
    assert Jsonify(Obj(map[])) == Obj(map[]);
    assert LinesOf(Dist, [e]) == [LogLine(Dist, e)];
    LoadOne(LogLine(Dist, e));
    DecodeLogLine(Dist, e);
  }

  /** The user's `thought` is part of the live history but not of the file:
      after a resume the user sees its own reply without it, so the resumed
      history differs from the live one. */
  lemma UserThoughtLostOnResume(name: string, history: seq<Entry>, line: string)
    ensures var e := TurnEntry(UserTurn(name, history, line));
            var live := AppendAll(Open([], true), Dist, [e]);
            && Project(live.memory, name) == [e]
            && Project(Load(live.file), name) == [Stored(e)]
            && Project(Load(live.file), name) != Project(live.memory, name)
  {
    var e := TurnEntry(UserTurn(name, history, line));
    assert IsJson(Obj(map[]));
    assert Writable(e);
    ReplayDeterminism([e], name);
    var live := AppendAll(Open([], true), Dist, [e]);
    assert live.memory == [e];
    assert Project([e], name) == Project([], name) + [e];
    assert StoredAll([e]) == [Stored(e)];
    assert Stored(e) != e by { assert e.turn.thought.Some?; }
  }
}

=== FILE: compactor.dfy ===
/** History compaction for an AI agent's prompt: a deep copy of the personal
    history in which the image payload of a GetImageTool result is kept only
    for the newest entry, and entries older than the recent window have their
    tool arguments and results passed through the owning tool's redaction
    hooks. */
module Compactor {
  import opened Wrappers
  import opened Values
  import opened Models
  import opened Tools

  /** Entries this many from the end are shown in full. */
  const RECENT_WINDOW: nat := 20
  const IMAGE_TOOL: string := "GetImageTool"
  const IMAGE_ATTACHED: string := "取得できました。画像データを添付しています。"
  const IMAGE_DROPPED: string := "取得できましたが、画像データは1度のみ保持されます。"
  const TYPE_ERROR: string := "TypeError: cannot read properties of undefined"

  /** The compacted history and the image to attach to the request, if any. */
  datatype Compacted = Compacted(history: seq<Entry>, image: Option<Value>)

  predicate IsImageResult(e: Entry) {
    e.ResultEntry? && e.toolResult.toolName == IMAGE_TOOL
  }

  predicate IsSuccessfulImage(e: Entry) {
    IsImageResult(e) && !e.toolResult.error
  }

  /** An entry with its payloads erased: what compaction never changes. */
  function Skeleton(e: Entry): Entry {
    match e
    case TurnEntry(t) => TurnEntry(t.(toolArgs := Undef))
    case ResultEntry(r) => ResultEntry(r.(result := Undef))
  }

  /** Entries after position `i` in a history of length `n`. */
  function Passed(n: nat, i: nat): nat
    requires i < n
  {
    n - 1 - i
  }

  /** The image rule, shared by both versions: a successful GetImageTool
      result keeps its payload only when it is the newest entry; otherwise
      the payload is replaced by a note. */
  function ImagePlaceholder(e: Entry, newest: bool): Entry
    requires IsImageResult(e)
  {
    if e.toolResult.error then e
    else ResultEntry(e.toolResult.(result := Str(if newest then IMAGE_ATTACHED else IMAGE_DROPPED)))
  }

  /** The image attached to the request: the payload of the newest entry when
      that is a successful GetImageTool result. */
  function ImageOf(history: seq<Entry>): (r: Option<Value>)
    ensures r.Some? <==> history != [] && IsSuccessfulImage(history[|history| - 1])
    ensures r.Some? ==> r.value == Jsonify(history[|history| - 1].toolResult.result)
  {
    if history != [] && IsSuccessfulImage(history[|history| - 1])
    then Some(JsonCopy(history[|history| - 1]).toolResult.result)
    else None
  }

  // ---------------------------------------------------------------------
  // As written: the hooks are called with one argument and the registry is
  // indexed without a membership check.

  function OmitArgsAsWritten(registry: map<string, Tool>, t: Turn): Result<Turn> {
    if t.recipient !in registry then Err(TYPE_ERROR)
    else
      var hook := registry[t.recipient].omitArgs.unary;
      match t.toolArgs
      case Undef => Err(TYPE_ERROR)
      case Null => Err(TYPE_ERROR)
      case Obj(m) =>
        (match hook(Field(m, t.recipient))
         case Threw(msg) => Err(msg)
         case Returned(v) => Ok(t.(toolArgs := Obj(m[t.recipient := v]))))
      case Arr(_) =>
        // a named property on an array does not survive into the prompt
        (match hook(Undef)
         case Threw(msg) => Err(msg)
         case Returned(_) => Ok(t))
      case _ =>
        // assigning a property of a primitive throws in strict mode
        (match hook(Undef)
         case Threw(msg) => Err(msg)
         case Returned(_) => Err(TYPE_ERROR))
  }

  function CompactEntryAsWritten(registry: map<string, Tool>, n: nat, i: nat, e: Entry): Result<Entry>
    requires i < n
  {
    var c := JsonCopy(e);
    if IsImageResult(c) then Ok(ImagePlaceholder(c, i == n - 1))
    else if Passed(n, i) < RECENT_WINDOW then Ok(c)
    else
      match c
      case TurnEntry(t) =>
        if t.targetType == TOOL then
          var t' :- OmitArgsAsWritten(registry, t);
          Ok(TurnEntry(t'))
        else Ok(c)
      case ResultEntry(r) =>
        if r.error then Ok(c)
        else if r.toolName !in registry then Err(TYPE_ERROR)
        else
          match registry[r.toolName].omitResult.unary(r.result)
          case Threw(msg) => Err(msg)
          case Returned(v) => Ok(ResultEntry(r.(result := v)))
  }

  /** `history.map(...)` from position `i` on: the first throw aborts it. */
  function CompactFromAsWritten(registry: map<string, Tool>, history: seq<Entry>, i: nat): Result<seq<Entry>>
    requires i <= |history|
    decreases |history| - i
  {
    if i == |history| then Ok([])
    else
      var e :- CompactEntryAsWritten(registry, |history|, i, history[i]);
      var rest :- CompactFromAsWritten(registry, history, i + 1);
      Ok([e] + rest)
  }

  /** A throw at any position aborts the whole written compaction. */
  lemma {:induction false} ThrowAborts(registry: map<string, Tool>, history: seq<Entry>, i: nat, j: nat)
    requires i <= j < |history|
    requires CompactEntryAsWritten(registry, |history|, j, history[j]).Err?
    ensures CompactFromAsWritten(registry, history, i).Err?
    decreases j - i
  {
    if i < j {
      ThrowAborts(registry, history, i + 1, j);
    }
  }

  /** `organizeHistory` as written. */
  function CompactAsWritten(history: seq<Entry>, tools: seq<Tool>): Result<Compacted> {
    var h :- CompactFromAsWritten(Registry(tools), history, 0);
    Ok(Compacted(h, ImageOf(history)))
  }

  // ---------------------------------------------------------------------
  // Corrected: the hooks receive `(passedTurns, value)`, and an entry whose
  // tool is not registered, or whose arguments are not an object, is left
  // as it is.

  function CompactEntry(registry: map<string, Tool>, passed: nat, e: Entry): Entry {
    var c := JsonCopy(e);
    if IsImageResult(c) then ImagePlaceholder(c, passed == 0)
    else if passed < RECENT_WINDOW then c
    else
      match c
      case TurnEntry(t) =>
        if t.targetType == TOOL && t.recipient in registry && t.toolArgs.Obj? then
          var m := t.toolArgs.fields;
          TurnEntry(t.(toolArgs := Obj(m[t.recipient := registry[t.recipient].omitArgs.binary(passed, Field(m, t.recipient))])))
        else c
      case ResultEntry(r) =>
        if !r.error && r.toolName in registry then
          ResultEntry(r.(result := registry[r.toolName].omitResult.binary(passed, r.result)))
        else c
  }

  function Compact(history: seq<Entry>, tools: seq<Tool>): (r: Compacted)
    ensures |r.history| == |history|
    ensures forall i :: 0 <= i < |history| ==> Skeleton(r.history[i]) == Skeleton(history[i])
    ensures forall i :: 0 <= i < |history| && Passed(|history|, i) < RECENT_WINDOW && !IsImageResult(history[i]) ==>
      r.history[i] == JsonCopy(history[i])
    ensures r.image == ImageOf(history)
  {
    var registry := Registry(tools);
    Compacted(
      seq(|history|, i requires 0 <= i < |history| => CompactEntry(registry, Passed(|history|, i), history[i])),
      ImageOf(history))
  }

  /** No image payload stays in the history: every successful GetImageTool
      result now holds a note, the "attached" note exactly at the newest
      entry; errored image results pass through. */
  lemma ImagePayloadsReplaced(history: seq<Entry>, tools: seq<Tool>, i: int)
    requires 0 <= i < |history| && IsImageResult(history[i])
    ensures var c := Compact(history, tools).history[i];
      c.ResultEntry? && c.toolResult.toolName == IMAGE_TOOL
    ensures history[i].toolResult.error ==> Compact(history, tools).history[i] == JsonCopy(history[i])
    ensures !history[i].toolResult.error ==>
      Compact(history, tools).history[i].toolResult.result
        == Str(if i == |history| - 1 then IMAGE_ATTACHED else IMAGE_DROPPED)
  {
  }

  /** Older entries go through the tool's hooks with the number of entries
      that followed them; every other older entry (an unknown tool, an
      errored result, a Turn that is not a TOOL call with object arguments)
      is left as its JSON copy. */
  lemma OlderEntriesRedacted(history: seq<Entry>, tools: seq<Tool>, i: int)
    requires 0 <= i < |history| && Passed(|history|, i) >= RECENT_WINDOW
    ensures var e := history[i];
      var c := Compact(history, tools).history[i];
      var reg := Registry(tools);
      && (e.TurnEntry? && e.turn.targetType == TOOL && e.turn.recipient in reg && e.turn.toolArgs.Obj? ==>
            var m := Jsonify(e.turn.toolArgs).fields;
            c.turn.toolArgs == Obj(m[e.turn.recipient := reg[e.turn.recipient].omitArgs.binary(Passed(|history|, i), Field(m, e.turn.recipient))]))
      && (e.ResultEntry? && !IsImageResult(e) && !e.toolResult.error && e.toolResult.toolName in reg ==>
            c.toolResult.result == reg[e.toolResult.toolName].omitResult.binary(Passed(|history|, i), Jsonify(e.toolResult.result)))
      && (e.TurnEntry? && e.turn.recipient !in reg ==> c == JsonCopy(e))
      && (e.ResultEntry? && e.toolResult.toolName !in reg && !IsImageResult(e) ==> c == JsonCopy(e))
      && (e.ResultEntry? && e.toolResult.error ==> c == JsonCopy(e))
      && (e.TurnEntry? && !(e.turn.targetType == TOOL && e.turn.recipient in reg && e.turn.toolArgs.Obj?) ==> c == JsonCopy(e))
  {
    if history[i].TurnEntry? && history[i].turn.toolArgs.Obj? {
      assert Jsonify(history[i].turn.toolArgs).Obj?;
    }
  }

  lemma {:induction false} ShortHistoryAgreesFrom(history: seq<Entry>, tools: seq<Tool>, i: nat)
    requires i <= |history| <= RECENT_WINDOW
    ensures CompactFromAsWritten(Registry(tools), history, i) == Ok(Compact(history, tools).history[i..])
    decreases |history| - i
  {
    var c := Compact(history, tools).history;
    if i < |history| {
      ShortHistoryAgreesFrom(history, tools, i + 1);
      assert c[i] == CompactEntry(Registry(tools), Passed(|history|, i), history[i]);
      assert CompactEntryAsWritten(Registry(tools), |history|, i, history[i]) == Ok(c[i]);
      assert c[i..] == [c[i]] + c[i + 1..];
    } else {
      assert c[i..] == [];
    }
  }

  /** Within the recent window the two versions agree: the written compactor
      only misbehaves once a history outgrows twenty entries. */
  lemma ShortHistoryAgrees(history: seq<Entry>, tools: seq<Tool>)
    requires |history| <= RECENT_WINDOW
    ensures CompactAsWritten(history, tools) == Ok(Compact(history, tools))
  {
    ShortHistoryAgreesFrom(history, tools, 0);
    assert Compact(history, tools).history[0..] == Compact(history, tools).history;
  }

  /** A TOOL turn naming a tool that is no longer registered. */
  function StaleToolTurn(): Entry {
    TurnEntry(Turn("PM", TOOL, "RemovedTool", NO_ACTION, None, Obj(map[]), None))
  }

  function SampleAgentTurn(): Entry {
    TurnEntry(Turn("USER", AGENT, "PM", NO_ACTION, Some("ok"), Undef, None))
  }

  /** Once such a turn leaves the recent window, the written compactor
      throws and the agent can no longer take a turn; the corrected one
      leaves the turn as it is. */
  lemma StaleToolTurnThrows()
    ensures var h := [StaleToolTurn()] + seq(RECENT_WINDOW, _ => SampleAgentTurn());
      && CompactAsWritten(h, []).Err?
      && Compact(h, []).history[0] == StaleToolTurn()
  {
    var h := [StaleToolTurn()] + seq(RECENT_WINDOW, _ => SampleAgentTurn());
    assert h[0] == StaleToolTurn();
    assert Registry([]) == map[];
    assert CompactEntryAsWritten(map[], |h|, 0, h[0]).Err?;
    assert Jsonify(Obj(map[])) == Obj(map[]);
  }
}

=== FILE: logger.dfy ===
/** The event log: an in-memory mirror plus an append-only JSONL file, the
    reload step, and the queries the scheduler and agents read through,
    above all the per-agent personal-history projection. */
module Logger {
  import opened Wrappers
  import opened Values
  import opened Models

  const SYSTEM_SENDER: string := "System"
  const TURN_TAG: string := "turn"
  const RESULT_TAG: string := "tool_result"
  const LOAD_FAILED: string := "ログファイルの読み込みに失敗しました: "

  /** One line of the log file as `JSON.parse` sees it. */
  datatype Line = Blank | Unparseable | Parsed(json: Value)

  /** The two shipped variants of `log()`: they differ only in how the
      persisted record is tagged. */
  datatype Variant = Src | Dist

  /** The src variant tags by `sender === "System"`; a ToolResult has no
      sender, so it is tagged "turn". */
  function SrcTag(e: Entry): string {
    match e
    case TurnEntry(t) => if t.sender == SYSTEM_SENDER then RESULT_TAG else TURN_TAG
    case ResultEntry(_) => TURN_TAG
  }

  /** The dist variant tags by `"recipient" in entry`. */
  function DistTag(e: Entry): (tag: string)
    ensures tag == TURN_TAG <==> e.TurnEntry?
    ensures tag == RESULT_TAG <==> e.ResultEntry?
  {
    if e.TurnEntry? then TURN_TAG else RESULT_TAG
  }

  function Tag(variant: Variant, e: Entry): string {
    match variant
    case Src => SrcTag(e)
    case Dist => DistTag(e)
  }

  /** `{ log_type, data }` as written by `log()`. */
  function LogLine(variant: Variant, e: Entry): Line {
    Parsed(Obj(map["log_type" := Str(Tag(variant, e)), "data" := EncodeEntry(e)]))
  }

  function LinesOf(variant: Variant, entries: seq<Entry>): (lines: seq<Line>)
    ensures |lines| == |entries|
  {
    if entries == [] then []
    else LinesOf(variant, entries[..|entries| - 1]) + [LogLine(variant, entries[|entries| - 1])]
  }

  datatype LogState = LogState(memory: seq<Entry>, file: seq<Line>)

  /** The constructor: mode "w" empties the file, mode "a" keeps it. */
  function Open(existing: seq<Line>, truncate: bool): LogState {
    LogState([], if truncate then [] else existing)
  }

  datatype Appended = Appended(state: LogState, committed: bool)

  /** `log(entry)`: the entry is pushed onto the in-memory log first, then the
      line is appended to the file; `writeOk` is the outcome of that append.
      A failed append leaves the entry in memory but not on disk. */
  function Append(s: LogState, variant: Variant, e: Entry, writeOk: bool): (r: Appended)
    ensures r.state.memory == s.memory + [e]
    ensures r.committed == writeOk
    ensures writeOk ==> r.state.file == s.file + [LogLine(variant, e)]
    ensures !writeOk ==> r.state.file == s.file
  {
    var pushed := s.(memory := s.memory + [e]);
    if writeOk then Appended(pushed.(file := s.file + [LogLine(variant, e)]), true)
    else Appended(pushed, false)
  }

  /** Appending entries one `log()` call at a time, every write succeeding. */
  function AppendAll(s: LogState, variant: Variant, entries: seq<Entry>): (r: LogState)
    ensures r.memory == s.memory + entries
    ensures r.file == s.file + LinesOf(variant, entries)
  {
    if entries == [] then s
    else
      var prev := AppendAll(s, variant, entries[..|entries| - 1]);
      var r := Append(prev, variant, entries[|entries| - 1], true).state;
      assert entries[..|entries| - 1] + [entries[|entries| - 1]] == entries;
      r
  }

  // ---------------------------------------------------------------------
  // Reload

  /** The slot a reloaded line leaves in the in-memory array: an entry, or
      the `undefined` the mapper returns for an unknown `log_type`. */
  datatype Slot = Present(entry: Entry) | Undefined

  /** The mapper's outcome: `null` (dropped by the filter) or a kept slot. */
  datatype Decoded = Dropped | Kept(slot: Slot)

  /** The mapper applied to one non-blank line: a parse failure or a schema
      failure throws inside the `try` and yields `null`; a record tagged
      neither "turn" nor "tool_result" falls through and yields `undefined`. */
  function DecodeLine(l: Line): Decoded {
    match l
    case Blank => Dropped
    case Unparseable => Dropped
    case Parsed(v) =>
      match v
      case Null => Dropped
      case Undef => Dropped
      case Obj(m) => DecodeRecord(Field(m, "log_type"), Field(m, "data"))
      case _ => Kept(Undefined)
  }

  /** The mapper's dispatch on `log_type`, with `data` validated against the
      schema the tag names. */
  function DecodeRecord(tag: Value, data: Value): Decoded {
    if tag == Str(TURN_TAG) then
      match ParseTurn(data)
      case Some(t) => Kept(Present(TurnEntry(t)))
      case None => Dropped
    else if tag == Str(RESULT_TAG) then
      match ParseToolResult(data)
      case Some(r) => Kept(Present(ResultEntry(r)))
      case None => Dropped
    else Kept(Undefined)
  }

  lemma DecodeLogLine(variant: Variant, e: Entry)
    ensures DecodeLine(LogLine(variant, e)) == DecodeRecord(Str(Tag(variant, e)), EncodeEntry(e))
  {
    var m := map["log_type" := Str(Tag(variant, e)), "data" := EncodeEntry(e)];
    assert Field(m, "log_type") == Str(Tag(variant, e));
    assert Field(m, "data") == EncodeEntry(e);
  }

  /** `loadFromFile` as written: blank lines are filtered out, the rest mapped,
      and only `null` results removed, so `undefined` slots survive. */
  function LoadAsWritten(lines: seq<Line>): seq<Slot> {
    if lines == [] then []
    else
      var last := lines[|lines| - 1];
      LoadAsWritten(lines[..|lines| - 1])
        + (if !last.Blank? && DecodeLine(last).Kept? then [DecodeLine(last).slot] else [])
  }

  /** The reload with the filter removing `undefined` as well as `null`. */
  function Load(lines: seq<Line>): seq<Entry> {
    if lines == [] then []
    else
      var last := lines[|lines| - 1];
      var d := DecodeLine(last);
      Load(lines[..|lines| - 1]) + (if d.Kept? && d.slot.Present? then [d.slot.entry] else [])
  }

  function PresentEntries(slots: seq<Slot>): seq<Entry> {
    if slots == [] then []
    else
      PresentEntries(slots[..|slots| - 1])
        + (if slots[|slots| - 1].Present? then [slots[|slots| - 1].entry] else [])
  }

  lemma {:induction false} PresentEntriesAppend(a: seq<Slot>, b: seq<Slot>)
    ensures PresentEntries(a + b) == PresentEntries(a) + PresentEntries(b)
    decreases |b|
  {
    if b != [] {
      var b' := b[..|b| - 1];
      var x := b[|b| - 1];
      var tail := if x.Present? then [x.entry] else [];
      assert (a + b)[..|a + b| - 1] == a + b';
      assert (a + b)[|a + b| - 1] == x;
      assert PresentEntries(a + b) == PresentEntries(a + b') + tail;
      assert PresentEntries(b) == PresentEntries(b') + tail;
      PresentEntriesAppend(a, b');
    } else {
      assert a + b == a;
    }
  }

  /** The corrected reload keeps exactly the entries the written one does,
      minus the `undefined` slots. */
  lemma {:induction false} LoadDropsOnlyUndefined(lines: seq<Line>)
    ensures Load(lines) == PresentEntries(LoadAsWritten(lines))
  {
    if lines != [] {
      var init := lines[..|lines| - 1];
      LoadDropsOnlyUndefined(init);
      var last := lines[|lines| - 1];
      var tail := if !last.Blank? && DecodeLine(last).Kept? then [DecodeLine(last).slot] else [];
      PresentEntriesAppend(LoadAsWritten(init), tail);
      if tail != [] {
        assert PresentEntries(tail) == PresentEntries([]) + (if tail[0].Present? then [tail[0].entry] else []);
      }
    }
  }

  lemma LoadAppend(lines: seq<Line>, l: Line)
    ensures Load(lines + [l]) == Load(lines) + Load([l])
  {
    assert (lines + [l])[..|lines|] == lines;
    assert [l][..0] == [];
  }

  lemma LoadOne(l: Line)
    ensures Load([l]) == if DecodeLine(l).Kept? && DecodeLine(l).slot.Present? then [DecodeLine(l).slot.entry] else []
  {
    assert [l][..0] == [];
  }

  /** How the file is reached at load time. */
  datatype Access = Readable | Missing | Unreadable(reason: string)

  /** `loadFromFile`: a missing file leaves the log as it is; any other read
      failure is fatal; otherwise the in-memory log is replaced. */
  function LoadFromFile(s: LogState, access: Access): (r: Result<LogState>)
    ensures access.Missing? ==> r == Ok(s)
    ensures access.Unreadable? ==> r.Err?
    ensures access.Readable? ==> r == Ok(s.(memory := Load(s.file)))
  {
    match access
    case Missing => Ok(s)
    case Unreadable(reason) => Err(LOAD_FAILED + reason)
    case Readable => Ok(s.(memory := Load(s.file)))
  }

  /** An entry whose every part survives the JSON text and the schema. */
  predicate Storable(e: Entry) {
    match e
    case TurnEntry(t) =>
      && IsTargetType(t.targetType) && IsSpecialAction(t.specialAction)
      && (t.toolArgs.Undef? || IsJson(t.toolArgs)) && t.thought.None?
    case ResultEntry(r) => r.result.Undef? || IsJson(r.result)
  }

  lemma StorableEncodesBack(e: Entry)
    requires Storable(e)
    ensures e.TurnEntry? ==> ParseTurn(EncodeEntry(e)) == Some(e.turn)
    ensures e.ResultEntry? ==> ParseToolResult(EncodeEntry(e)) == Some(e.toolResult)
  {
    match e
    case TurnEntry(t) =>
      TurnRoundTrip(t);
      if !t.toolArgs.Undef? { JsonifyKeepsJson(t.toolArgs); }
    case ResultEntry(r) =>
      ToolResultRoundTrip(r);
      if !r.result.Undef? { JsonifyKeepsJson(r.result); }
  }

  /** One dist record reloads as the entry it was written from. */
  lemma DistLineReloads(e: Entry)
    requires Storable(e)
    ensures Load([LogLine(Dist, e)]) == [e]
  {
    LoadOne(LogLine(Dist, e));
    DecodeLogLine(Dist, e);
    StorableEncodesBack(e);
  }

  /** Dist round trip: entries written through the dist `log()` reload as
      exactly the same sequence. */
  lemma {:induction false} DistReloadRoundTrip(entries: seq<Entry>)
    requires forall i :: 0 <= i < |entries| ==> Storable(entries[i])
    ensures Load(LinesOf(Dist, entries)) == entries
  {
    var lines := LinesOf(Dist, entries);
    forall i | 0 <= i < |lines| ensures Load([lines[i]]) == [entries[i]] {
      LinesOfAt(Dist, entries, i);
      DistLineReloads(entries[i]);
    }
    LoadEach(lines, entries);
  }

  lemma {:induction false} LinesOfAt(variant: Variant, entries: seq<Entry>, i: nat)
    requires i < |entries|
    ensures LinesOf(variant, entries)[i] == LogLine(variant, entries[i])
  {
    var n := |entries| - 1;
    if i < n {
      LinesOfAt(variant, entries[..n], i);
    }
  }

  /** Lines that each reload as one entry reload as those entries. */
  lemma {:induction false} LoadEach(lines: seq<Line>, entries: seq<Entry>)
    requires |lines| == |entries|
    requires forall i :: 0 <= i < |lines| ==> Load([lines[i]]) == [entries[i]]
    ensures Load(lines) == entries
  {
    if lines != [] {
      var n := |lines| - 1;
      LoadEach(lines[..n], entries[..n]);
      LoadSnoc(lines[..n], lines[n], entries[..n], entries[n]);
      assert lines[..n] + [lines[n]] == lines;
      assert entries[..n] + [entries[n]] == entries;
    }
  }

  lemma LoadSnoc(lines: seq<Line>, l: Line, prefix: seq<Entry>, e: Entry)
    requires Load(lines) == prefix && Load([l]) == [e]
    ensures Load(lines + [l]) == prefix + [e]
  {
    LoadAppend(lines, l);
  }

  /** What the src `log()` lets survive a reload: Turns not sent by "System". */
  function SrcSurvivors(entries: seq<Entry>): seq<Entry> {
    if entries == [] then []
    else
      var e := entries[|entries| - 1];
      SrcSurvivors(entries[..|entries| - 1])
        + (if e.TurnEntry? && e.turn.sender != SYSTEM_SENDER then [e] else [])
  }

  /** One src record: a ToolResult is tagged "turn" and fails the Turn schema;
      a Turn sent by "System" is tagged "tool_result" and fails that schema. */
  lemma SrcLineReloads(e: Entry)
    requires Storable(e)
    ensures Load([LogLine(Src, e)]) == if e.TurnEntry? && e.turn.sender != SYSTEM_SENDER then [e] else []
  {
    LoadOne(LogLine(Src, e));
    DecodeLogLine(Src, e);
    StorableEncodesBack(e);
    match e
    case TurnEntry(t) =>
      SchemasDisjoint(t, ToolResult("", Undef, false));
    case ResultEntry(r) =>
      SchemasDisjoint(Turn("", "", "", "", None, Undef, None), r);
  }

  /** Src round trip: only the Turns not sent by "System" come back; every
      ToolResult is lost. */
  lemma {:induction false} SrcReloadKeepsOnlyTurns(entries: seq<Entry>)
    requires forall i :: 0 <= i < |entries| ==> Storable(entries[i])
    ensures Load(LinesOf(Src, entries)) == SrcSurvivors(entries)
  {
    if entries != [] {
      var init := entries[..|entries| - 1];
      var e := entries[|entries| - 1];
      assert forall i :: 0 <= i < |init| ==> init[i] == entries[i];
      SrcReloadKeepsOnlyTurns(init);
      assert LinesOf(Src, entries) == LinesOf(Src, init) + [LogLine(Src, e)];
      LoadAppend(LinesOf(Src, init), LogLine(Src, e));
      SrcLineReloads(e);
    }
  }

  /** A concrete log whose ToolResult the src logger loses on reload. */
  lemma SrcLosesToolResult()
    ensures var t := TurnEntry(Turn("PM", TOOL, "WebSearchTool", NO_ACTION, None, Obj(map[]), None));
            var r := ResultEntry(ToolResult("WebSearchTool", Str("ok"), false));
            Load(LinesOf(Src, [t, r])) == [t]
  {
    var t := TurnEntry(Turn("PM", TOOL, "WebSearchTool", NO_ACTION, None, Obj(map[]), None));
    var r := ResultEntry(ToolResult("WebSearchTool", Str("ok"), false));
    assert Storable(t) by { assert IsJson(Obj(map[])); }
    assert Storable(r) by { assert IsJson(Str("ok")); }
    SrcReloadKeepsOnlyTurns([t, r]);
    assert [t, r][..1] == [t];
    assert [t][..0] == [];
    assert SrcSurvivors([t]) == [t];
    assert SrcSurvivors([t, r]) == SrcSurvivors([t]);
  }

  /** A record with an unknown `log_type` leaves an `undefined` slot behind
      in the written reload and nothing in the corrected one. */
  lemma UnknownTagLeavesUndefined()
    ensures var l := Parsed(Obj(map["log_type" := Str("note"), "data" := Obj(map[])]));
            LoadAsWritten([l]) == [Undefined] && Load([l]) == []
  {
    var l := Parsed(Obj(map["log_type" := Str("note"), "data" := Obj(map[])]));
    assert [l][..0] == [];
    assert Field(l.json.fields, "log_type") == Str("note");
  }

  /** A write that failed is not committed: the entry is in memory, yet a
      reload of the file does not bring it back. */
  lemma FailedAppendLostOnReload(s: LogState, variant: Variant, e: Entry)
    ensures var r := Append(s, variant, e, false);
            e == r.state.memory[|r.state.memory| - 1] && Load(r.state.file) == Load(s.file)
  {
  }

  // ---------------------------------------------------------------------
  // Queries

  /** `getLastTurn`: nothing for an empty log, otherwise the last entry. */
  function LastEntry(log: seq<Entry>): (r: Option<Entry>)
    ensures r.None? <==> log == []
    ensures r.Some? ==> r.value == log[|log| - 1]
  {
    if log == [] then None else Some(log[|log| - 1])
  }

  /** The sender of the most recent Turn, or nothing when no Turn has been
      logged: the `lastTurnSender` the projection carries along. */
  function LastTurnSender(log: seq<Entry>): Option<string> {
    if log == [] then None
    else if log[|log| - 1].TurnEntry? then Some(log[|log| - 1].turn.sender)
    else LastTurnSender(log[..|log| - 1])
  }

  /** A Turn an agent is entitled to see. */
  predicate Addressed(t: Turn, agent: string) {
    t.recipient == agent || t.sender == agent || t.recipient == BROADCAST
  }

  /** Whether the projection keeps an entry, given the sender of the Turn
      before it. */
  predicate Visible(e: Entry, lastSender: Option<string>, agent: string) {
    match e
    case TurnEntry(t) => Addressed(t, agent)
    case ResultEntry(_) => lastSender == Some(agent)
  }

  /** `getPersonalHistory(agent)`: the left fold over the log, written as a
      recursion on the last entry. */
  function Project(log: seq<Entry>, agent: string): seq<Entry> {
    if log == [] then []
    else
      var init := log[..|log| - 1];
      Project(init, agent)
        + (if Visible(log[|log| - 1], LastTurnSender(init), agent) then [log[|log| - 1]] else [])
  }

  /** The loop of `getPersonalHistory`, one pass with `lastTurnSender`. */
  method PersonalHistory(log: seq<Entry>, agent: string) returns (history: seq<Entry>)
    ensures history == Project(log, agent)
  {
    history := [];
    var lastTurnSender: Option<string> := None;
    var i := 0;
    while i < |log|
      invariant 0 <= i <= |log|
      invariant history == Project(log[..i], agent)
      invariant lastTurnSender == LastTurnSender(log[..i])
    {
      var e := log[i];
      assert log[..i + 1][..i] == log[..i];
      match e {
        case TurnEntry(t) =>
          if t.recipient == agent || t.sender == agent || t.recipient == BROADCAST {
            history := history + [e];
          }
          lastTurnSender := Some(t.sender);
        case ResultEntry(_) =>
          if lastTurnSender == Some(agent) {
            history := history + [e];
          }
      }
      i := i + 1;
    }
    assert log[..i] == log;
  }

  lemma ProjectSnoc(log: seq<Entry>, e: Entry, agent: string)
    ensures Project(log + [e], agent)
      == Project(log, agent) + (if Visible(e, LastTurnSender(log), agent) then [e] else [])
    ensures LastTurnSender(log + [e]) == if e.TurnEntry? then Some(e.turn.sender) else LastTurnSender(log)
  {
    assert (log + [e])[..|log|] == log;
  }

  /** Soundness: every Turn in the projection is addressed to the agent,
      sent by it, or broadcast; every ToolResult in it sits at a position
      whose most recent preceding Turn the agent sent. */
  lemma {:induction false} ProjectSound(log: seq<Entry>, agent: string)
    ensures forall e :: e in Project(log, agent) && e.TurnEntry? ==> Addressed(e.turn, agent)
    ensures forall e :: e in Project(log, agent) && e.ResultEntry? ==>
      (exists k :: 0 <= k < |log| && log[k] == e && LastTurnSender(log[..k]) == Some(agent))
  {
    if log != [] {
      var init := log[..|log| - 1];
      var last := log[|log| - 1];
      ProjectSound(init, agent);
      assert Project(log, agent)
        == Project(init, agent) + (if Visible(last, LastTurnSender(init), agent) then [last] else []);
      forall e | e in Project(log, agent) && e.ResultEntry?
        ensures exists k :: 0 <= k < |log| && log[k] == e && LastTurnSender(log[..k]) == Some(agent)
      {
        if e in Project(init, agent) {
          var k :| 0 <= k < |init| && init[k] == e && LastTurnSender(init[..k]) == Some(agent);
          assert log[..k] == init[..k];
          assert log[k] == init[k];
        } else {
          assert log[..|log| - 1] == init;
        }
      }
    }
  }

  /** Completeness for Turns: every Turn the agent is entitled to see is in
      its projection. */
  lemma {:induction false} ProjectTurnsComplete(log: seq<Entry>, agent: string)
    ensures forall i :: 0 <= i < |log| && log[i].TurnEntry? && Addressed(log[i].turn, agent) ==>
      log[i] in Project(log, agent)
  {
    if log != [] {
      var init := log[..|log| - 1];
      ProjectTurnsComplete(init, agent);
      forall i | 0 <= i < |log| - 1 ensures log[i] == init[i] { }
    }
  }

  /** Projection at one position: the entry at `i` is kept exactly when it
      is visible given the Turns before it; in particular a ToolResult is kept
      iff the most recent preceding Turn was sent by the agent. */
  lemma ProjectAt(log: seq<Entry>, i: int, agent: string)
    requires 0 <= i < |log|
    ensures Project(log[..i + 1], agent)
      == Project(log[..i], agent) + (if Visible(log[i], LastTurnSender(log[..i]), agent) then [log[i]] else [])
  {
    assert log[..i + 1][..i] == log[..i];
  }

  /** Before the first Turn there is no sender, so no ToolResult is shown. */
  lemma {:induction false} NoTurnNoSender(log: seq<Entry>)
    requires forall i :: 0 <= i < |log| ==> log[i].ResultEntry?
    ensures LastTurnSender(log) == None
  {
    if log != [] {
      NoTurnNoSender(log[..|log| - 1]);
    }
  }

  /** `IsSubsequence(a, b)`: `a` is `b` with some entries removed. */
  predicate IsSubsequence(a: seq<Entry>, b: seq<Entry>)
    decreases |b|
  {
    if a == [] then true
    else if b == [] then false
    else if a[|a| - 1] == b[|b| - 1] then IsSubsequence(a[..|a| - 1], b[..|b| - 1])
    else IsSubsequence(a, b[..|b| - 1])
  }

  lemma {:induction false} SubsequenceSnoc(a: seq<Entry>, b: seq<Entry>, x: Entry)
    requires IsSubsequence(a, b)
    ensures IsSubsequence(a, b + [x])
    decreases |b|, 1
  {
    assert (b + [x])[..|b|] == b;
    if a != [] && a[|a| - 1] == x {
      SubsequenceDropLast(a, b);
    }
  }

  lemma {:induction false} SubsequenceDropLast(a: seq<Entry>, b: seq<Entry>)
    requires a != [] && IsSubsequence(a, b)
    ensures IsSubsequence(a[..|a| - 1], b)
    decreases |b|, 0
  {
    var a' := a[..|a| - 1];
    var b' := b[..|b| - 1];
    assert b == b' + [b[|b| - 1]];
    if a[|a| - 1] == b[|b| - 1] {
      SubsequenceSnoc(a', b', b[|b| - 1]);
    } else {
      SubsequenceDropLast(a, b');
      SubsequenceSnoc(a', b', b[|b| - 1]);
    }
  }

  /** The projection is an order-preserving subsequence of the log. */
  lemma {:induction false} ProjectIsSubsequence(log: seq<Entry>, agent: string)
    ensures IsSubsequence(Project(log, agent), log)
  {
    if log != [] {
      var init := log[..|log| - 1];
      var last := log[|log| - 1];
      ProjectIsSubsequence(init, agent);
      var p := Project(log, agent);
      assert log == init + [last];
      if Visible(last, LastTurnSender(init), agent) {
        assert p == Project(init, agent) + [last];
        assert p[..|p| - 1] == Project(init, agent);
      } else {
        assert p == Project(init, agent);
        SubsequenceSnoc(Project(init, agent), init, last);
      }
    }
  }

  /** Appending entries to the log only ever extends a projection: what an
      agent has seen stays a prefix of what it will see, and one appended
      entry adds at most that entry. */
  lemma {:induction false} ProjectExtends(log: seq<Entry>, more: seq<Entry>, agent: string)
    ensures Project(log, agent) <= Project(log + more, agent)
    ensures |Project(log + more, agent)| <= |Project(log, agent)| + |more|
    decreases |more|
  {
    if more != [] {
      var init := more[..|more| - 1];
      ProjectExtends(log, init, agent);
      assert log + more == (log + init) + [more[|more| - 1]];
      ProjectSnoc(log + init, more[|more| - 1], agent);
    } else {
      assert log + more == log;
    }
  }

  // ---------------------------------------------------------------------
  // Replay

  /** An entry whose enums are valid and whose payloads are JSON values: it
      survives the JSON text and the schema except for `thought`, which the
      Turn schema does not carry and therefore strips. */
  predicate Writable(e: Entry) {
    match e
    case TurnEntry(t) =>
      && IsTargetType(t.targetType) && IsSpecialAction(t.specialAction)
      && (t.toolArgs.Undef? || IsJson(t.toolArgs))
    case ResultEntry(r) => r.result.Undef? || IsJson(r.result)
  }

  /** What a reload gives back of a written entry: a Turn without `thought`. */
  function Stored(e: Entry): Entry {
    match e
    case TurnEntry(t) => TurnEntry(t.(thought := None))
    case ResultEntry(_) => e
  }

  function StoredAll(entries: seq<Entry>): seq<Entry> {
    seq(|entries|, i requires 0 <= i < |entries| => Stored(entries[i]))
  }

  lemma StoredAllAppend(a: seq<Entry>, b: seq<Entry>)
    ensures StoredAll(a + b) == StoredAll(a) + StoredAll(b)
  {
  }

  /** One dist record of a writable entry reloads as its stored form. */
  lemma DistLineStores(e: Entry)
    requires Writable(e)
    ensures Load([LogLine(Dist, e)]) == [Stored(e)]
  {
    LoadOne(LogLine(Dist, e));
    DecodeLogLine(Dist, e);
    match e
    case TurnEntry(t) =>
      TurnRoundTrip(t);
      if !t.toolArgs.Undef? { JsonifyKeepsJson(t.toolArgs); }
    case ResultEntry(r) =>
      ToolResultRoundTrip(r);
      if !r.result.Undef? { JsonifyKeepsJson(r.result); }
  }

  /** Writable entries written through the dist `log()` reload as their
      stored forms, in order. */
  lemma {:induction false} DistReloadStores(entries: seq<Entry>)
    requires forall i :: 0 <= i < |entries| ==> Writable(entries[i])
    ensures Load(LinesOf(Dist, entries)) == StoredAll(entries)
  {
    var lines := LinesOf(Dist, entries);
    var stored := StoredAll(entries);
    forall i | 0 <= i < |lines| ensures Load([lines[i]]) == [stored[i]] {
      LinesOfAt(Dist, entries, i);
      DistLineStores(entries[i]);
    }
    LoadEach(lines, stored);
  }

  /** Storing does not change which Turn came last. */
  lemma {:induction false} LastTurnSenderStored(log: seq<Entry>)
    ensures LastTurnSender(StoredAll(log)) == LastTurnSender(log)
  {
    if log != [] {
      var init := log[..|log| - 1];
      LastTurnSenderStored(init);
      StoredAllAppend(init, [log[|log| - 1]]);
      assert log == init + [log[|log| - 1]];
      assert StoredAll(log)[..|log| - 1] == StoredAll(init);
    }
  }

  /** Visibility ignores `thought`: projecting the stored log is storing the
      projection. */
  lemma {:induction false} ProjectStored(log: seq<Entry>, agent: string)
    ensures Project(StoredAll(log), agent) == StoredAll(Project(log, agent))
  {
    if log != [] {
      var init := log[..|log| - 1];
      var e := log[|log| - 1];
      ProjectStored(init, agent);
      LastTurnSenderStored(init);
      assert log == init + [e];
      StoredAllAppend(init, [e]);
      assert StoredAll(log)[..|log| - 1] == StoredAll(init);
      assert StoredAll(log)[|log| - 1] == Stored(e);
      var tail := if Visible(e, LastTurnSender(init), agent) then [e] else [];
      StoredAllAppend(Project(init, agent), tail);
    }
  }

  /** Replay: the projection of a reloaded dist log is the live projection
      with every Turn's `thought` stripped; when no Turn carries a `thought`
      a resumed agent sees exactly the history it saw live. */
  lemma ReplayDeterminism(entries: seq<Entry>, agent: string)
    requires forall i :: 0 <= i < |entries| ==> Writable(entries[i])
    ensures var live := AppendAll(Open([], true), Dist, entries);
            Project(Load(live.file), agent) == StoredAll(Project(live.memory, agent))
    ensures (forall i :: 0 <= i < |entries| ==> Storable(entries[i])) ==>
            var live := AppendAll(Open([], true), Dist, entries);
            Project(Load(live.file), agent) == Project(live.memory, agent)
  {
    var live := AppendAll(Open([], true), Dist, entries);
    assert live.file == LinesOf(Dist, entries);
    assert live.memory == entries;
    DistReloadStores(entries);
    ProjectStored(entries, agent);
    if forall i :: 0 <= i < |entries| ==> Storable(entries[i]) {
      DistReloadRoundTrip(entries);
    }
  }

  /** `getPersonalHistory` over a reloaded array that still holds `undefined`
      slots: evaluating `"recipient" in undefined` throws a TypeError. */
  function ProjectSlots(slots: seq<Slot>, agent: string): (r: Result<seq<Entry>>)
    ensures r.Err? <==> Undefined in slots
    ensures r.Ok? ==> r.value == Project(PresentEntries(slots), agent)
  {
    if slots == [] then Ok([])
    else
      var init := slots[..|slots| - 1];
      var last := slots[|slots| - 1];
      match ProjectSlots(init, agent)
      case Err(e) =>
        assert Undefined in init;
        Err(e)
      case Ok(h) =>
        if last.Undefined? then Err("TypeError: cannot use 'in' operator on undefined")
        else
          assert slots == init + [last];
          assert Undefined !in slots;
          assert PresentEntries(slots) == PresentEntries(init) + [last.entry];
          assert PresentEntries(slots)[..|PresentEntries(slots)| - 1] == PresentEntries(init);
          Ok(h + (if Visible(last.entry, LastTurnSender(PresentEntries(init)), agent) then [last.entry] else []))
  }
}

=== FILE: models.dfy ===
/** The engine's data model: Turns, ToolResults, the log entry union, the
    kickoff plan; their JSON encodings and the Zod validation applied when
    they are read back; and the Zod schemas the agents ask the generator for. */
module Models {
  import opened Wrappers
  import opened Values
  import opened Zod
  import Tools

  const AGENT: string := "AGENT"
  const TOOL: string := "TOOL"
  const NO_ACTION: string := "_"
  const FINALIZE_REQUIREMENTS: string := "FINALIZE_REQUIREMENTS"
  const COMPLETE_PROJECT: string := "COMPLETE_PROJECT"
  /** The pseudo-recipient of a broadcast. */
  const BROADCAST: string := "ALL"

  const TARGET_TYPES: seq<string> := [AGENT, TOOL]
  const SPECIAL_ACTIONS: seq<string> := [NO_ACTION, FINALIZE_REQUIREMENTS, COMPLETE_PROJECT]

  /** One agent's decision. `targetType` and `specialAction` are kept as the
      raw strings an in-memory Turn may hold; only reading a Turn back through
      its schema restricts them to the enums. `toolArgs` is untyped (`any`).
      `thought` is not a schema field: only a Turn built in code carries it. */
  datatype Turn = Turn(
    sender: string,
    targetType: string,
    recipient: string,
    specialAction: string,
    message: Option<string>,
    toolArgs: Value,
    thought: Option<string>)

  datatype ToolResult = ToolResult(toolName: string, result: Value, error: bool)

  /** The log holds both kinds untagged; the source tells them apart by which
      keys are present (`recipient`, `sender`, `special_action` only on a
      Turn; `tool_name` only on a ToolResult). */
  datatype Entry = TurnEntry(turn: Turn) | ResultEntry(toolResult: ToolResult)

  datatype AgentExplanation = AgentExplanation(
    name: string,
    role: string,
    projectRole: string,
    detailedInstructions: string)

  datatype FirstDirective = FirstDirective(recipient: string, message: string)

  datatype Plan = Plan(
    team: seq<AgentExplanation>,
    broadcastMessage: string,
    firstDirective: FirstDirective,
    thought: string)

  predicate IsTargetType(s: string) {
    s in TARGET_TYPES
  }

  predicate IsSpecialAction(s: string) {
    s in SPECIAL_ACTIONS
  }

  /** A Turn carrying the given special action. */
  predicate HasAction(e: Entry, action: string) {
    e.TurnEntry? && e.turn.specialAction == action
  }

  // ---------------------------------------------------------------------
  // JSON encodings (`JSON.stringify` of the objects)

  function WithText(m: map<string, Value>, key: string, o: Option<string>): map<string, Value> {
    if o.Some? then m[key := Str(o.value)] else m
  }

  /** An `undefined` property is left out of the JSON text. */
  function WithPayload(m: map<string, Value>, key: string, v: Value): map<string, Value> {
    if v.Undef? then m else m[key := Jsonify(v)]
  }

  function EncodeTurn(t: Turn): Value {
    var base := map["sender" := Str(t.sender),
                    "target_type" := Str(t.targetType),
                    "recipient" := Str(t.recipient),
                    "special_action" := Str(t.specialAction)];
    Obj(WithText(WithPayload(WithText(base, "message", t.message), "tool_args", t.toolArgs), "thought", t.thought))
  }

  function EncodeToolResult(r: ToolResult): Value {
    Obj(WithPayload(map["tool_name" := Str(r.toolName), "error" := Bool(r.error)], "result", r.result))
  }

  function EncodeEntry(e: Entry): Value {
    match e
    case TurnEntry(t) => EncodeTurn(t)
    case ResultEntry(r) => EncodeToolResult(r)
  }

  /** `JSON.parse(JSON.stringify(entry))`: the deep copy the compactor takes. */
  function JsonCopy(e: Entry): Entry {
    match e
    case TurnEntry(t) => TurnEntry(t.(toolArgs := Jsonify(t.toolArgs)))
    case ResultEntry(r) => ResultEntry(r.(result := Jsonify(r.result)))
  }

  // ---------------------------------------------------------------------
  // Validation (`Schema.parse`); unknown keys are stripped, `None` is a
  // thrown ZodError.

  /** `TurnOutputSchema.parse`: `sender` defaults to "", `message` stays
      absent when absent (the optional wrapper answers before the default),
      `tool_args` accepts anything, `thought` is not in the schema. */
  function ParseTurn(v: Value): Option<Turn> {
    match v
    case Obj(m) =>
      var sender := Field(m, "sender");
      var targetType := Field(m, "target_type");
      var recipient := Field(m, "recipient");
      var action := Field(m, "special_action");
      var message := Field(m, "message");
      if && (sender.Undef? || sender.Str?)
         && targetType.Str? && IsTargetType(targetType.s)
         && recipient.Str?
         && action.Str? && IsSpecialAction(action.s)
         && (message.Undef? || message.Str?)
      then
        Some(Turn(
          if sender.Str? then sender.s else "",
          targetType.s,
          recipient.s,
          action.s,
          if message.Str? then Some(message.s) else None,
          Field(m, "tool_args"),
          None))
      else None
    case _ => None
  }

  /** `ToolResultSchema.parse`: `error` defaults to false. */
  function ParseToolResult(v: Value): Option<ToolResult> {
    match v
    case Obj(m) =>
      var name := Field(m, "tool_name");
      var error := Field(m, "error");
      if name.Str? && (error.Undef? || error.Bool?) then
        Some(ToolResult(name.s, Field(m, "result"), error.Bool? && error.b))
      else None
    case _ => None
  }

  /** What storing a Turn and validating it back leaves of it. */
  function StoredTurn(t: Turn): Turn {
    t.(toolArgs := Jsonify(t.toolArgs), thought := None)
  }

  /** A Turn reads back exactly when its enums are valid, and then as its
      stored form. */
  lemma TurnRoundTrip(t: Turn)
    ensures ParseTurn(EncodeTurn(t)).Some? <==> IsTargetType(t.targetType) && IsSpecialAction(t.specialAction)
    ensures ParseTurn(EncodeTurn(t)).Some? ==> ParseTurn(EncodeTurn(t)) == Some(StoredTurn(t))
  {
    var m := EncodeTurn(t).fields;
    assert Field(m, "sender") == Str(t.sender);
    assert Field(m, "target_type") == Str(t.targetType);
    assert Field(m, "recipient") == Str(t.recipient);
    assert Field(m, "special_action") == Str(t.specialAction);
    assert Field(m, "message") == if t.message.Some? then Str(t.message.value) else Undef;
    assert Field(m, "tool_args") == Jsonify(t.toolArgs);
  }

  /** A ToolResult always reads back, with its payload copied through JSON. */
  lemma ToolResultRoundTrip(r: ToolResult)
    ensures ParseToolResult(EncodeToolResult(r)) == Some(r.(result := Jsonify(r.result)))
  {
    var m := EncodeToolResult(r).fields;
    assert Field(m, "tool_name") == Str(r.toolName);
    assert Field(m, "error") == Bool(r.error);
    assert Field(m, "result") == Jsonify(r.result);
  }

  /** The two schemas never accept each other's objects. */
  lemma SchemasDisjoint(t: Turn, r: ToolResult)
    ensures ParseTurn(EncodeToolResult(r)).None?
    ensures ParseToolResult(EncodeTurn(t)).None?
  {
    assert Field(EncodeToolResult(r).fields, "target_type") == Undef;
    assert Field(EncodeTurn(t).fields, "tool_name") == Undef;
  }

  // ---------------------------------------------------------------------
  // The plan artifact

  function EncodeExplanation(a: AgentExplanation): Value {
    Obj(map["name" := Str(a.name), "role" := Str(a.role),
            "project_role" := Str(a.projectRole),
            "detailed_instructions" := Str(a.detailedInstructions)])
  }

  function ParseExplanation(v: Value): Option<AgentExplanation> {
    match v
    case Obj(m) =>
      var name := Field(m, "name");
      var role := Field(m, "role");
      var projectRole := Field(m, "project_role");
      var instructions := Field(m, "detailed_instructions");
      if name.Str? && role.Str? && projectRole.Str? && instructions.Str? then
        Some(AgentExplanation(name.s, role.s, projectRole.s, instructions.s))
      else None
    case _ => None
  }

  function EncodeTeam(team: seq<AgentExplanation>): (r: seq<Value>)
    ensures |r| == |team|
  {
    if team == [] then [] else [EncodeExplanation(team[0])] + EncodeTeam(team[1..])
  }

  /** `z.array(AgentExplanationSchema)`: every element must validate. */
  function ParseTeam(items: seq<Value>): Option<seq<AgentExplanation>> {
    if items == [] then Some([])
    else
      match (ParseExplanation(items[0]), ParseTeam(items[1..]))
      case (Some(a), Some(rest)) => Some([a] + rest)
      case _ => None
  }

  function EncodePlan(p: Plan): Value {
    Obj(map["team" := Arr(EncodeTeam(p.team)),
            "broadcast_message" := Str(p.broadcastMessage),
            "first_directive" := Obj(map["recipient" := Str(p.firstDirective.recipient),
                                         "message" := Str(p.firstDirective.message)]),
            "thought" := Str(p.thought)])
  }

  /** `PlanProjectAndKickoffSchema.parse`: team, broadcast message, first
      directive (recipient and message) and thought are all required. */
  function ParsePlan(v: Value): Option<Plan> {
    match v
    case Obj(m) =>
      var team := Field(m, "team");
      var broadcast := Field(m, "broadcast_message");
      var directive := Field(m, "first_directive");
      var thought := Field(m, "thought");
      if team.Arr? && broadcast.Str? && thought.Str? && directive.Obj? then
        var recipient := Field(directive.fields, "recipient");
        var message := Field(directive.fields, "message");
        match ParseTeam(team.items)
        case Some(members) =>
          if recipient.Str? && message.Str? then
            Some(Plan(members, broadcast.s, FirstDirective(recipient.s, message.s), thought.s))
          else None
        case None => None
      else None
    case _ => None
  }

  lemma {:induction false} TeamRoundTrip(team: seq<AgentExplanation>)
    ensures ParseTeam(EncodeTeam(team)) == Some(team)
  {
    if team != [] {
      TeamRoundTrip(team[1..]);
      var items := EncodeTeam(team);
      assert items[0] == EncodeExplanation(team[0]);
      assert items[1..] == EncodeTeam(team[1..]);
      assert ParseExplanation(items[0]) == Some(team[0]);
      assert [team[0]] + team[1..] == team;
    }
  }

  /** The plan artifact written at kickoff is read back unchanged on resume. */
  lemma PlanRoundTrip(p: Plan)
    ensures ParsePlan(EncodePlan(p)) == Some(p)
  {
    TeamRoundTrip(p.team);
    var m := EncodePlan(p).fields;
    assert Field(m, "team") == Arr(EncodeTeam(p.team));
    assert Field(m, "first_directive").Obj?;
  }

  // ---------------------------------------------------------------------
  // Schemas handed to the generator. Descriptions are prompt text and are
  // kept as short labels.

  const TURN_BASE_SHAPE: seq<(string, Schema)> := [
    ("sender", Describe(WithDefault(Plain(ZString)), "sender agent name, set by the system")),
    ("target_type", Described(ZEnum(TARGET_TYPES), "whether the action targets an agent or a tool")),
    ("recipient", Described(ZString, "agent or tool name")),
    ("special_action", Described(ZEnum(SPECIAL_ACTIONS), "project-level special action")),
    ("message", Optional(Describe(WithDefault(Plain(ZString)), "message to an agent"))),
    ("tool_args", Described(ZAny, "tool arguments keyed by tool name"))
  ]

  const TurnOutputSchema: Schema := Plain(ZObject(TURN_BASE_SHAPE))

  const ToolResultSchema: Schema := Plain(ZObject([
    ("tool_name", Described(ZString, "executed tool name")),
    ("result", Described(ZAny, "tool output or error message")),
    ("error", Describe(WithDefault(Plain(ZBoolean)), "whether the tool failed"))
  ]))

  const AgentExplanationSchema: Schema := Plain(ZObject([
    ("name", Described(ZString, "agent name")),
    ("role", Described(ZString, "general role")),
    ("project_role", Described(ZString, "role in this project")),
    ("detailed_instructions", Described(ZString, "instructions for the whole project"))
  ]))

  const FirstDirectiveSchema: Schema := Plain(ZObject([
    ("recipient", Described(ZString, "agent given the first task")),
    ("message", Described(ZString, "the first task"))
  ]))

  const PlanProjectAndKickoffSchema: Schema := Plain(ZObject([
    ("team", Described(ZArray(AgentExplanationSchema), "additional team members")),
    ("broadcast_message", Described(ZString, "kickoff message to the whole team")),
    ("first_directive", Describe(FirstDirectiveSchema, "first task")),
    ("thought", Described(ZString, "rationale for the plan"))
  ]))

  /** The `tool_args` object shape: one optional key per tool constructor
      name, assigned in list order. */
  function ToolArgsShape(tools: seq<Tools.Tool>): seq<(string, Schema)> {
    if tools == [] then []
    else
      var last := tools[|tools| - 1];
      Upsert(ToolArgsShape(tools[..|tools| - 1]), last.name, Optional(last.argsSchema))
  }

  const TOOL_ARGS_DESCRIPTION: string := "tool arguments keyed by tool name"

  /** `getTurnOutputSchemaWithTools`: the base shape with `tool_args`
      replaced (in place) by an object of the tools' argument schemas. */
  function TurnOutputSchemaWithTools(tools: seq<Tools.Tool>): Schema {
    Plain(ZObject(Upsert(TURN_BASE_SHAPE, "tool_args",
      Described(ZObject(ToolArgsShape(tools)), TOOL_ARGS_DESCRIPTION))))
  }

  /** One key per distinct tool name. */
  lemma {:induction false} ToolArgsShapeKeys(tools: seq<Tools.Tool>)
    ensures DistinctKeys(ToolArgsShape(tools))
    ensures forall k :: k in Keys(ToolArgsShape(tools)) <==> k in Tools.Names(tools)
  {
    if tools != [] {
      var init := tools[..|tools| - 1];
      var last := tools[|tools| - 1];
      ToolArgsShapeKeys(init);
      UpsertSpec(ToolArgsShape(init), last.name, Optional(last.argsSchema));
      UpsertKeys(ToolArgsShape(init), last.name, Optional(last.argsSchema));
      Tools.NamesSnoc(tools);
    }
  }

  /** The schema under a name is the optional arguments schema of the last
      tool listed with that name. */
  lemma {:induction false} ToolArgsShapeLastWins(tools: seq<Tools.Tool>, i: int)
    requires 0 <= i < |tools| && Tools.LastOfName(tools, i)
    ensures Lookup(ToolArgsShape(tools), tools[i].name) == Some(Optional(tools[i].argsSchema))
  {
    var init := tools[..|tools| - 1];
    var last := tools[|tools| - 1];
    ToolArgsShapeKeys(init);
    UpsertSpec(ToolArgsShape(init), last.name, Optional(last.argsSchema));
    if i < |tools| - 1 {
      assert init[i] == tools[i];
      assert Tools.LastOfName(init, i) by {
        forall j | i < j < |init| ensures init[j].name != init[i].name {
          assert init[j] == tools[j];
        }
      }
      ToolArgsShapeLastWins(init, i);
    }
  }

  lemma BaseShapeDistinct()
    ensures DistinctKeys(TURN_BASE_SHAPE)
  {
    var ks := Keys(TURN_BASE_SHAPE);
    assert ks[0] == "sender" && ks[1] == "target_type" && ks[2] == "recipient";
    assert ks[3] == "special_action" && ks[4] == "message" && ks[5] == "tool_args";
  }

  /** Every base field survives, in the same order and (except `tool_args`)
      with the same schema; `tool_args` becomes the tools' object. */
  lemma SchemaWithToolsKeepsBase(tools: seq<Tools.Tool>)
    ensures TurnOutputSchemaWithTools(tools).kind.ZObject?
    ensures Keys(TurnOutputSchemaWithTools(tools).kind.shape) == Keys(TURN_BASE_SHAPE)
    ensures forall k :: k != "tool_args" ==>
      Lookup(TurnOutputSchemaWithTools(tools).kind.shape, k) == Lookup(TURN_BASE_SHAPE, k)
    ensures Lookup(TurnOutputSchemaWithTools(tools).kind.shape, "tool_args")
      == Some(Described(ZObject(ToolArgsShape(tools)), TOOL_ARGS_DESCRIPTION))
  {
    var x := Described(ZObject(ToolArgsShape(tools)), TOOL_ARGS_DESCRIPTION);
    BaseShapeDistinct();
    assert Keys(TURN_BASE_SHAPE)[5] == "tool_args";
    UpsertSpec(TURN_BASE_SHAPE, "tool_args", x);
  }
}

=== FILE: orchestrator.dfy ===
/** The scheduler: bootstrap and resume, one iteration of the `run` loop as a
    step function over the session, tool dispatch, and the kickoff that forms
    the team. Agent replies, the typed user line and the generated plan come
    from an oracle. */
module Orchestrator {
  import opened Wrappers
  import opened Values
  import opened Models
  import opened Tools
  import opened Logger
  import opened Agents

  const LOG_EMPTY: string := "ログが空です。"
  const PM_MISSING: string := "PMAgentが見つかりません。"
  const ERROR_PREFIX: string := "エラー: "
  const BOOT_MESSAGE: string := "プロジェクトを開始します。まずはUSERにヒアリングしてください。"
  const GREETING: string := "こんにちは！どのようなアプリケーションを開発したいですか？具体的に教えてください。"

  function UnknownAgent(name: string): string {
    "エージェント '" + name + "' が見つかりません。"
  }

  function ToolNotFound(name: string): string {
    ERROR_PREFIX + "ツール '" + name + "' が見つかりません。"
  }

  /** The scheduler's state: the in-memory log, the team keyed by name, the
      next speaker, and the plan artifact (its JSON), once written. */
  datatype Session = Session(
    log: seq<Entry>,
    team: map<string, AgentRecord>,
    next: string,
    planFile: Option<Value>)

  /** Every agent is registered under its own name. */
  predicate WellKeyed(team: map<string, AgentRecord>) {
    forall k :: k in team ==> team[k].name == k
  }

  /** `team` keeps every agent of `before` unchanged. */
  predicate Grows(before: map<string, AgentRecord>, team: map<string, AgentRecord>) {
    forall k :: k in before ==> k in team && team[k] == before[k]
  }

  // ---------------------------------------------------------------------
  // Tool dispatch

  /** `toolArgs[name]`: reading a key of a primitive or an array yields
      `undefined` for a tool name. */
  function ArgsFor(args: Value, name: string): Value {
    if args.Obj? then Field(args.fields, name) else Undef
  }

  function Failure(name: string, message: string): ToolResult {
    ToolResult(name, Str(message), true)
  }

  /** `_executeTool` as written: `toolArgs[toolName]` is read outside the
      `try`, so a TOOL Turn without `tool_args` (or with it null, which the
      reply cleaner deletes) throws out of the dispatcher. */
  function DispatchAsWritten(tools: seq<Tool>, name: string, args: Value): (r: Result<ToolResult>)
    ensures r.Err? <==> name in Registry(tools) && (args.Undef? || args.Null?)
    ensures r.Ok? ==> r.value == Dispatch(tools, name, args)
  {
    var registry := Registry(tools);
    if name !in registry then Ok(Failure(name, ToolNotFound(name)))
    else if args.Undef? || args.Null? then Err("TypeError: cannot read properties of " + (if args.Undef? then "undefined" else "null"))
    else Ok(Dispatch(tools, name, args))
  }

  /** The dispatcher with missing arguments reported like absent ones: it
      never fails, always answers for the requested tool, and reports every
      problem as an error result. */
  function Dispatch(tools: seq<Tool>, name: string, args: Value): (r: ToolResult)
    ensures r.toolName == name
    ensures name !in Registry(tools) ==> r == Failure(name, ToolNotFound(name))
    ensures name in Registry(tools) && !Truthy(ArgsFor(args, name)) ==> r == Failure(name, ToolNotFound(name))
    ensures name in Registry(tools) && Truthy(ArgsFor(args, name)) ==>
      match Execute(Registry(tools)[name], ArgsFor(args, name))
      case Ok(v) => r == ToolResult(name, v, false)
      case Err(e) => r == Failure(name, ERROR_PREFIX + e)
  {
    var registry := Registry(tools);
    if name !in registry then Failure(name, ToolNotFound(name))
    else
      var a := ArgsFor(args, name);
      if !Truthy(a) then Failure(name, ToolNotFound(name))
      else match Execute(registry[name], a)
        case Ok(v) => ToolResult(name, v, false)
        case Err(e) => Failure(name, ERROR_PREFIX + e)
  }

  /** A registered tool called with no `tool_args` at all. */
  lemma DispatchAsWrittenThrows(tool: Tool)
    ensures DispatchAsWritten([tool], tool.name, Undef).Err?
    ensures Dispatch([tool], tool.name, Undef) == Failure(tool.name, ToolNotFound(tool.name))
  {
    assert [tool][0].name == tool.name;
    assert tool.name in Names([tool]);
  }

  // ---------------------------------------------------------------------
  // Team formation

  /** The kickoff loop: each plan entry whose name is not yet on the team is
      added as a new AI agent; existing names are skipped. */
  function AddMissing(team: map<string, AgentRecord>, infos: seq<AgentExplanation>): (r: map<string, AgentRecord>)
    ensures Grows(team, r)
    ensures r.Keys == team.Keys + PlanNames(infos)
    ensures WellKeyed(team) ==> WellKeyed(r)
    decreases |infos|
  {
    if infos == [] then team
    else
      var info := infos[0];
      var next := if info.name in team then team else team[info.name := NewWorker(info)];
      AddMissing(next, infos[1..])
  }

  function PlanNames(infos: seq<AgentExplanation>): (names: set<string>)
    ensures forall i :: 0 <= i < |infos| ==> infos[i].name in names
    ensures forall n :: n in names ==> exists i :: 0 <= i < |infos| && infos[i].name == n
  {
    if infos == [] then {}
    else
      var rest := PlanNames(infos[1..]);
      assert forall i :: 1 <= i < |infos| ==> infos[i] == infos[1..][i - 1];
      {infos[0].name} + rest
  }

  /** A name the plan adds is bound to the agent built from its first entry
      in the plan. */
  lemma {:induction false} AddMissingFirstWins(team: map<string, AgentRecord>, infos: seq<AgentExplanation>, i: int)
    requires 0 <= i < |infos| && infos[i].name !in team
    requires forall j :: 0 <= j < i ==> infos[j].name != infos[i].name
    ensures AddMissing(team, infos)[infos[i].name] == NewWorker(infos[i])
    decreases |infos|
  {
    var info := infos[0];
    var next := if info.name in team then team else team[info.name := NewWorker(info)];
    if i > 0 {
      assert infos[1..][i - 1] == infos[i];
      AddMissingFirstWins(next, infos[1..], i - 1);
    }
  }

  function InitialTeam(): (team: map<string, AgentRecord>)
    ensures team.Keys == {PM_NAME, USER_NAME} && WellKeyed(team)
    ensures team[PM_NAME].kind == PMKind && team[USER_NAME].kind == UserKind
  {
    map[PM_NAME := NewPM(PM_NAME), USER_NAME := NewUser(USER_NAME)]
  }

  // ---------------------------------------------------------------------
  // The oracle and one step of `run`

  datatype Oracle = Oracle(
    decide: (AgentRecord, Request) -> Result<Turn>,
    userLine: string,
    plan: Request -> Result<Plan>)

  datatype StepOutcome = Halted | Continued(session: Session) | Failed(reason: string)

  function AgentTurn(sender: string, recipient: string, message: string): Turn {
    Turn(sender, AGENT, recipient, NO_ACTION, Some(message), Obj(map[]), None)
  }

  /** `_handleFinalizeRequirements`: the PM must be a PM agent; the plan is
      drawn from the full log, written as the plan artifact, merged into the
      team, then announced with a broadcast and a first directive, whose
      recipient speaks next. */
  function Kickoff(s: Session, o: Oracle): (r: Result<Session>)
    ensures (PM_NAME !in s.team || s.team[PM_NAME].kind != PMKind) ==> r == Err(PM_MISSING)
    ensures r.Ok? ==> exists p: Plan ::
      && o.plan(KickoffRequest(s.log)) == Ok(p)
      && r.value.log == s.log + [TurnEntry(AgentTurn(PM_NAME, BROADCAST, p.broadcastMessage)),
                                 TurnEntry(AgentTurn(PM_NAME, p.firstDirective.recipient, p.firstDirective.message))]
      && r.value.team == AddMissing(s.team, p.team)
      && r.value.next == p.firstDirective.recipient
      && r.value.planFile == Some(EncodePlan(p))
  {
    if PM_NAME !in s.team || s.team[PM_NAME].kind != PMKind then Err(PM_MISSING)
    else
      var p :- o.plan(KickoffRequest(s.log));
      var broadcast := AgentTurn(PM_NAME, BROADCAST, p.broadcastMessage);
      var directive := AgentTurn(PM_NAME, p.firstDirective.recipient, p.firstDirective.message);
      Ok(Session(s.log + [TurnEntry(broadcast), TurnEntry(directive)],
                 AddMissing(s.team, p.team), directive.recipient, Some(EncodePlan(p))))
  }

  /** The Turn the active agent produces. */
  function Decide(agent: AgentRecord, history: seq<Entry>, tools: seq<Tool>, o: Oracle): Result<Turn> {
    match agent.kind
    case UserKind => Ok(UserTurn(agent.name, history, o.userLine))
    case PMKind => o.decide(agent, PMRequest(history, tools))
    case AIKind => o.decide(agent, WorkerRequest(history, tools))
  }

  /** The ordinary part of an iteration: the speaker's Turn, stamped with its
      name, then the tool's result if it called a tool, and the next speaker. */
  function Act(s: Session, tools: seq<Tool>, agent: AgentRecord, t: Turn): Session {
    var stamped := t.(sender := agent.name);
    var log := s.log + [TurnEntry(stamped)];
    if stamped.targetType == TOOL then
      s.(log := log + [ResultEntry(Dispatch(tools, stamped.recipient, stamped.toolArgs))], next := agent.name)
    else if stamped.targetType == AGENT then s.(log := log, next := stamped.recipient)
    else s.(log := log, next := PM_NAME)
  }

  /** One iteration of `run`. */
  function Step(s: Session, tools: seq<Tool>, o: Oracle): StepOutcome {
    var last := LastEntry(s.log);
    if last.Some? && HasAction(last.value, FINALIZE_REQUIREMENTS) then
      match Kickoff(s, o)
      case Ok(s') => Continued(s')
      case Err(e) => Failed(e)
    else if last.Some? && HasAction(last.value, COMPLETE_PROJECT) then Halted
    else if s.next !in s.team then Failed(UnknownAgent(s.next))
    else
      var agent := s.team[s.next];
      match Decide(agent, Project(s.log, agent.name), tools, o)
      case Err(e) => Failed(e)
      case Ok(t) => Continued(Act(s, tools, agent, t))
  }

  /** The loop stops exactly when the newest entry completes the project. */
  lemma HaltsIffComplete(s: Session, tools: seq<Tool>, o: Oracle)
    ensures Step(s, tools, o).Halted? <==> s.log != [] && HasAction(s.log[|s.log| - 1], COMPLETE_PROJECT)
  {
  }

  /** What an ordinary iteration appends: exactly one Turn stamped with the
      speaker's name, plus exactly one ToolResult for that tool right after
      it when it targets a tool; the next speaker is the same agent after a
      tool call, the recipient after an AGENT Turn, and "PM" otherwise. */
  lemma StepAppends(s: Session, tools: seq<Tool>, o: Oracle)
    requires s.log == [] || (!HasAction(s.log[|s.log| - 1], FINALIZE_REQUIREMENTS) && !HasAction(s.log[|s.log| - 1], COMPLETE_PROJECT))
    ensures s.next !in s.team ==> Step(s, tools, o) == Failed(UnknownAgent(s.next))
    ensures Step(s, tools, o).Continued? ==>
      var agent := s.team[s.next];
      var s' := Step(s, tools, o).session;
      && |s.log| < |s'.log| && s'.log[..|s.log|] == s.log
      && s'.log[|s.log|].TurnEntry?
      && var t := s'.log[|s.log|].turn;
      && t.sender == agent.name
      && s'.team == s.team && s'.planFile == s.planFile
      && (t.targetType == TOOL ==>
            |s'.log| == |s.log| + 2 && s'.log[|s.log| + 1].ResultEntry?
            && s'.log[|s.log| + 1].toolResult.toolName == t.recipient && s'.next == agent.name)
      && (t.targetType != TOOL ==> |s'.log| == |s.log| + 1)
      && (t.targetType == AGENT ==> s'.next == t.recipient)
      && (t.targetType != TOOL && t.targetType != AGENT ==> s'.next == PM_NAME)
  {
    if Step(s, tools, o).Continued? {
      var s' := Step(s, tools, o).session;
      assert s'.log[..|s.log|] == s.log;
    }
  }

  /** A tool's result lands in the calling agent's own history. */
  lemma ToolResultReachesCaller(s: Session, tools: seq<Tool>, o: Oracle)
    requires s.log == [] || (!HasAction(s.log[|s.log| - 1], FINALIZE_REQUIREMENTS) && !HasAction(s.log[|s.log| - 1], COMPLETE_PROJECT))
    requires Step(s, tools, o).Continued?
    requires |Step(s, tools, o).session.log| == |s.log| + 2
    ensures var s' := Step(s, tools, o).session;
      s'.log[|s'.log| - 1] in Project(s'.log, s.team[s.next].name)
  {
    var agent := s.team[s.next];
    var s' := Step(s, tools, o).session;
    var turnLog := s'.log[..|s.log| + 1];
    var r := s'.log[|s.log| + 1];
    assert s'.log == turnLog + [r];
    assert turnLog == s.log + [s'.log[|s.log|]];
    ProjectSnoc(s.log, s'.log[|s.log|], agent.name);
    ProjectSnoc(turnLog, r, agent.name);
  }

  /** Every outcome that continues keeps the log as a prefix and the team
      growing, and keeps every agent under its own name. */
  lemma StepKeepsHistory(s: Session, tools: seq<Tool>, o: Oracle)
    requires Step(s, tools, o).Continued?
    ensures var s' := Step(s, tools, o).session;
      s.log <= s'.log && Grows(s.team, s'.team) && (WellKeyed(s.team) ==> WellKeyed(s'.team))
  {
  }

  // ---------------------------------------------------------------------
  // Bootstrap and resume

  /** A new project: two Turns, "" to PM and PM to USER, and USER speaks. */
  function Bootstrap(): (s: Session)
    ensures |s.log| == 2 && s.next == USER_NAME && s.team == InitialTeam() && s.planFile.None?
    ensures s.log[0] == TurnEntry(AgentTurn("", PM_NAME, BOOT_MESSAGE))
    ensures s.log[1] == TurnEntry(AgentTurn(PM_NAME, USER_NAME, GREETING))
  {
    Session([TurnEntry(AgentTurn("", PM_NAME, BOOT_MESSAGE)), TurnEntry(AgentTurn(PM_NAME, USER_NAME, GREETING))],
            InitialTeam(), USER_NAME, None)
  }

  /** Right after bootstrap the PM sees both Turns and is still gathering
      requirements, the user sees only the greeting, and the user's first
      reply goes to the PM. */
  lemma BootstrapViews()
    ensures var s := Bootstrap();
      && Project(s.log, PM_NAME) == s.log
      && Project(s.log, USER_NAME) == [s.log[1]]
      && !IsDevPhase(Project(s.log, PM_NAME))
      && ReplyTarget(Project(s.log, USER_NAME)) == PM_NAME
  {
    var s := Bootstrap();
    assert [s.log[0]] == [] + [s.log[0]];
    assert s.log == [s.log[0]] + [s.log[1]];
    ProjectSnoc([], s.log[0], PM_NAME);
    ProjectSnoc([s.log[0]], s.log[1], PM_NAME);
    ProjectSnoc([], s.log[0], USER_NAME);
    ProjectSnoc([s.log[0]], s.log[1], USER_NAME);
  }

  /** The `for (let i = length - 2; ...)` scan: the sender of the nearest
      Turn strictly before the last entry. */
  method ScanBackAsWritten(log: seq<Entry>) returns (sender: Option<string>)
    requires log != []
    ensures sender == LastTurnSender(log[..|log| - 1])
  {
    var i := |log| - 2;
    while i >= 0
      invariant -1 <= i <= |log| - 2
      invariant LastTurnSender(log[..|log| - 1]) == LastTurnSender(log[..i + 1])
    {
      assert log[..i + 1][..i] == log[..i];
      if log[i].TurnEntry? {
        return Some(log[i].turn.sender);
      }
      i := i - 1;
    }
    sender := None;
  }

  /** The resume speaker as written: the recipient of a final AGENT Turn;
      after a ToolResult or a TOOL Turn, the sender found by the scan from
      the second-to-last entry; "PM" otherwise. */
  function ResumeSpeakerAsWritten(log: seq<Entry>): (r: Result<string>)
    ensures r.Err? <==> log == []
    ensures log != [] && log[|log| - 1].TurnEntry? && log[|log| - 1].turn.targetType == AGENT ==>
      r == Ok(log[|log| - 1].turn.recipient)
    ensures log != [] && log[|log| - 1].ResultEntry? ==>
      r == Ok(LastTurnSender(log).GetOr(PM_NAME))
    ensures log != [] && log[|log| - 1].TurnEntry? && log[|log| - 1].turn.targetType == TOOL ==>
      r == Ok(LastTurnSender(log[..|log| - 1]).GetOr(PM_NAME))
    ensures log != [] && log[|log| - 1].TurnEntry? && log[|log| - 1].turn.targetType !in {AGENT, TOOL} ==>
      r == Ok(PM_NAME)
  {
    if log == [] then Err(LOG_EMPTY)
    else
      var last := log[|log| - 1];
      if last.TurnEntry? && last.turn.targetType == AGENT then Ok(last.turn.recipient)
      else if last.ResultEntry? || last.turn.targetType == TOOL then Ok(LastTurnSender(log[..|log| - 1]).GetOr(PM_NAME))
      else Ok(PM_NAME)
  }

  /** The resume speaker with the scan starting at the last entry, so a
      final TOOL Turn hands control back to the agent that called the tool,
      as an uninterrupted run would. */
  function ResumeSpeaker(log: seq<Entry>): (r: Result<string>)
    ensures r.Err? <==> log == []
    ensures log != [] && log[|log| - 1].TurnEntry? && log[|log| - 1].turn.targetType == AGENT ==>
      r == Ok(log[|log| - 1].turn.recipient)
    ensures log != [] && log[|log| - 1].TurnEntry? && log[|log| - 1].turn.targetType == TOOL ==>
      r == Ok(log[|log| - 1].turn.sender)
    ensures log != [] && log[|log| - 1].ResultEntry? ==>
      r == Ok(LastTurnSender(log).GetOr(PM_NAME))
    ensures log != [] && log[|log| - 1].TurnEntry? && log[|log| - 1].turn.targetType !in {AGENT, TOOL} ==>
      r == Ok(PM_NAME)
  {
    if log == [] then Err(LOG_EMPTY)
    else
      var last := log[|log| - 1];
      if last.TurnEntry? && last.turn.targetType == AGENT then Ok(last.turn.recipient)
      else if last.ResultEntry? || last.turn.targetType == TOOL then Ok(LastTurnSender(log).GetOr(PM_NAME))
      else Ok(PM_NAME)
  }

  /** The two agree except on a final TOOL Turn; there the written version
      names the previous Turn's sender. */
  lemma ResumeSpeakerDiffersOnlyAfterToolTurn(log: seq<Entry>)
    requires !(log != [] && log[|log| - 1].TurnEntry? && log[|log| - 1].turn.targetType == TOOL)
    ensures ResumeSpeakerAsWritten(log) == ResumeSpeaker(log)
  {
    if log != [] && log[|log| - 1].ResultEntry? {
      assert log == log[..|log| - 1] + [log[|log| - 1]];
      ProjectSnoc(log[..|log| - 1], log[|log| - 1], PM_NAME);
    }
  }

  /** A run interrupted right after WORKER logged a TOOL Turn resumes with
      the PM under the written rule, and with WORKER under the corrected one. */
  lemma ResumeAfterToolTurn()
    ensures var log := [TurnEntry(AgentTurn(PM_NAME, "WORKER", "go")),
                        TurnEntry(Turn("WORKER", TOOL, "WebSearchTool", NO_ACTION, None, Obj(map[]), None))];
      ResumeSpeakerAsWritten(log) == Ok(PM_NAME) && ResumeSpeaker(log) == Ok("WORKER")
  {
    var log := [TurnEntry(AgentTurn(PM_NAME, "WORKER", "go")),
                TurnEntry(Turn("WORKER", TOOL, "WebSearchTool", NO_ACTION, None, Obj(map[]), None))];
    assert log[..1] == [log[0]];
    assert log[..1][..0] == [];
  }

  /** The team a resumed run starts from: PM and USER, plus the plan's
      members when the plan artifact exists and validates. */
  function ResumedTeam(planFile: Option<Value>): (team: map<string, AgentRecord>)
    ensures Grows(InitialTeam(), team) && WellKeyed(team)
  {
    if planFile.Some? && ParsePlan(planFile.value).Some? then
      AddMissing(InitialTeam(), ParsePlan(planFile.value).value.team)
    else InitialTeam()
  }

  /** `setupProject` with `resume`: the log as reloaded, the team rebuilt
      from the plan artifact, the speaker derived from the log. */
  function Resume(log: seq<Entry>, planFile: Option<Value>): (r: Result<Session>)
    ensures r.Err? <==> log == []
    ensures r.Ok? ==> (r.value.log == log && r.value.team == ResumedTeam(planFile)
                       && Ok(r.value.next) == ResumeSpeaker(log))
  {
    var next :- ResumeSpeaker(log);
    Ok(Session(log, ResumedTeam(planFile), next, planFile))
  }

  /** A kickoff from the initial team leaves a plan artifact from which a
      resumed run rebuilds exactly the same team. */
  lemma ResumeRestoresKickoffTeam(s: Session, o: Oracle)
    requires s.team == InitialTeam()
    requires Kickoff(s, o).Ok?
    ensures var k := Kickoff(s, o).value;
      Resume(k.log, k.planFile).Ok? && Resume(k.log, k.planFile).value.team == k.team
  {
    var p :| o.plan(KickoffRequest(s.log)) == Ok(p) && Kickoff(s, o).value.planFile == Some(EncodePlan(p))
      && Kickoff(s, o).value.team == AddMissing(s.team, p.team);
    PlanRoundTrip(p);
  }

  /** Nothing stops a second kickoff: a later Turn that again carries
      FINALIZE_REQUIREMENTS runs the transition again. */
  lemma KickoffCanRepeat(s: Session, tools: seq<Tool>, o: Oracle)
    requires s.log != [] && HasAction(s.log[|s.log| - 1], FINALIZE_REQUIREMENTS)
    requires PM_NAME in s.team && s.team[PM_NAME].kind == PMKind
    requires o.plan(KickoffRequest(s.log)).Ok?
    ensures Step(s, tools, o).Continued?
    ensures |Step(s, tools, o).session.log| == |s.log| + 2
  {
  }

  // ---------------------------------------------------------------------
  // The loop

  /** `run` driven by one oracle per iteration: it stops when an iteration
      halts or fails, or when the oracles run out. */
  function Run(s: Session, tools: seq<Tool>, oracles: seq<Oracle>): StepOutcome
    decreases |oracles|
  {
    if oracles == [] then Continued(s)
    else match Step(s, tools, oracles[0])
      case Continued(s') => Run(s', tools, oracles[1..])
      case other => other
  }

  /** Over any number of iterations the log only grows at its end and no
      agent is ever replaced or removed. */
  lemma {:induction false} RunKeepsHistory(s: Session, tools: seq<Tool>, oracles: seq<Oracle>)
    requires WellKeyed(s.team)
    requires Run(s, tools, oracles).Continued?
    ensures var s' := Run(s, tools, oracles).session;
      s.log <= s'.log && Grows(s.team, s'.team) && WellKeyed(s'.team)
    decreases |oracles|
  {
    if oracles != [] {
      StepKeepsHistory(s, tools, oracles[0]);
      var s' := Step(s, tools, oracles[0]).session;
      RunKeepsHistory(s', tools, oracles[1..]);
    }
  }
}

=== FILE: retry.dfy ===
/** The structured-reply loop of an AI agent: ask the model, parse its text
    as JSON, drop the null-valued keys, validate against the response schema,
    and retry after an error until the fourth consecutive one, which is
    rethrown. The model, the clock and the validator are parameters. */
module Retry {
  import opened Wrappers
  import opened Values

  /** Errors tolerated before the next one is rethrown. */
  const MAX_RETRIES: nat := 3
  const EMPTY_REPLY: string := "geminiからの回答に一切テキストが含まれませんでした。"
  /** Stands for the `SyntaxError` `JSON.parse` throws; its exact wording is
      the runtime's and does not reach any state the model keeps. */
  const PARSE_ERROR: string := "SyntaxError: unparseable JSON"

  /** What one request to the model produced. */
  datatype Attempt = Transport(error: string) | Reply(text: string)

  /** `for (const key in parsed)` with `delete`: keys holding `null` or
      `undefined` are removed from an object, and indices holding them lose
      their element's value (an array keeps its length, the slot reads as
      `undefined`). Primitives have no keys. */
  function StripNulls(v: Value): (r: Value)
    ensures v.Obj? ==> r.Obj? && r.fields.Keys <= v.fields.Keys
    ensures v.Obj? ==> forall k :: k in r.fields ==> r.fields[k] == v.fields[k] && !r.fields[k].Null? && !r.fields[k].Undef?
    ensures v.Obj? ==> forall k :: k in v.fields && !v.fields[k].Null? && !v.fields[k].Undef? ==> k in r.fields
    ensures !v.Obj? && !v.Arr? ==> r == v
  {
    match v
    case Obj(m) => Obj(map k | k in m && !m[k].Null? && !m[k].Undef? :: m[k])
    case Arr(items) => Arr(seq(|items|, i requires 0 <= i < |items| => if items[i].Null? then Undef else items[i]))
    case _ => v
  }

  /** One pass of the loop body. */
  function AttemptOnce<T>(a: Attempt, parseJson: string -> Option<Value>, validate: Value -> Result<T>): (r: Result<T>)
    ensures a.Transport? ==> r == Err(a.error)
    ensures a.Reply? && a.text == "" ==> r == Err(EMPTY_REPLY)
    ensures a.Reply? && a.text != "" && parseJson(a.text).None? ==> r == Err(PARSE_ERROR)
    ensures a.Reply? && a.text != "" && parseJson(a.text).Some? ==> r == validate(StripNulls(parseJson(a.text).value))
  {
    match a
    case Transport(e) => Err(e)
    case Reply(text) =>
      if text == "" then Err(EMPTY_REPLY)
      else match parseJson(text)
        case None => Err(PARSE_ERROR)
        case Some(v) => validate(StripNulls(v))
  }

  /** `_executeJson`: `attempt(k)` is what the k-th request (from 0) returns.
      The loop stops at the first success or once the error counter exceeds
      three; `attempts` is the number of requests made, so the sleeps taken
      are `attempts - 1`. */
  method ExecuteJson<T>(attempt: nat -> Attempt, parseJson: string -> Option<Value>, validate: Value -> Result<T>)
    returns (r: Result<T>, attempts: nat)
    ensures 1 <= attempts <= MAX_RETRIES + 1
    ensures forall k :: 0 <= k < attempts - 1 ==> AttemptOnce(attempt(k), parseJson, validate).Err?
    ensures r == AttemptOnce(attempt(attempts - 1), parseJson, validate)
    ensures r.Err? ==> attempts == MAX_RETRIES + 1
  {
    var errorCount := 0;
    attempts := 1;
    r := AttemptOnce(attempt(0), parseJson, validate);
    while r.Err? && errorCount < MAX_RETRIES
      invariant errorCount == attempts - 1
      invariant 1 <= attempts <= MAX_RETRIES + 1
      invariant forall k :: 0 <= k < attempts - 1 ==> AttemptOnce(attempt(k), parseJson, validate).Err?
      invariant r == AttemptOnce(attempt(attempts - 1), parseJson, validate)
      decreases MAX_RETRIES - errorCount
    {
      errorCount := errorCount + 1;
      r := AttemptOnce(attempt(attempts), parseJson, validate);
      attempts := attempts + 1;
    }
  }

  /** The reference outcome: the first success among the first four
      attempts, or the fourth error. */
  function FirstSuccess<T>(attempt: nat -> Attempt, parseJson: string -> Option<Value>, validate: Value -> Result<T>, k: nat): (r: Result<T>)
    requires k <= MAX_RETRIES
    decreases MAX_RETRIES - k
  {
    var here := AttemptOnce(attempt(k), parseJson, validate);
    if here.Ok? || k == MAX_RETRIES then here
    else FirstSuccess(attempt, parseJson, validate, k + 1)
  }

  lemma {:induction false} FirstSuccessFrom<T>(attempt: nat -> Attempt, parseJson: string -> Option<Value>, validate: Value -> Result<T>, k: nat, n: nat)
    requires k <= n <= MAX_RETRIES
    requires forall j :: k <= j < n ==> AttemptOnce(attempt(j), parseJson, validate).Err?
    requires n == MAX_RETRIES || AttemptOnce(attempt(n), parseJson, validate).Ok?
    ensures FirstSuccess(attempt, parseJson, validate, k) == AttemptOnce(attempt(n), parseJson, validate)
    decreases n - k
  {
    if k < n {
      FirstSuccessFrom(attempt, parseJson, validate, k + 1, n);
    }
  }

  /** The loop computes the reference outcome. */
  method ExecuteJsonIsFirstSuccess<T>(attempt: nat -> Attempt, parseJson: string -> Option<Value>, validate: Value -> Result<T>)
    returns (r: Result<T>)
    ensures r == FirstSuccess(attempt, parseJson, validate, 0)
  {
    var attempts;
    r, attempts := ExecuteJson(attempt, parseJson, validate);
    FirstSuccessFrom(attempt, parseJson, validate, 0, attempts - 1);
  }

  /** A model that keeps failing is asked exactly four times. */
  lemma AlwaysFailingGivesUpAfterFour<T>(attempt: nat -> Attempt, parseJson: string -> Option<Value>, validate: Value -> Result<T>)
    requires forall k: nat :: attempt(k).Transport?
    ensures FirstSuccess(attempt, parseJson, validate, 0) == Err(attempt(MAX_RETRIES).error)
  {
    FirstSuccessFrom(attempt, parseJson, validate, 0, MAX_RETRIES);
  }
}

=== FILE: schema_converter.dfy ===
/** Translation of a Zod schema into the response-schema record the Gemini
    API takes: a structural recursion over the schema, with `nullable` and
    `description` filled in by a decorating step. */
module SchemaConverter {
  import opened Wrappers
  import opened Zod
  import opened Models

  datatype SchemaType = STRING | NUMBER | INTEGER | BOOLEAN | ARRAY | OBJECT

  /** The translated record; an absent field is `None`. */
  datatype Gemini = Gemini(
    schemaType: SchemaType,
    items: Option<Gemini>,
    properties: Option<seq<(string, Gemini)>>,
    required: Option<seq<string>>,
    enumValues: Option<seq<string>>,
    nullable: Option<bool>,
    description: Option<string>)

  function Bare(t: SchemaType): Gemini {
    Gemini(t, None, None, None, None, None, None)
  }

  /** `decorateGeminiSchema`: `nullable` from `isOptional()` unless already
      set; the description copied when it is non-empty. */
  function Decorate(g: Gemini, s: Schema): (r: Gemini)
    ensures r.nullable.Some?
    ensures g.nullable.Some? ==> r.nullable == g.nullable
    ensures g.nullable.None? ==> r.nullable == Some(IsOptional(s))
    ensures s.description.Some? && s.description.value != "" ==> r.description == s.description
    ensures !(s.description.Some? && s.description.value != "") ==> r.description == g.description
    ensures r.(nullable := g.nullable, description := g.description) == g
  {
    var g1 := if g.nullable.None? then g.(nullable := Some(IsOptional(s))) else g;
    if s.description.Some? && s.description.value != "" then g1.(description := s.description) else g1
  }

  /** The keys pushed onto `required`: those whose schema is not a
      `ZodOptional` instance, in shape order. */
  function RequiredKeys(shape: seq<(string, Schema)>): (ks: seq<string>)
    ensures |ks| <= |shape|
  {
    if shape == [] then []
    else (if shape[0].1.kind.ZOptional? then [] else [shape[0].0]) + RequiredKeys(shape[1..])
  }

  function ToGemini(s: Schema): Gemini
    decreases s
  {
    match s.kind
    case ZArray(element) => Decorate(Bare(ARRAY).(items := Some(ToGemini(element))), s)
    case ZObject(shape) =>
      var properties := seq(|shape|, i requires 0 <= i < |shape| => (shape[i].0, ToGemini(shape[i].1)));
      var required := RequiredKeys(shape);
      Decorate(Bare(OBJECT).(properties := Some(properties), required := if |required| > 0 then Some(required) else None), s)
    case ZString => Decorate(Bare(STRING), s)
    case ZNumber => Decorate(Bare(NUMBER), s)
    case ZBoolean => Decorate(Bare(BOOLEAN), s)
    case ZEnum(values) => Decorate(Bare(STRING).(enumValues := Some(values)), s)
    case ZDefault(inner) => Decorate(ToGemini(inner).(nullable := Some(true)), s)
    case ZNullable(inner) => Decorate(ToGemini(inner).(nullable := Some(true)), s)
    case ZOptional(inner) => Decorate(ToGemini(inner).(nullable := Some(true)), s)
    case ZLiteral(v) => Decorate(Bare(STRING).(enumValues := Some([v])), s)
    case _ => Decorate(Bare(OBJECT).(nullable := Some(true)), s)
  }

  predicate IsWrapper(s: Schema) {
    s.kind.ZOptional? || s.kind.ZNullable? || s.kind.ZDefault?
  }

  function Inner(s: Schema): Schema
    requires IsWrapper(s)
  {
    match s.kind
    case ZOptional(inner) => inner
    case ZNullable(inner) => inner
    case ZDefault(inner) => inner
  }

  /** A key lands in `required` exactly when its schema is not `ZOptional`,
      so a defaulted or nullable field still counts as required. */
  lemma {:induction false} RequiredKeysMembers(shape: seq<(string, Schema)>, k: string)
    ensures k in RequiredKeys(shape) <==> exists i :: 0 <= i < |shape| && shape[i].0 == k && !shape[i].1.kind.ZOptional?
  {
    if shape != [] {
      RequiredKeysMembers(shape[1..], k);
      if exists i :: 0 <= i < |shape| && shape[i].0 == k && !shape[i].1.kind.ZOptional? {
        var i :| 0 <= i < |shape| && shape[i].0 == k && !shape[i].1.kind.ZOptional?;
        if i > 0 { assert shape[1..][i - 1] == shape[i]; }
      }
      if exists i :: 0 <= i < |shape[1..]| && shape[1..][i].0 == k && !shape[1..][i].1.kind.ZOptional? {
        var i :| 0 <= i < |shape[1..]| && shape[1..][i].0 == k && !shape[1..][i].1.kind.ZOptional?;
        assert shape[i + 1] == shape[1..][i];
      }
    }
  }

  /** The required keys keep the shape's order: they are the shape's keys
      with the optional ones left out. */
  lemma {:induction false} RequiredKeysInOrder(shape: seq<(string, Schema)>)
    ensures RequiredKeys(shape) == Keys(NonOptional(shape))
  {
    if shape != [] {
      RequiredKeysInOrder(shape[1..]);
    }
  }

  function NonOptional(shape: seq<(string, Schema)>): seq<(string, Schema)> {
    if shape == [] then []
    else (if shape[0].1.kind.ZOptional? then [] else [shape[0]]) + NonOptional(shape[1..])
  }

  /** Translating an object: `properties` has exactly the shape's keys in
      order, each holding the translation of its schema; `required` is absent
      when every field is optional. */
  lemma ObjectTranslation(s: Schema)
    requires s.kind.ZObject?
    ensures var g := ToGemini(s);
      && g.schemaType == OBJECT && g.properties.Some?
      && Keys(g.properties.value) == Keys(s.kind.shape)
      && (forall i :: 0 <= i < |s.kind.shape| ==> g.properties.value[i].1 == ToGemini(s.kind.shape[i].1))
      && (g.required.None? <==> forall i :: 0 <= i < |s.kind.shape| ==> s.kind.shape[i].1.kind.ZOptional?)
      && (g.required.Some? ==> g.required.value == RequiredKeys(s.kind.shape))
      && g.nullable == Some(false)
  {
    var shape := s.kind.shape;
    var g := ToGemini(s);
    assert |Keys(g.properties.value)| == |Keys(shape)|;
    if forall i :: 0 <= i < |shape| ==> shape[i].1.kind.ZOptional? {
      if |RequiredKeys(shape)| > 0 {
        RequiredKeysMembers(shape, RequiredKeys(shape)[0]);
      }
    } else {
      var i :| 0 <= i < |shape| && !shape[i].1.kind.ZOptional?;
      RequiredKeysMembers(shape, shape[i].0);
    }
  }

  /** An optional, nullable or defaulted schema translates as its inner
      schema with `nullable` forced to true, and its own description (when
      it has one) over the inner one. */
  lemma WrapperTranslation(s: Schema)
    requires IsWrapper(s)
    ensures var g := ToGemini(s);
      var inner := ToGemini(Inner(s));
      && g.nullable == Some(true)
      && g.(nullable := inner.nullable, description := inner.description) == inner
      && (s.description.Some? && s.description.value != "" ==> g.description == s.description)
      && (!(s.description.Some? && s.description.value != "") ==> g.description == inner.description)
  {
  }

  /** Every other kind is marked nullable exactly when Zod calls it optional;
      enums and literals become strings restricted to their values; an array
      carries the translation of its element; anything unlisted (any, union)
      becomes a nullable object. */
  lemma LeafTranslation(s: Schema)
    requires !IsWrapper(s)
    ensures !s.kind.ZAny? && !s.kind.ZUnion? ==> ToGemini(s).nullable == Some(IsOptional(s)) && !IsOptional(s)
    ensures s.kind.ZEnum? ==> ToGemini(s).schemaType == STRING && ToGemini(s).enumValues == Some(s.kind.values)
    ensures s.kind.ZLiteral? ==> ToGemini(s).schemaType == STRING && ToGemini(s).enumValues == Some([s.kind.literal])
    ensures s.kind.ZArray? ==> ToGemini(s).schemaType == ARRAY && ToGemini(s).items == Some(ToGemini(s.kind.element))
    ensures s.kind.ZAny? || s.kind.ZUnion? ==> ToGemini(s).schemaType == OBJECT && ToGemini(s).nullable == Some(true)
  {
  }

  lemma {:induction false} RequiredKeysAppend(a: seq<(string, Schema)>, b: seq<(string, Schema)>)
    ensures RequiredKeys(a + b) == RequiredKeys(a) + RequiredKeys(b)
  {
    if a != [] {
      assert (a + b)[1..] == a[1..] + b;
      RequiredKeysAppend(a[1..], b);
    } else {
      assert a + b == b;
    }
  }

  lemma RequiredKeysOne(p: (string, Schema))
    ensures RequiredKeys([p]) == if p.1.kind.ZOptional? then [] else [p.0]
  {
    assert [p][1..] == [];
  }

  /** Assigning `tool_args` replaces the sixth entry of the base shape. */
  lemma ShapeWithTools(x: Schema)
    ensures Upsert(TURN_BASE_SHAPE, "tool_args", x) == TURN_BASE_SHAPE[..5] + [("tool_args", x)]
  {
    var b := TURN_BASE_SHAPE;
    assert b[0].0 == "sender" && b[1].0 == "target_type" && b[2].0 == "recipient";
    assert b[3].0 == "special_action" && b[4].0 == "message" && b[5].0 == "tool_args";
    Zod.UpsertAt(b, "tool_args", x, 5);
    assert b[6..] == [];
  }

  lemma ObjectRequired(s: Schema)
    requires s.kind.ZObject?
    ensures ToGemini(s).required
      == if |RequiredKeys(s.kind.shape)| > 0 then Some(RequiredKeys(s.kind.shape)) else None
  {
  }

  lemma RequiredKeysSnoc(a: seq<(string, Schema)>, p: (string, Schema))
    ensures RequiredKeys(a + [p]) == RequiredKeys(a) + (if p.1.kind.ZOptional? then [] else [p.0])
  {
    RequiredKeysAppend(a, [p]);
    RequiredKeysOne(p);
  }

  lemma BaseRequired(x: Schema)
    requires !x.kind.ZOptional?
    ensures RequiredKeys(TURN_BASE_SHAPE[..5] + [("tool_args", x)])
      == ["sender", "target_type", "recipient", "special_action", "tool_args"]
  {
    var b := TURN_BASE_SHAPE;
    assert b[0].0 == "sender" && !b[0].1.kind.ZOptional?;
    assert b[1].0 == "target_type" && !b[1].1.kind.ZOptional?;
    assert b[2].0 == "recipient" && !b[2].1.kind.ZOptional?;
    assert b[3].0 == "special_action" && !b[3].1.kind.ZOptional?;
    assert b[4].1.kind.ZOptional?;
    assert b[..1] == [] + [b[0]];
    RequiredKeysSnoc([], b[0]);
    assert b[..2] == b[..1] + [b[1]];
    RequiredKeysSnoc(b[..1], b[1]);
    assert b[..3] == b[..2] + [b[2]];
    RequiredKeysSnoc(b[..2], b[2]);
    assert b[..4] == b[..3] + [b[3]];
    RequiredKeysSnoc(b[..3], b[3]);
    assert b[..5] == b[..4] + [b[4]];
    RequiredKeysSnoc(b[..4], b[4]);
    RequiredKeysSnoc(b[..5], ("tool_args", x));
  }

  /** The Turn schema as the model sees it: every base field but `message`
      is required. */
  lemma TurnSchemaRequired(tools: seq<Tools.Tool>)
    ensures ToGemini(TurnOutputSchemaWithTools(tools)).required
      == Some(["sender", "target_type", "recipient", "special_action", "tool_args"])
  {
    var x := Described(ZObject(ToolArgsShape(tools)), TOOL_ARGS_DESCRIPTION);
    ShapeWithTools(x);
    BaseRequired(x);
    ObjectRequired(TurnOutputSchemaWithTools(tools));
  }
}

=== FILE: tools.dfy ===
/** The tool capability every tool offers the engine, as an abstract record of
    functions, and the name-keyed registry the engine builds from a tool list. */
module Tools {
  import opened Wrappers
  import opened Values
  import Zod

  /** What a call into tool code produced: a value (possibly `undefined`) or a
      thrown error. */
  datatype Call = Returned(v: Value) | Threw(message: string)

  /** A redaction hook seen both ways it can be called: with one argument
      (`hook(value)`, the compactor's call site) and with
      `(passedTurns, value)` (the signature the tools declare). */
  datatype Hook = Hook(unary: Value -> Call, binary: (int, Value) -> Value)

  /** `name` is the tool's constructor name, the key under which the engine
      registers it and under which a Turn carries its arguments. */
  datatype Tool = Tool(
    name: string,
    argsSchema: Zod.Schema,
    argsValid: Value -> bool,
    run: Value -> Result<Value>,
    omitArgs: Hook,
    omitResult: Hook)

  const INVALID_ARGUMENTS: string := "invalid tool arguments"

  /** The text of a thrown `new Error(message)` when it is interpolated into
      a string: its name, a colon and the message. A thrown string is its own
      text. */
  function ErrorText(message: string): (t: string)
    ensures |t| == |message| + 7
    ensures t[7..] == message
  {
    "Error: " + message
  }

  /** `tool.execute(args)`: arguments are validated against the tool's schema
      before its body runs; a validation failure is a thrown error. */
  function Execute(tool: Tool, args: Value): (r: Result<Value>)
    ensures !tool.argsValid(args) ==> r == Err(INVALID_ARGUMENTS)
    ensures tool.argsValid(args) ==> r == tool.run(args)
  {
    if tool.argsValid(args) then tool.run(args) else Err(INVALID_ARGUMENTS)
  }

  /** No later tool in the list has the same name as `tools[i]`. */
  ghost predicate LastOfName(tools: seq<Tool>, i: int)
    requires 0 <= i < |tools|
  {
    forall j :: i < j < |tools| ==> tools[j].name != tools[i].name
  }

  function Names(tools: seq<Tool>): set<string> {
    set i | 0 <= i < |tools| :: tools[i].name
  }

  lemma NamesSnoc(tools: seq<Tool>)
    requires tools != []
    ensures Names(tools) == Names(tools[..|tools| - 1]) + {tools[|tools| - 1].name}
  {
    var init := tools[..|tools| - 1];
    forall n | n in Names(tools) ensures n in Names(init) + {tools[|tools| - 1].name} {
      var i :| 0 <= i < |tools| && tools[i].name == n;
      if i < |tools| - 1 { assert init[i] == tools[i]; }
    }
    forall n | n in Names(init) ensures n in Names(tools) {
      var i :| 0 <= i < |init| && init[i].name == n;
      assert tools[i] == init[i];
    }
  }

  /** The `toolRecord` both the scheduler and the compactor build by looping
      over the tool list and assigning by constructor name: every listed name
      is a key. */
  function Registry(tools: seq<Tool>): (r: map<string, Tool>)
    ensures r.Keys == Names(tools)
  {
    if tools == [] then map[]
    else
      NamesSnoc(tools);
      Registry(tools[..|tools| - 1])[tools[|tools| - 1].name := tools[|tools| - 1]]
  }

  /** Tools sharing a constructor name collapse to the last one listed. */
  lemma {:induction false} RegistryLastWins(tools: seq<Tool>, i: int)
    requires 0 <= i < |tools| && LastOfName(tools, i)
    ensures tools[i].name in Registry(tools)
    ensures Registry(tools)[tools[i].name] == tools[i]
  {
    var init := tools[..|tools| - 1];
    if i < |tools| - 1 {
      assert init[i] == tools[i];
      assert LastOfName(init, i) by {
        forall j | i < j < |init| ensures init[j].name != init[i].name {
          assert init[j] == tools[j];
        }
      }
      RegistryLastWins(init, i);
    }
  }
}

=== FILE: values.dfy ===
/** The JavaScript values the engine moves around untyped: tool arguments,
    tool results and parsed JSON lines. Numbers are modelled as integers. */
module Values {
  import opened Wrappers

  datatype Value =
    | Undef
    | Null
    | Bool(b: bool)
    | Num(n: int)
    | Str(s: string)
    | Arr(items: seq<Value>)
    | Obj(fields: map<string, Value>)

  /** JavaScript truthiness, as used by `if (!x)`. */
  predicate Truthy(v: Value) {
    match v
    case Undef => false
    case Null => false
    case Bool(b) => b
    case Num(n) => n != 0
    case Str(s) => s != ""
    case Arr(_) => true
    case Obj(_) => true
  }

  /** Reading a key of an object: an absent key reads as `undefined`. */
  function Field(m: map<string, Value>, key: string): Value {
    if key in m then m[key] else Undef
  }

  /** The property read `v[key]`. Reading a property of `null` or `undefined`
      throws a TypeError (`None`); a primitive or an array has no property
      named like a tool or a field, so the read yields `undefined`. */
  function Get(v: Value, key: string): (r: Option<Value>)
    ensures r.None? <==> v.Undef? || v.Null?
    ensures v.Obj? ==> r == Some(Field(v.fields, key))
  {
    match v
    case Undef => None
    case Null => None
    case Obj(m) => Some(Field(m, key))
    case _ => Some(Undef)
  }

  /** A value made only of what JSON text can carry: no `undefined` anywhere. */
  predicate IsJson(v: Value) {
    match v
    case Undef => false
    case Arr(items) => forall i :: 0 <= i < |items| ==> IsJson(items[i])
    case Obj(m) => forall k :: k in m ==> IsJson(m[k])
    case _ => true
  }

  /** `JSON.parse(JSON.stringify(v))` for a value nested inside an object or
      array: keys holding `undefined` disappear and `undefined` array
      elements become `null`. The caller drops a top-level `undefined`. */
  function Jsonify(v: Value): (r: Value)
    ensures v.Undef? <==> r.Undef?
    ensures r.Undef? || IsJson(r)
  {
    match v
    case Arr(items) =>
      Arr(seq(|items|, i requires 0 <= i < |items| =>
        if items[i].Undef? then Null else Jsonify(items[i])))
    case Obj(m) =>
      Obj(map k | k in m && !m[k].Undef? :: Jsonify(m[k]))
    case _ => v
  }

  /** Copying through JSON text leaves JSON values untouched. */
  lemma {:induction false} JsonifyKeepsJson(v: Value)
    requires IsJson(v)
    ensures Jsonify(v) == v
  {
    match v
    case Arr(items) =>
      forall i | 0 <= i < |items|
        ensures Jsonify(items[i]) == items[i]
      {
        JsonifyKeepsJson(items[i]);
      }
      assert Jsonify(v).items == items;
    case Obj(m) =>
      forall k | k in m
        ensures Jsonify(m[k]) == m[k]
      {
        JsonifyKeepsJson(m[k]);
      }
      assert Jsonify(v).fields == m;
    case _ =>
  }

  /** Copying through JSON text twice is the same as copying once. */
  lemma JsonifyIdempotent(v: Value)
    ensures Jsonify(Jsonify(v)) == Jsonify(v)
  {
    if !v.Undef? {
      JsonifyKeepsJson(Jsonify(v));
    }
  }
}

=== FILE: web_search.dfy ===
/** The pure parts of the web search tool: its redaction hooks, the
    round-robin rotation over its ten request-header sets, query validation
    and the filtering of scraped hits. Fetching and parsing the result page
    is an oracle returning the scraped (title, snippet, url) triples. */
module WebSearch {
  import opened Wrappers
  import opened Values
  import Zod
  import opened Models
  import opened Tools
  import Compactor

  const NAME: string := "WebSearchTool"
  const OMITTED: string := "省略"
  /** Results this many entries old or newer keep their snippets. */
  const SNIPPET_TURNS: int := 5
  const HEADER_SETS: nat := 10
  const NO_RESULTS: string := "結果が取得できませんでした。"
  const SEARCH_FAILED: string := "ツールの利用時にエラーが発生しました。"
  const EMPTY_QUERY: string := "args.WebSearchTool.queryが空になっています。"

  datatype Hit = Hit(title: string, snippet: string, url: string)

  /** The tool's return value: a message string or a list of hits. */
  datatype SearchReturn = Message(text: string) | Hits(hits: seq<Hit>)

  const ARGS_SCHEMA: Zod.Schema :=
    Zod.Plain(Zod.ZObject([("query", Zod.Described(Zod.ZString, "検索用の文字列。"))]))

  predicate ArgsValid(args: Value) {
    args.Obj? && Field(args.fields, "query").Str?
  }

  function EncodeHit(h: Hit): Value {
    Obj(map["title" := Str(h.title), "snippet" := Str(h.snippet), "url" := Str(h.url)])
  }

  function Encode(r: SearchReturn): Value {
    match r
    case Message(text) => Str(text)
    case Hits(hits) => Arr(seq(|hits|, i requires 0 <= i < |hits| => EncodeHit(hits[i])))
  }

  // ---------------------------------------------------------------------
  // Redaction hooks

  /** `omitResult(passedTurns, result)` on the typed return value. */
  function OmitResult(passed: int, r: SearchReturn): (o: SearchReturn)
    ensures passed < SNIPPET_TURNS || r.Message? ==> o == r
    ensures passed >= SNIPPET_TURNS && r.Hits? ==>
      && o.Hits? && |o.hits| == |r.hits|
      && forall i :: 0 <= i < |r.hits| ==>
           o.hits[i].title == r.hits[i].title
           && o.hits[i].url == r.hits[i].url
           && o.hits[i].snippet == OMITTED
  {
    if passed < SNIPPET_TURNS || r.Message? then r
    else Hits(seq(|r.hits|, i requires 0 <= i < |r.hits| => r.hits[i].(snippet := OMITTED)))
  }

  /** Redacting twice, at any ages, is redacting once at the older age. */
  lemma OmitResultIdempotent(p: int, q: int, r: SearchReturn)
    requires p <= q
    ensures OmitResult(q, OmitResult(p, r)) == OmitResult(q, r)
  {
    if p >= SNIPPET_TURNS && r.Hits? {
      assert OmitResult(q, OmitResult(p, r)).hits == OmitResult(q, r).hits;
    }
  }

  /** The keys of `{...element}`: an object's own fields; the spread of any
      other element the tool can return contributes none. */
  function Spread(v: Value): map<string, Value> {
    if v.Obj? then v.fields else map[]
  }

  /** `omitResult(passedTurns, result)` on the untyped value the log holds.
      A value that is neither a string nor an array has no `map`: the call
      would throw, and is left unchanged here. */
  function OmitResultValue(passed: int, v: Value): Value {
    if passed < SNIPPET_TURNS || v.Str? then v
    else if v.Arr? then
      Arr(seq(|v.items|, i requires 0 <= i < |v.items| => Obj(Spread(v.items[i])["snippet" := Str(OMITTED)])))
    else v
  }

  /** On what the tool returns, the untyped hook is the typed one. */
  lemma OmitResultValueEncodes(passed: int, r: SearchReturn)
    ensures OmitResultValue(passed, Encode(r)) == Encode(OmitResult(passed, r))
  {
    if passed >= SNIPPET_TURNS && r.Hits? {
      var o := OmitResult(passed, r);
      forall i | 0 <= i < |r.hits|
        ensures OmitResultValue(passed, Encode(r)).items[i] == Encode(o).items[i]
      {
        assert Encode(r).items[i] == EncodeHit(r.hits[i]);
        assert EncodeHit(r.hits[i]).fields["snippet" := Str(OMITTED)] == EncodeHit(o.hits[i]).fields;
      }
    }
  }

  /** `omitArgs(passedTurns, args)` returns the arguments it was given. */
  function OmitArgsValue(passed: int, args: Value): Value {
    args
  }

  /** `omitArgs(args)`, called with one argument: `passedTurns` receives the
      arguments and the returned parameter is `undefined`. */
  function UnaryOmitArgs(args: Value): (c: Call)
    ensures c == Returned(Undef)
  {
    Returned(Undef)
  }

  /** `passedTurns < 5` when `passedTurns` is not a number: JavaScript
      converts it first (`null`, `false`, `true`, `""` and `[]` become 0 or
      1; `undefined`, an object and a non-empty array become NaN). */
  predicate LooselyBelowFive(v: Value) {
    match v
    case Undef => false
    case Null => true
    case Bool(_) => true
    case Num(n) => n < SNIPPET_TURNS
    case Str(s) => s == ""
    case Arr(items) => items == []
    case Obj(_) => false
  }

  /** `omitResult(result)`, called with one argument: `result` is
      `undefined`, so it is returned when the loose comparison holds and
      `undefined.map` throws otherwise. */
  function UnaryOmitResult(v: Value): (c: Call)
    ensures c.Returned? <==> LooselyBelowFive(v)
    ensures c.Returned? ==> c.v == Undef
  {
    if LooselyBelowFive(v) then Returned(Undef)
    else Threw(Compactor.TYPE_ERROR)
  }

  // ---------------------------------------------------------------------
  // Header rotation

  /** `getHeaderAndLotation`: the set used now and the index after. */
  function NextHeader(index: nat): (r: (nat, nat))
    requires index < HEADER_SETS
    ensures r.0 == index
    ensures r.1 < HEADER_SETS
    ensures r.1 == (index + 1) % HEADER_SETS
  {
    var next := index + 1;
    (index, if next >= HEADER_SETS then 0 else next)
  }

  /** The index after `k` requests starting from `start`. */
  function IndexAfter(start: nat, k: nat): (r: nat)
    requires start < HEADER_SETS
    ensures r < HEADER_SETS
  {
    if k == 0 then start else NextHeader(IndexAfter(start, k - 1)).1
  }

  lemma {:induction false} IndexAfterMod(start: nat, k: nat)
    requires start < HEADER_SETS
    ensures IndexAfter(start, k) == (start + k) % HEADER_SETS
  {
    if k > 0 {
      IndexAfterMod(start, k - 1);
    }
  }

  /** The rotation repeats every ten requests. */
  lemma RotationPeriodic(start: nat, k: nat)
    requires start < HEADER_SETS
    ensures IndexAfter(start, k + HEADER_SETS) == IndexAfter(start, k)
  {
    IndexAfterMod(start, k + HEADER_SETS);
    IndexAfterMod(start, k);
    var m := start + k;
    assert (m + 10) % 10 == m % 10;
  }

  /** `k` consecutive searches from `start` use the sets
      `start, start + 1, ...` modulo ten, and leave the index where the
      next search continues. */
  method Rotate(start: nat, k: nat) returns (used: seq<nat>, index: nat)
    requires start < HEADER_SETS
    ensures |used| == k
    ensures forall j :: 0 <= j < k ==> used[j] == (start + j) % HEADER_SETS
    ensures index == (start + k) % HEADER_SETS
  {
    used := [];
    index := start;
    while |used| < k
      invariant |used| <= k
      invariant index == (start + |used|) % HEADER_SETS
      invariant forall j :: 0 <= j < |used| ==> used[j] == (start + j) % HEADER_SETS
    {
      var step := NextHeader(index);
      used := used + [step.0];
      index := step.1;
    }
  }

  // ---------------------------------------------------------------------
  // Execution

  predicate Kept(h: Hit) {
    h.title != "" && h.url != ""
  }

  /** Only hits with a non-empty title and url are kept, in page order. */
  function KeepHits(raw: seq<Hit>): (r: seq<Hit>)
    ensures |r| <= |raw|
    ensures forall i :: 0 <= i < |r| ==> Kept(r[i]) && r[i] in raw
    ensures forall i :: 0 <= i < |raw| && Kept(raw[i]) ==> raw[i] in r
  {
    if raw == [] then []
    else
      var init := KeepHits(raw[..|raw| - 1]);
      var h := raw[|raw| - 1];
      assert forall i :: 0 <= i < |raw| - 1 ==> raw[..|raw| - 1][i] == raw[i];
      if Kept(h) then init + [h] else init
  }

  /** One hit is kept exactly when it has a title and a url. */
  lemma KeepHitsOne(h: Hit)
    ensures KeepHits([h]) == if Kept(h) then [h] else []
  {
    assert [h][..0] == [];
  }

  /** The filter works hit by hit: filtering a concatenation is
      concatenating the filtered parts, so the kept hits stay in page order. */
  lemma {:induction false} KeepHitsAppend(a: seq<Hit>, b: seq<Hit>)
    ensures KeepHits(a + b) == KeepHits(a) + KeepHits(b)
    decreases |b|
  {
    if b == [] {
      assert a + b == a;
    } else {
      var init := b[..|b| - 1];
      KeepHitsAppend(a, init);
      assert (a + b)[..|a + b| - 1] == a + init;
      assert (a + b)[|a + b| - 1] == b[|b| - 1];
    }
  }

  /** Filtering a filtered list changes nothing. */
  lemma {:induction false} KeepHitsIdempotent(raw: seq<Hit>)
    ensures KeepHits(KeepHits(raw)) == KeepHits(raw)
  {
    if raw != [] {
      var init := raw[..|raw| - 1];
      KeepHitsIdempotent(init);
      var k := KeepHits(raw);
      if Kept(raw[|raw| - 1]) {
        assert k[..|k| - 1] == KeepHits(init);
      }
    }
  }

  /** `_executeTool(args)`. `fetch` is the page request and scrape, `None`
      when it throws; any such failure is rethrown as one fixed string,
      while an empty query throws an `Error` object. */
  function Run(fetch: Value -> Option<seq<Hit>>, args: Value): (r: Result<SearchReturn>)
    ensures (args.Obj? && Field(args.fields, "query") in {Undef, Null, Str("")}) ==> r == Err(ErrorText(EMPTY_QUERY))
    ensures r.Ok? ==> args.Obj? && fetch(Field(args.fields, "query")).Some?
    ensures r.Ok? && r.value.Hits? ==>
      r.value.hits != [] && r.value.hits == KeepHits(fetch(Field(args.fields, "query")).value)
    ensures r.Ok? && r.value.Message? ==>
      r.value.text == NO_RESULTS && KeepHits(fetch(Field(args.fields, "query")).value) == []
  {
    match Get(args, "query")
    case None => Err(Compactor.TYPE_ERROR)
    case Some(q) =>
      if q.Undef? || q.Null? || q == Str("") then Err(ErrorText(EMPTY_QUERY))
      else
        match fetch(q)
        case None => Err(SEARCH_FAILED)
        case Some(raw) =>
          var hits := KeepHits(raw);
          Ok(if hits == [] then Message(NO_RESULTS) else Hits(hits))
  }

  /** A request is made exactly when the query is present and non-empty,
      and a failed request is the fixed error message. */
  lemma RunFetchesIffQuery(fetch: Value -> Option<seq<Hit>>, args: Value)
    requires ArgsValid(args)
    ensures var q := Field(args.fields, "query");
      && (q == Str("") <==> Run(fetch, args) == Err(ErrorText(EMPTY_QUERY)))
      && (q != Str("") && fetch(q).None? <==> Run(fetch, args) == Err(SEARCH_FAILED))
  {
  }

  /** The tool as the engine sees it. */
  function SearchTool(fetch: Value -> Option<seq<Hit>>): (t: Tool)
    ensures t.name == NAME
    ensures forall args :: t.argsValid(args) ==> Execute(t, args) == Encoded(Run(fetch, args))
  {
    Tool(NAME, ARGS_SCHEMA, ArgsValid, args => Encoded(Run(fetch, args)),
      Hook(UnaryOmitArgs, OmitArgsValue), Hook(UnaryOmitResult, OmitResultValue))
  }

  function Encoded(r: Result<SearchReturn>): Result<Value> {
    match r
    case Ok(v) => Ok(Encode(v))
    case Err(e) => Err(e)
  }

  // ---------------------------------------------------------------------
  // The hook-arity mismatch

  function SearchTurn(query: string): Turn {
    Turn("Researcher", TOOL, NAME, NO_ACTION, None, Obj(map[NAME := Obj(map["query" := Str(query)])]), None)
  }

  function SearchResult(hits: seq<Hit>): Entry {
    ResultEntry(ToolResult(NAME, Encode(Hits(hits)), false))
  }

  function Filler(): Entry {
    TurnEntry(Turn("PM", AGENT, "Researcher", NO_ACTION, Some("continue"), Undef, None))
  }

  lemma RegistryOne(t: Tool)
    ensures Registry([t]) == map[t.name := t]
  {
    assert [t][..0] == [];
  }

  lemma EncodeIsJson(r: SearchReturn)
    ensures IsJson(Encode(r))
  {
    if r.Hits? {
      forall i | 0 <= i < |r.hits| ensures IsJson(Encode(r).items[i]) {
        assert Encode(r).items[i] == EncodeHit(r.hits[i]);
      }
    }
  }

  /** Called with one argument, the search hook erases the arguments of an
      older search turn; called as declared, it keeps the query. */
  lemma UnaryHookErasesArgs(fetch: Value -> Option<seq<Hit>>, query: string, passed: nat)
    requires passed >= Compactor.RECENT_WINDOW
    ensures var reg := Registry([SearchTool(fetch)]);
      var e := TurnEntry(SearchTurn(query));
      && Compactor.CompactEntryAsWritten(reg, passed + 1, 0, e)
           == Ok(TurnEntry(SearchTurn(query).(toolArgs := Obj(map[NAME := Undef]))))
      && Compactor.CompactEntry(reg, passed, e) == e
  {
    RegistryOne(SearchTool(fetch));
    var args := Obj(map[NAME := Obj(map["query" := Str(query)])]);
    assert Jsonify(args) == args by { JsonifyKeepsJson(args); }
    var m := args.fields;
    assert Field(m, NAME) == Obj(map["query" := Str(query)]);
    assert m[NAME := Field(m, NAME)] == m;
    assert m[NAME := Undef] == map[NAME := Undef];
  }

  /** Called with one argument, the result hook throws on an older
      non-empty hit list, and the whole compaction fails; called as
      declared, it blanks the snippets. */
  lemma UnaryHookThrowsOnResults(fetch: Value -> Option<seq<Hit>>, hits: seq<Hit>)
    requires hits != []
    ensures var h := [SearchResult(hits)] + seq(Compactor.RECENT_WINDOW, _ => Filler());
      var tools := [SearchTool(fetch)];
      && Compactor.CompactAsWritten(h, tools).Err?
      && Compactor.Compact(h, tools).history[0] == SearchResult(OmitResult(Compactor.RECENT_WINDOW, Hits(hits)).hits)
  {
    var h := [SearchResult(hits)] + seq(Compactor.RECENT_WINDOW, _ => Filler());
    var tools := [SearchTool(fetch)];
    var reg := Registry(tools);
    RegistryOne(SearchTool(fetch));
    assert h[0] == SearchResult(hits);
    EncodeIsJson(Hits(hits));
    JsonifyKeepsJson(Encode(Hits(hits)));
    assert Encode(Hits(hits)).items != [];
    assert Compactor.CompactEntryAsWritten(reg, |h|, 0, h[0]).Err?;
    Compactor.ThrowAborts(reg, h, 0, 0);
    OmitResultValueEncodes(Compactor.RECENT_WINDOW, Hits(hits));
  }
}

=== FILE: workspace.dfy ===
/** The project workspace: POSIX path resolution, the containment check
    used by `readFiles`, `getFileTree` and `getImageBase64`, the rendered
    file tree, and the per-file error mapping of `readFiles`. The file system is a
    parameter: a directory tree and a read-outcome function. */
module Workspace {
  import opened Wrappers

  const WORKSPACE_DIR: string := "workspace"
  const META_DIR: string := "_meta"
  const ESCAPE_ERROR: string := "不正なアクセスが試みられました。ワークスペース以下のファイルのみ操作できます。: "

  /** An absolute, normalized path as its segments; `[]` is the root. */
  type Path = seq<string>

  predicate IsSegment(s: string) {
    s != "" && s != "." && s != ".." && '/' !in s
  }

  predicate WellFormed(p: Path) {
    forall i :: 0 <= i < |p| ==> IsSegment(p[i])
  }

  /** `s.split("/")`. */
  function Split(s: string): (parts: seq<string>)
    ensures |parts| >= 1
    ensures forall i :: 0 <= i < |parts| ==> '/' !in parts[i]
  {
    if s == [] then [""]
    else
      var rest := Split(s[1..]);
      if s[0] == '/' then [""] + rest
      else [[s[0]] + rest[0]] + rest[1..]
  }

  /** Normalization of the segments after `stack`: empty and "." segments
      vanish, ".." drops the last segment and stops at the root. */
  function Normalize(stack: Path, segs: seq<string>): (r: Path)
    requires WellFormed(stack)
    requires forall i :: 0 <= i < |segs| ==> '/' !in segs[i]
    ensures WellFormed(r)
    decreases |segs|
  {
    if segs == [] then stack
    else
      var seg := segs[0];
      var next := if seg == "" || seg == "." then stack
                  else if seg == ".." then (if stack == [] then [] else stack[..|stack| - 1])
                  else stack + [seg];
      Normalize(next, segs[1..])
  }

  function SplitAll(paths: seq<string>): (segs: seq<string>)
    ensures forall i :: 0 <= i < |segs| ==> '/' !in segs[i]
  {
    if paths == [] then [] else Split(paths[0]) + SplitAll(paths[1..])
  }

  lemma {:induction false} SplitPlain(s: string)
    requires '/' !in s
    ensures Split(s) == [s]
  {
    if s != [] {
      assert '/' !in s[1..] by {
        forall i | 0 <= i < |s[1..]| ensures s[1..][i] != '/' { assert s[1..][i] == s[i + 1]; }
      }
      SplitPlain(s[1..]);
      assert [s[0]] + s[1..] == s;
    }
  }

  function Render(p: Path): string {
    if p == [] then "" else "/" + (p[0] + Render(p[1..]))
  }

  /** The string form of a resolved path: "/" for the root. */
  function RenderAbs(p: Path): string {
    if p == [] then "/" else Render(p)
  }

  function JoinWith(parts: seq<string>, sep: string): string {
    if parts == [] then ""
    else if |parts| == 1 then parts[0]
    else parts[0] + sep + JoinWith(parts[1..], sep)
  }

  /** The check at the heart of `getResolvePathSafe`, on strings: the joined
      path starts with the base plus a separator, or equals the base. */
  predicate Inside(base: Path, joined: Path) {
    (RenderAbs(base) + "/" <= RenderAbs(joined)) || RenderAbs(joined) == RenderAbs(base)
  }

  /** `getResolvePathSafe(baseDir, ...userPaths)` with `base` the resolved
      `baseDir`: join, resolve, then check containment. */
  function ResolvePathSafe(base: Path, userPaths: seq<string>): (r: Result<Path>)
    requires WellFormed(base)
    ensures r.Ok? ==> r.value == Normalize(base, SplitAll(userPaths)) && WellFormed(r.value)
    ensures r.Ok? <==> Inside(base, Normalize(base, SplitAll(userPaths)))
    ensures r.Err? ==> r.error == ESCAPE_ERROR + JoinWith(userPaths, "/")
  {
    var joined := Normalize(base, SplitAll(userPaths));
    if Inside(base, joined) then Ok(joined) else Err(ESCAPE_ERROR + JoinWith(userPaths, "/"))
  }

  lemma {:induction false} RenderAppend(a: Path, b: Path)
    ensures Render(a + b) == Render(a) + Render(b)
  {
    if a != [] {
      assert (a + b)[1..] == a[1..] + b;
      RenderAppend(a[1..], b);
    } else {
      assert a + b == b;
    }
  }

  lemma RenderStartsWithSlash(p: Path)
    requires p != []
    ensures |Render(p)| > 0 && Render(p)[0] == '/'
  {
  }

  /** Two segments followed by separators (or nothing) agree when one
      string is a prefix of the other ending at a separator. */
  lemma SegmentsAgree(a0: string, b0: string, ra: string, rb: string)
    requires '/' !in a0 && '/' !in b0
    requires ra == "" || ra[0] == '/'
    requires rb == "" || rb[0] == '/'
    requires a0 + ra <= b0 + rb
    requires |a0 + ra| == |b0 + rb| || (b0 + rb)[|a0 + ra|] == '/'
    ensures a0 == b0
  {
    var x := a0 + ra;
    var y := b0 + rb;
    assert forall j :: 0 <= j < |a0| ==> x[j] == a0[j] && a0[j] != '/';
    assert forall j :: 0 <= j < |b0| ==> y[j] == b0[j] && b0[j] != '/';
    assert |ra| > 0 ==> x[|a0|] == '/';
    assert |rb| > 0 ==> y[|b0|] == '/';
    assert |a0| == |b0|;
    assert a0 == x[..|a0|] && b0 == y[..|b0|];
  }

  lemma PrefixCancel(u: string, x: string, y: string)
    requires u + x <= u + y
    requires |u + x| == |u + y| || (u + y)[|u + x|] == '/'
    ensures x <= y
    ensures |x| == |y| || y[|x|] == '/'
  {
    assert forall i :: 0 <= i < |x| ==> x[i] == (u + x)[|u| + i] == (u + y)[|u| + i] == y[i];
    if |x| < |y| {
      assert (u + y)[|u + x|] == y[|x|];
    }
  }

  /** The first segment of two rendered paths agrees when the shorter
      rendering ends at a separator of the longer one. */
  lemma FirstSegment(a: Path, b: Path)
    requires a != [] && b != [] && WellFormed(a) && WellFormed(b)
    requires Render(a) <= Render(b)
    requires |Render(a)| == |Render(b)| || Render(b)[|Render(a)|] == '/'
    ensures a[0] == b[0]
    ensures Render(a[1..]) <= Render(b[1..])
    ensures |Render(a[1..])| == |Render(b[1..])| || Render(b[1..])[|Render(a[1..])|] == '/'
  {
    var ra := Render(a[1..]);
    var rb := Render(b[1..]);
    assert ra == "" || ra[0] == '/' by {
      if a[1..] != [] { RenderStartsWithSlash(a[1..]); }
    }
    assert rb == "" || rb[0] == '/' by {
      if b[1..] != [] { RenderStartsWithSlash(b[1..]); }
    }
    assert '/' !in a[0] && '/' !in b[0] by {
      assert IsSegment(a[0]) && IsSegment(b[0]);
    }
    var x := a[0] + ra;
    var y := b[0] + rb;
    assert Render(a) == "/" + x && Render(b) == "/" + y;
    PrefixCancel("/", x, y);
    SegmentsAgree(a[0], b[0], ra, rb);
    PrefixCancel(a[0], ra, rb);
  }

  /** On well-formed paths, a rendering that is a prefix of another ending at
      a separator comes from a segment prefix. */
  lemma {:induction false} RenderPrefix(a: Path, b: Path)
    requires WellFormed(a) && WellFormed(b)
    requires Render(a) <= Render(b)
    requires |Render(a)| == |Render(b)| || Render(b)[|Render(a)|] == '/'
    ensures a <= b
  {
    if a != [] {
      assert b != [];
      FirstSegment(a, b);
      RenderPrefix(a[1..], b[1..]);
      assert a == [a[0]] + a[1..];
      assert b == [b[0]] + b[1..];
    }
  }

  /** For any base other than the root, the string check accepts exactly
      the paths that lie in or below the base, segment by segment: a sibling
      such as `/base/dir-something` is refused though it shares a string
      prefix with `/base/dir`. */
  lemma InsideIffPrefix(base: Path, joined: Path)
    requires base != [] && WellFormed(base) && WellFormed(joined)
    ensures Inside(base, joined) <==> base <= joined
  {
    if base <= joined {
      var rest := joined[|base|..];
      assert joined == base + rest;
      RenderAppend(base, rest);
      if rest != [] {
        RenderStartsWithSlash(rest);
        assert RenderAbs(joined) == Render(base) + Render(rest);
        assert (Render(base) + "/") <= RenderAbs(joined);
      } else {
        assert joined == base;
      }
    }
    if Inside(base, joined) {
      if joined == [] {
        assert false;
      }
      RenderPrefix(base, joined);
    }
  }

  /** With the root as base, `"/" + "/"` prefixes no resolved path, so only
      the root itself passes. */
  lemma RootBaseAcceptsOnlyRoot(joined: Path)
    requires WellFormed(joined)
    ensures Inside([], joined) <==> joined == []
  {
    if joined != [] {
      assert IsSegment(joined[0]);
      assert RenderAbs(joined) == "/" + joined[0] + Render(joined[1..]);
      assert RenderAbs(joined)[1] == joined[0][0];
      assert joined[0][0] in joined[0];
    }
  }

  /** A successful resolution never leaves the base. */
  lemma ResolvedStaysInside(base: Path, userPaths: seq<string>)
    requires base != [] && WellFormed(base)
    requires ResolvePathSafe(base, userPaths).Ok?
    ensures base <= ResolvePathSafe(base, userPaths).value
  {
    InsideIffPrefix(base, Normalize(base, SplitAll(userPaths)));
  }

  /** `/w/d` refuses `../dx`, a sibling sharing its string prefix, and
      accepts "." (the base itself). */
  lemma SiblingRefusedBaseAccepted()
    ensures ResolvePathSafe(["w", "d"], ["../dx"]).Err?
    ensures ResolvePathSafe(["w", "d"], ["."]) == Ok(["w", "d"])
  {
    var base := ["w", "d"];
    SplitPlain("dx");
    assert "/dx"[1..] == "dx";
    assert Split("/dx") == ["", "dx"];
    assert "./dx"[1..] == "/dx";
    assert ['.'] + "" == ".";
    assert Split("./dx") == [".", "dx"];
    assert "../dx"[1..] == "./dx";
    assert ['.'] + "." == "..";
    assert Split("../dx") == ["..", "dx"];
    assert SplitAll(["../dx"]) == ["..", "dx"];
    assert Normalize(["w"], ["dx"]) == ["w", "dx"];
    var j := Normalize(base, ["..", "dx"]);
    assert j == ["w", "dx"];
    assert WellFormed(base) && WellFormed(j);
    InsideIffPrefix(base, j);
    assert j[1] != base[1];
    SplitPlain(".");
    assert SplitAll(["."]) == ["."];
  }

  // ---------------------------------------------------------------------
  // File tree

  datatype Node = File(name: string) | Dir(name: string, children: seq<Node>)

  function Indent(level: nat): (s: string)
    ensures |s| == 4 * level
    ensures forall i :: 0 <= i < |s| ==> s[i] == ' '
  {
    if level == 0 then "" else "    " + Indent(level - 1)
  }

  /** `walk`: pre-order, `_meta` skipped at every level, 4 spaces of indent
      per level, directories suffixed with "/". */
  function Walk(nodes: seq<Node>, level: nat): seq<string>
    decreases nodes
  {
    if nodes == [] then []
    else WalkNode(nodes[0], level) + Walk(nodes[1..], level)
  }

  function WalkNode(n: Node, level: nat): seq<string>
    decreases n
  {
    if n.name == META_DIR then []
    else match n
      case File(name) => [Indent(level) + name]
      case Dir(name, children) => [Indent(level) + name + "/"] + Walk(children, level + 1)
  }

  /** `getFileTree`: the lines joined with newlines. */
  function FileTree(root: seq<Node>): string {
    JoinWith(Walk(root, 0), "\n")
  }

  /** The tree with every `_meta` entry removed, at every depth. */
  function Prune(nodes: seq<Node>): (r: seq<Node>)
    decreases nodes
  {
    if nodes == [] then []
    else (if nodes[0].name == META_DIR then [] else [PruneNode(nodes[0])]) + Prune(nodes[1..])
  }

  function PruneNode(n: Node): Node
    decreases n
  {
    match n
    case File(_) => n
    case Dir(name, children) => Dir(name, Prune(children))
  }

  /** The number of entries outside `_meta`: one line each. */
  function Count(nodes: seq<Node>): nat
    decreases nodes
  {
    if nodes == [] then 0
    else CountNode(nodes[0]) + Count(nodes[1..])
  }

  function CountNode(n: Node): nat
    decreases n
  {
    if n.name == META_DIR then 0
    else match n
      case File(_) => 1
      case Dir(_, children) => 1 + Count(children)
  }

  /** `_meta` contributes nothing: the rendering of a tree equals that of
      the tree without it; every visible entry gives exactly one line; and
      every line carries at least its level's indentation. */
  lemma {:induction false} WalkProperties(nodes: seq<Node>, level: nat)
    ensures Walk(nodes, level) == Walk(Prune(nodes), level)
    ensures |Walk(nodes, level)| == Count(nodes)
    ensures forall i :: 0 <= i < |Walk(nodes, level)| ==> Indent(level) <= Walk(nodes, level)[i]
    decreases nodes
  {
    if nodes != [] {
      WalkNodeProperties(nodes[0], level);
      WalkProperties(nodes[1..], level);
      var p := Prune(nodes[1..]);
      if nodes[0].name == META_DIR {
        assert Prune(nodes) == p;
      } else {
        assert Prune(nodes) == [PruneNode(nodes[0])] + p;
        assert Prune(nodes)[1..] == p;
      }
      var w := Walk(nodes, level);
      var w0 := WalkNode(nodes[0], level);
      forall i | 0 <= i < |w| ensures Indent(level) <= w[i] {
        if i < |w0| { assert w[i] == w0[i]; } else { assert w[i] == Walk(nodes[1..], level)[i - |w0|]; }
      }
    }
  }

  lemma {:induction false} WalkNodeProperties(n: Node, level: nat)
    ensures n.name != META_DIR ==> WalkNode(n, level) == WalkNode(PruneNode(n), level)
    ensures |WalkNode(n, level)| == CountNode(n)
    ensures forall i :: 0 <= i < |WalkNode(n, level)| ==> Indent(level) <= WalkNode(n, level)[i]
    decreases n
  {
    if n.Dir? && n.name != META_DIR {
      WalkProperties(n.children, level + 1);
      var w := WalkNode(n, level);
      var ws := Walk(n.children, level + 1);
      assert Indent(level + 1) == "    " + Indent(level) by { IndentShift(level); }
      forall i | 0 <= i < |w| ensures Indent(level) <= w[i] {
        if i > 0 {
          assert w[i] == ws[i - 1];
          assert Indent(level + 1) <= ws[i - 1];
          assert Indent(level) <= Indent(level + 1);
        }
      }
    }
  }

  /** The reference order: every entry outside `_meta` with its depth,
      each directory before its contents, siblings in listing order. */
  function Visit(nodes: seq<Node>, depth: nat): seq<(nat, Node)>
    decreases nodes
  {
    if nodes == [] then []
    else VisitNode(nodes[0], depth) + Visit(nodes[1..], depth)
  }

  function VisitNode(n: Node, depth: nat): seq<(nat, Node)>
    decreases n
  {
    if n.name == META_DIR then []
    else [(depth, n)] + (if n.Dir? then Visit(n.children, depth + 1) else [])
  }

  /** How one visited entry is displayed. */
  function Line(depth: nat, n: Node): string {
    Indent(depth) + n.name + (if n.Dir? then "/" else "")
  }

  function TreeLines(v: seq<(nat, Node)>): (r: seq<string>)
    ensures |r| == |v|
    ensures forall i :: 0 <= i < |v| ==> r[i] == Line(v[i].0, v[i].1)
  {
    seq(|v|, i requires 0 <= i < |v| => Line(v[i].0, v[i].1))
  }

  lemma TreeLinesAppend(a: seq<(nat, Node)>, b: seq<(nat, Node)>)
    ensures TreeLines(a + b) == TreeLines(a) + TreeLines(b)
  {
  }

  /** The walk displays the reference order, one line per visited entry. */
  lemma {:induction false} WalkIsVisit(nodes: seq<Node>, level: nat)
    ensures Walk(nodes, level) == TreeLines(Visit(nodes, level))
    decreases nodes
  {
    if nodes != [] {
      WalkNodeIsVisit(nodes[0], level);
      WalkIsVisit(nodes[1..], level);
      TreeLinesAppend(VisitNode(nodes[0], level), Visit(nodes[1..], level));
    }
  }

  lemma {:induction false} WalkNodeIsVisit(n: Node, level: nat)
    ensures WalkNode(n, level) == TreeLines(VisitNode(n, level))
    decreases n
  {
    if n.name != META_DIR {
      if n.Dir? {
        WalkIsVisit(n.children, level + 1);
        TreeLinesAppend([(level, n)], Visit(n.children, level + 1));
      } else {
        assert VisitNode(n, level) == [(level, n)];
        assert Line(level, n) == Indent(level) + n.name;
      }
    }
  }

  /** Every visited entry lies outside `_meta` at a depth no less than the
      starting level. */
  lemma {:induction false} VisitBounds(nodes: seq<Node>, level: nat)
    ensures forall i :: 0 <= i < |Visit(nodes, level)| ==>
      Visit(nodes, level)[i].1.name != META_DIR && Visit(nodes, level)[i].0 >= level
    decreases nodes
  {
    if nodes != [] {
      VisitNodeBounds(nodes[0], level);
      VisitBounds(nodes[1..], level);
      var a := VisitNode(nodes[0], level);
      var b := Visit(nodes[1..], level);
      var v: seq<(nat, Node)> := a + b;
      forall i | 0 <= i < |v| ensures v[i].1.name != META_DIR && v[i].0 >= level {
        if i < |a| { assert v[i] == a[i]; } else { assert v[i] == b[i - |a|]; }
      }
    }
  }

  lemma {:induction false} VisitNodeBounds(n: Node, level: nat)
    ensures forall i :: 0 <= i < |VisitNode(n, level)| ==>
      VisitNode(n, level)[i].1.name != META_DIR && VisitNode(n, level)[i].0 >= level
    decreases n
  {
    if n.name != META_DIR && n.Dir? {
      VisitBounds(n.children, level + 1);
      var c := Visit(n.children, level + 1);
      var v: seq<(nat, Node)> := [(level, n)] + c;
      forall i | 0 <= i < |v| ensures v[i].1.name != META_DIR && v[i].0 >= level {
        if i > 0 { assert v[i] == c[i - 1]; }
      }
    }
  }

  /** `getFileTree`'s lines: line i is the i-th visited entry, indented four
      spaces per level, its name followed by "/" exactly for a directory,
      and never an entry named `_meta`. */
  lemma WalkLines(root: seq<Node>)
    ensures var v := Visit(root, 0);
      && |Walk(root, 0)| == |v|
      && forall i :: 0 <= i < |v| ==>
           && Walk(root, 0)[i] == Indent(v[i].0) + v[i].1.name + (if v[i].1.Dir? then "/" else "")
           && v[i].1.name != META_DIR
  {
    WalkIsVisit(root, 0);
    VisitBounds(root, 0);
  }

  lemma {:induction false} IndentShift(level: nat)
    ensures Indent(level + 1) == "    " + Indent(level)
    ensures Indent(level) <= Indent(level + 1)
  {
  }

  // ---------------------------------------------------------------------
  // readFiles

  /** How reading one resolved path ended. */
  datatype ReadOutcome = Content(text: string) | NotFound | ReadError(message: string) | NonError

  /** The text `readFiles` stores for one file. */
  function Describe(filename: string, outcome: ReadOutcome): string {
    match outcome
    case Content(text) => text
    case NotFound => "ERROR: ファイル '" + filename + "' が見つかりません。"
    case ReadError(m) => "ERROR: ファイル '" + filename + "' の読み込み中にエラーが発生しました: " + m
    case NonError => "ERROR: ファイル '" + filename + "' の読み込み中に不明なエラーが発生しました。"
  }

  /** `readFiles` over a resolver: each name is resolved outside the
      `try`, so a failed resolution fails the whole call, while read
      failures become per-file messages. */
  function ReadFilesWith(resolve: string -> Result<Path>, filenames: seq<string>, read: Path -> ReadOutcome): (r: Result<map<string, string>>)
    decreases |filenames|
  {
    if filenames == [] then Ok(map[])
    else
      var f := filenames[|filenames| - 1];
      var contents :- ReadFilesWith(resolve, filenames[..|filenames| - 1], read);
      var full :- resolve(f);
      Ok(contents[f := Describe(f, read(full))])
  }

  /** `readFiles(projectDir, filenames)`, resolving with `getResolvePathSafe`. */
  function ReadFiles(project: Path, filenames: seq<string>, read: Path -> ReadOutcome): Result<map<string, string>>
    requires WellFormed(project)
  {
    ReadFilesWith(f => ResolvePathSafe(project, [f]), filenames, read)
  }

  predicate Escapes(project: Path, filename: string)
    requires WellFormed(project)
  {
    ResolvePathSafe(project, [filename]).Err?
  }

  /** The call fails exactly when some name fails to resolve. */
  lemma {:induction false} ReadFilesWithFails(resolve: string -> Result<Path>, filenames: seq<string>, read: Path -> ReadOutcome)
    ensures ReadFilesWith(resolve, filenames, read).Err? <==> exists i :: 0 <= i < |filenames| && resolve(filenames[i]).Err?
    decreases |filenames|
  {
    if filenames != [] {
      var n := |filenames| - 1;
      var init := filenames[..n];
      ReadFilesWithFails(resolve, init, read);
      if exists i :: 0 <= i < n && resolve(init[i]).Err? {
        var i :| 0 <= i < n && resolve(init[i]).Err?;
        assert filenames[i] == init[i];
      }
      if exists i :: 0 <= i < |filenames| && resolve(filenames[i]).Err? {
        var i :| 0 <= i < |filenames| && resolve(filenames[i]).Err?;
        if i < n { assert init[i] == filenames[i]; }
      }
    }
  }

  /** Otherwise it has one key per requested name... */
  lemma {:induction false} ReadFilesWithKeys(resolve: string -> Result<Path>, filenames: seq<string>, read: Path -> ReadOutcome)
    requires ReadFilesWith(resolve, filenames, read).Ok?
    ensures ReadFilesWith(resolve, filenames, read).value.Keys == (set i | 0 <= i < |filenames| :: filenames[i])
    decreases |filenames|
  {
    if filenames != [] {
      var n := |filenames| - 1;
      var init := filenames[..n];
      ReadFilesWithKeys(resolve, init, read);
      var keys := ReadFilesWith(resolve, filenames, read).value.Keys;
      assert keys == ReadFilesWith(resolve, init, read).value.Keys + {filenames[n]};
      forall k | k in keys ensures k in (set i | 0 <= i < |filenames| :: filenames[i]) {
        if k != filenames[n] {
          var i :| 0 <= i < n && init[i] == k;
          assert filenames[i] == k;
        }
      }
      forall i | 0 <= i < |filenames| ensures filenames[i] in keys {
        if i < n { assert init[i] == filenames[i]; }
      }
    }
  }

  /** ...holding that file's text or its error message. */
  lemma {:induction false} ReadFilesWithValues(resolve: string -> Result<Path>, filenames: seq<string>, read: Path -> ReadOutcome, i: nat)
    requires ReadFilesWith(resolve, filenames, read).Ok?
    requires i < |filenames|
    ensures resolve(filenames[i]).Ok?
    ensures filenames[i] in ReadFilesWith(resolve, filenames, read).value
    ensures ReadFilesWith(resolve, filenames, read).value[filenames[i]]
      == Describe(filenames[i], read(resolve(filenames[i]).value))
    decreases |filenames|
  {
    var n := |filenames| - 1;
    if i < n {
      var init := filenames[..n];
      assert init[i] == filenames[i];
      ReadFilesWithValues(resolve, init, read, i);
      ReadFilesWithFails(resolve, filenames, read);
    }
  }

  /** `readFiles` fails exactly when some name escapes the project;
      otherwise it maps every requested name to the text read from the
      path it resolves to, or to that file's error message. */
  lemma ReadFilesSpec(project: Path, filenames: seq<string>, read: Path -> ReadOutcome)
    requires WellFormed(project)
    ensures ReadFiles(project, filenames, read).Err? <==> exists i :: 0 <= i < |filenames| && Escapes(project, filenames[i])
    ensures ReadFiles(project, filenames, read).Ok? ==>
      ReadFiles(project, filenames, read).value.Keys == (set i | 0 <= i < |filenames| :: filenames[i])
      && forall i :: 0 <= i < |filenames| ==>
           ReadFiles(project, filenames, read).value[filenames[i]]
             == Describe(filenames[i], read(Normalize(project, SplitAll([filenames[i]]))))
  {
    var resolve := f => ResolvePathSafe(project, [f]);
    ReadFilesWithFails(resolve, filenames, read);
    if ReadFiles(project, filenames, read).Ok? {
      ReadFilesWithKeys(resolve, filenames, read);
      forall i | 0 <= i < |filenames|
        ensures ReadFiles(project, filenames, read).value[filenames[i]]
          == Describe(filenames[i], read(Normalize(project, SplitAll([filenames[i]]))))
      {
        ReadFilesWithValues(resolve, filenames, read, i);
      }
    }
  }
}

=== FILE: wrappers.dfy ===
/** Failure-carrying wrappers used throughout the model. A JavaScript `throw`
    is modelled as `Err(message)`; `undefined`/`null` results as `None`. */
module Wrappers {

  datatype Option<+T> = None | Some(value: T) {
    function GetOr(default: T): T {
      match this
      case Some(v) => v
      case None => default
    }
  }

  datatype Result<+T> = Ok(value: T) | Err(error: string) {
    predicate IsFailure() {
      Err?
    }

    function PropagateFailure<U>(): Result<U>
      requires Err?
    {
      Err(error)
    }

    function Extract(): T
      requires Ok?
    {
      value
    }
  }
}

=== FILE: zod.dfy ===
/** The slice of Zod's schema algebra the engine builds and translates.
    A schema is a kind plus the optional `.describe()` text. */
module Zod {
  import opened Wrappers

  datatype Schema = Schema(kind: Kind, description: Option<string>)

  datatype Kind =
    | ZString
    | ZNumber
    | ZBoolean
    | ZAny
    | ZEnum(values: seq<string>)
    | ZLiteral(literal: string)
    | ZArray(element: Schema)
    | ZObject(shape: seq<(string, Schema)>)
    | ZUnion(options: seq<Schema>)
    | ZOptional(inner: Schema)
    | ZNullable(inner: Schema)
    | ZDefault(inner: Schema)

  function Plain(k: Kind): Schema {
    Schema(k, None)
  }

  function Described(k: Kind, d: string): Schema {
    Schema(k, Some(d))
  }

  /** `.describe(d)`: the same schema with a new description. */
  function Describe(s: Schema, d: string): Schema {
    s.(description := Some(d))
  }

  /** `.optional()` and `.default(..)`: Zod copies the wrapped schema's
      description onto the wrapper. */
  function Optional(s: Schema): Schema {
    Schema(ZOptional(s), s.description)
  }

  function WithDefault(s: Schema): Schema {
    Schema(ZDefault(s), s.description)
  }

  /** Zod's `isOptional()`: whether the schema accepts `undefined`. */
  predicate IsOptional(s: Schema)
    decreases s
  {
    match s.kind
    case ZOptional(_) => true
    case ZDefault(_) => true
    case ZAny => true
    case ZNullable(inner) => IsOptional(inner)
    case ZUnion(options) => exists i :: 0 <= i < |options| && IsOptional(options[i])
    case _ => false
  }

  /** The keys of an object shape, in order. */
  function Keys<T>(shape: seq<(string, T)>): (ks: seq<string>)
    ensures |ks| == |shape|
    ensures forall i :: 0 <= i < |shape| ==> ks[i] == shape[i].0
  {
    if shape == [] then [] else [shape[0].0] + Keys(shape[1..])
  }

  /** Assigning `obj[key] = value` on an object whose key order is `shape`:
      an existing key keeps its position and takes the new value, a new key
      is appended. */
  function Upsert<T>(shape: seq<(string, T)>, key: string, value: T): (r: seq<(string, T)>)
    ensures |r| > 0
  {
    if shape == [] then [(key, value)]
    else if shape[0].0 == key then [(key, value)] + shape[1..]
    else [shape[0]] + Upsert(shape[1..], key, value)
  }

  /** After assignment the keys are the old ones plus `key`. */
  lemma {:induction false} UpsertKeys<T>(shape: seq<(string, T)>, key: string, value: T)
    ensures key in Keys(Upsert(shape, key, value))
    ensures forall k :: k in Keys(Upsert(shape, key, value)) <==> k == key || k in Keys(shape)
  {
    var r := Upsert(shape, key, value);
    if shape == [] {
      assert Keys(r) == [key];
    } else if shape[0].0 == key {
      assert r[1..] == shape[1..];
      assert Keys(r) == [key] + Keys(shape[1..]);
      assert Keys(shape) == [key] + Keys(shape[1..]);
    } else {
      UpsertKeys(shape[1..], key, value);
      assert r[1..] == Upsert(shape[1..], key, value);
      assert Keys(r) == [shape[0].0] + Keys(r[1..]);
      assert Keys(shape) == [shape[0].0] + Keys(shape[1..]);
    }
  }

  /** Assigning a key that sits at position `n` keeps the entries around
      it in place. */
  lemma {:induction false} UpsertAt<T>(b: seq<(string, T)>, k: string, x: T, n: nat)
    requires n < |b| && b[n].0 == k
    requires forall i :: 0 <= i < n ==> b[i].0 != k
    ensures Upsert(b, k, x) == b[..n] + [(k, x)] + b[n + 1..]
  {
    if n > 0 {
      var rest := b[1..];
      assert b[0].0 != k;
      assert forall i :: 0 <= i < n - 1 ==> rest[i].0 != k by {
        forall i | 0 <= i < n - 1 ensures rest[i].0 != k { assert rest[i] == b[i + 1]; }
      }
      UpsertAt(rest, k, x, n - 1);
      assert Upsert(b, k, x) == [b[0]] + Upsert(rest, k, x);
      assert rest[..n - 1] == b[1..n];
      assert rest[n..] == b[n + 1..];
      assert [b[0]] + b[1..n] == b[..n];
    } else {
      assert b[..0] == [];
    }
  }

  /** No key occurs twice: the shape of a JavaScript object. */
  predicate DistinctKeys<T>(shape: seq<(string, T)>) {
    forall i, j :: 0 <= i < j < |shape| ==> shape[i].0 != shape[j].0
  }

  /** The value an object with this shape holds under `key`. */
  function Lookup<T>(shape: seq<(string, T)>, key: string): Option<T> {
    if shape == [] then None
    else if shape[0].0 == key then Some(shape[0].1)
    else Lookup(shape[1..], key)
  }

  lemma {:induction false} LookupPresent<T>(shape: seq<(string, T)>, key: string)
    ensures Lookup(shape, key).Some? <==> key in Keys(shape)
  {
    if shape != [] {
      LookupPresent(shape[1..], key);
      assert Keys(shape) == [shape[0].0] + Keys(shape[1..]);
    }
  }

  /** Assignment keeps keys distinct, the key now reads as the new value and
      every other key reads as before. */
  lemma UpsertSpec<T>(shape: seq<(string, T)>, key: string, value: T)
    requires DistinctKeys(shape)
    ensures DistinctKeys(Upsert(shape, key, value))
    ensures Lookup(Upsert(shape, key, value), key) == Some(value)
    ensures forall k :: k != key ==> Lookup(Upsert(shape, key, value), k) == Lookup(shape, k)
    ensures key in Keys(shape) ==> Keys(Upsert(shape, key, value)) == Keys(shape)
  {
    UpsertDistinct(shape, key, value);
    UpsertLookup(shape, key, value);
    UpsertSameKeys(shape, key, value);
  }

  lemma {:induction false} UpsertLookup<T>(shape: seq<(string, T)>, key: string, value: T)
    ensures Lookup(Upsert(shape, key, value), key) == Some(value)
    ensures forall k :: k != key ==> Lookup(Upsert(shape, key, value), k) == Lookup(shape, k)
  {
    if shape != [] && shape[0].0 != key {
      UpsertLookup(shape[1..], key, value);
      assert Upsert(shape, key, value)[1..] == Upsert(shape[1..], key, value);
    }
  }

  lemma {:induction false} UpsertSameKeys<T>(shape: seq<(string, T)>, key: string, value: T)
    ensures key in Keys(shape) ==> Keys(Upsert(shape, key, value)) == Keys(shape)
  {
    if shape != [] {
      var r := Upsert(shape, key, value);
      var tail := shape[1..];
      assert Keys(shape) == [shape[0].0] + Keys(tail);
      if shape[0].0 == key {
        assert r[1..] == tail;
        assert Keys(r) == [key] + Keys(tail);
      } else {
        UpsertSameKeys(tail, key, value);
        assert r[1..] == Upsert(tail, key, value);
        assert Keys(r) == [shape[0].0] + Keys(r[1..]);
      }
    }
  }

  lemma {:induction false} UpsertDistinct<T>(shape: seq<(string, T)>, key: string, value: T)
    requires DistinctKeys(shape)
    ensures DistinctKeys(Upsert(shape, key, value))
  {
    if shape != [] {
      var r := Upsert(shape, key, value);
      var tail := shape[1..];
      assert DistinctKeys(tail) by {
        forall i, j | 0 <= i < j < |tail| ensures tail[i].0 != tail[j].0 {
          assert tail[i] == shape[i + 1] && tail[j] == shape[j + 1];
        }
      }
      if shape[0].0 == key {
        assert r[1..] == tail;
        forall i, j | 0 <= i < j < |r| ensures r[i].0 != r[j].0 {
          assert r[j] == shape[j];
          if i > 0 { assert r[i] == shape[i]; }
        }
      } else {
        UpsertDistinct(tail, key, value);
        var u := Upsert(tail, key, value);
        assert r == [shape[0]] + u;
        assert shape[0].0 !in Keys(tail) by {
          forall i | 0 <= i < |tail| ensures tail[i].0 != shape[0].0 {
            assert tail[i] == shape[i + 1];
          }
        }
        UpsertKeys(tail, key, value);
        assert shape[0].0 !in Keys(u);
        forall i, j | 0 <= i < j < |r| ensures r[i].0 != r[j].0 {
          if i == 0 {
            assert r[j] == u[j - 1];
            assert Keys(u)[j - 1] == u[j - 1].0;
          } else {
            assert r[i] == u[i - 1] && r[j] == u[j - 1];
          }
        }
      }
    }
  }
}
